=== FILE: README.md ===
# AYAB knitting-machine firmware: a Dafny model

This project models the firmware that drives Brother electronic knitting
machines: it tracks the carriage with a rotary encoder and two hall sensors,
fires one of 16 solenoids (12 on the KH270) for each needle the carriage
is about to select, and exchanges the pattern line by line with a host over
a framed serial protocol. The repository holds four generations of this
firmware side by side, and each is modelled in its own modules:

- **The Op-state design** (`src/ayab`, current). `Controller`
  (`controller.cpp`) drives the states `OpIdle`, `OpInit`, `OpReady`,
  `OpKnit`, `OpTest` and `OpError`. `Com` is the protocol handler, with the
  CRC-8 of `Crc8`. `Encoders`, `Solenoids` and `Machine` are the hardware
  components, and `TestCommands` holds the hardware-test commands that
  three files share.
- **The older `src/ayab` layer.** `OpFsm` (`op.cpp`) is the enumerated state
  machine, `TestMode` (`test.cpp`) its test state, `Knitter`
  (`knitter.cpp`) the older knitting engine and `Tester` (`tester.cpp`) the
  older hardware tester. `SerialEncoding` is the API-5 protocol handler.
  `Fsm` (`fsm.cpp`) is the state-object driver, shown to behave step for
  step like `Controller`.
- **The root-level prototypes.** `ProtoEncoders`, `ProtoHallSensor`,
  `ProtoKnitter`, `ProtoSerial`, `ProtoSolenoids` (`solenoids.cpp`) and
  `ProtoSolenoidsWire` (`Solenoids.cpp`).
- **The `lib` rewrite.** `Api` (`lib/api/api.cpp`) is the message handler.
  The components are `LibEncoder`, `LibHallSensor`, `LibCarriage`,
  `LibMachine`, `LibSolenoids`, `LibBeeper`, `LibLed` and `LibLine`.
  `LibKnitter` (`lib/components/knitter/knitter.cpp`) is the knitter that
  schedules them.

`Bytes` holds the shared machinery:
- the C integer widths, with their wrap-around written out;
- C's truncating division and remainder;
- big-endian words and bit access.

`AyabTypes` holds the enumerations, error codes and observable outputs of
`src/ayab`. Its `Latch` gives the word the two solenoid expanders hold after
a run of outputs, so every solenoid driver can be stated to keep the
hardware in step with its shadow word.

Every operation is a pure function from the component's state and its
inputs to the new state and the ordered outputs, which are LED and
solenoid writes, messages sent and calls made into other components. The
model takes the following as inputs, never as effects:
- the millisecond clock;
- the analog and digital pin readings;
- the answers of components outside a module;
- the current contents of the protocol layer's static line buffer. Both
  `src/ayab` knitters hold a pointer to that buffer, not a copy, so each
  knitting step reads the buffer as the protocol layer last wrote it.
  `LineFlow` ties a line confirmation to the solenoid word the next step
  writes from it.

The comparisons a component makes on the clock use the unsigned 32-bit
difference the source computes.

A state's `end` may itself request a state, as `OpKnit::end` and
`OpTest::end` do. On every path the request names the state already
pending, so `Controller.Update` and `Fsm.Update` take the request only
from `update`. When the last line is finished, `OpKnit::end` runs twice:
once from `doKnitting` (`src/ayab/opKnit.cpp:309`), and again when the
controller commits the ready state that call requested
(`src/ayab/controller.cpp:61`, `src/ayab/fsm.cpp:66`). The end-of-work and
finished-line beeps and the solenoid reset are therefore made twice. In the
model these are the `End` outputs of the knitting step, followed by the
controller's call of `OpKnit.End`.

Where the generations differ, or a file does not match the others, the
model follows each file as written:
- The lib hall sensor takes south-then-north as the G carriage, but the
  root prototype takes north-then-south. Each is modelled as its own file
  has it.
- The `lib` rewrite does not build as shown, and the model makes these
  choices:
  - The knitter passes `Line::workedOn` a flag where `line.cpp` takes a
    machine side. `LibKnitter.SideOf` gives the side the flag stands for.
  - `getDetectedBeltPhase` has no body, so each sensor's belt phase is an
    input.
  - `isDetected` is called with one more argument than it is defined with,
    and the model follows the definition.
  - `getSensorConfig` takes a `Direction`.
  - `api.h` names the G carriage `Gartner`, and `carriage.cpp` names it
    `Garter` and adds `Knit270`. `LibTypes` has both.
  - `api.cpp`, its header `api.h` and the knitter's overrides disagree on
    five hooks. `Api` follows `api.cpp` throughout, and `LibKnitter`
    follows `api.h` and `knitter.cpp`, so the two modules are not composed:
    - `api.cpp:65` calls `_apiRxSetConfig` with a fourth argument, the
      beeper flag `buffer[3] & 2`. `api.h:62` and `knitter.cpp:131` take
      three. `Api.Hooks.setConfig` takes four; `LibKnitter.SetConfig`
      takes three.
    - `api.cpp:78` calls `_apiRxSetLine` with the pattern length `size - 5`
      as an extra argument. `api.h:65` and `knitter.cpp:148` take three.
      `Api.Hooks.setLine` gets the pattern as a sequence of that length;
      `LibKnitter.SetLine` takes three arguments.
    - Both hooks return `bool` in `api.h` and `knitter.cpp`, but `api.cpp`
      stores the result in the error code `_error`. `Api.Hooks` returns an
      error byte; `LibKnitter.SetConfig` and `LibKnitter.SetLine` return
      `bool`.
    - `api.cpp:139` defines `_apiIndicateState` with a `KnitterState` first
      and a `MachineSide` for the active sensor. `api.h:75` declares it
      with the two hall values first, an `initDone` flag and a `Direction`
      for the active sensor, and `knitter.cpp:166` calls that form.
      `Api.IndicateStateMessage` puts the state in byte 2;
      `LibKnitter.StateReport` reports `initDone`.
    - `api.cpp:171` defines `_apiConfirmStart()` with no argument and sends
      `_error`; `api.h:80` declares `_apiConfirmStart(bool success)`.
      `Api.ConfirmStartMessage` follows the definition.

## Model

| member | source | states |
|---|---|---|
| Crc8.ComputeCrc | src/ayab/com.cpp:39-57 | the byte loop and the eight-step shift/xor-0x8C bit loop return exactly the reference checksum: a left fold of the per-byte update starting from 0 |
| Crc8.CrcEmpty | src/ayab/com.cpp:40-56 | the checksum of an empty buffer is 0 (the register's initial value) |
| Crc8.CrcExample | src/ayab/com.cpp:39-57 | the message [0x01, 0x00, 0x0A, 0x01] has checksum 0x36 |
| Crc8.CrcAppend | src/ayab/com.cpp:42-55 | the checksum of a concatenation continues the fold from the checksum of the prefix |
| Crc8.CrcResidue | src/ayab/com.cpp:39-57 | a buffer followed by its own checksum has checksum 0 |
| Com.HReqStart | src/ayab/com.cpp:178-220 | too short (6 bytes with CRC support, 5 without) or a bad checksum of bytes 0-4: nothing changes, nothing is called or sent; otherwise the line buffer is all 0xFF, startKnitting gets bytes 1-3 and byte 4 ≠ 0, and exactly [cnfStart, success] is sent |
| Com.HCnfLine | src/ayab/com.cpp:228-262 | shorter than the line length + 5: no effect; otherwise the complemented pattern is stored before the checksum test; a bad checksum calls nothing; a good one calls setNextLine(byte 1) and setLastLine only if the line was accepted and bit 0 of the flags is set |
| Com.HReqInfo | src/ayab/com.cpp:264-271 | sends exactly [cnfInfo, API version 6, firmware 1.0] and changes nothing else |
| Com.HReqTestAsWritten | src/ayab/com.cpp:278-292 | under 2 bytes: no effect; otherwise startTest receives byte 0 and [cnfTest, success] is sent |
| Com.ReqTestMachineIsMessageId | src/ayab/com.cpp:278-292 | as written, every test request of at least 2 bytes that the dispatcher routes makes exactly one call, startTest with the message id 0x04 as the machine type, so a machine byte other than 0x04 never arrives |
| Com.HReqTest | src/ayab/com.cpp:278-292 | the corrected handler: the machine type comes from byte 1; the length check and reply are unchanged |
| Com.OnPacketReceived | src/ayab/com.cpp:70-136 | as written: a start request calls startKnitting exactly when it has 5 bytes and a good CRC; a line confirmation sends nothing and calls at most setNextLine with byte 1; a test request of 2 or more bytes calls startTest with the message id; the eleven hardware-test ids go to the tester with the packet; any other id has no effect; the line buffer keeps its 25-byte size |
| Com.OnPacketReceivedFixed | src/ayab/com.cpp:70-136 | the dispatcher with the corrected test request handler; every other message is handled as written |
| Com.FixedReqTestCarriesMachine | src/ayab/com.cpp:278-292 | through the corrected dispatcher, a test request for any machine starts the test for that machine and confirms with the tester's answer |
| Com.SendMsg | src/ayab/com.cpp:157-164 | the payload is the id followed by the message's characters up to, not including, the first NUL |
| Com.ReqStartRoundTrip | src/ayab/com.cpp:178-220 | every start request the host encodes reaches startKnitting with its own machine, needles and flag, and is confirmed |
| Com.CnfLineRoundTrip | src/ayab/com.cpp:228-262 | every encoded line leaves its complemented pattern in the buffer, passes its number to setNextLine and sets the last line exactly when accepted and flagged |
| Com.CorruptReqStartIgnored | src/ayab/com.cpp:197-203 | with CRC support, a start request with a wrong checksum byte has no effect at all |
| SerialEncoding.Complemented | src/ayab/serial_encoding.cpp:110-113 | the stored line is exactly the 25 pattern bytes after the line number, each inverted |
| SerialEncoding.HReqStart | src/ayab/serial_encoding.cpp:39-63 | fewer than 4 bytes: nothing changes, nothing is called or sent; otherwise the line buffer is all 0xFF, startOperation gets bytes 1-3 (byte 3 as non-zero) and [cnfStart, success] is sent |
| SerialEncoding.HCnfLine | src/ayab/serial_encoding.cpp:102-131 | fewer than 29 bytes: no effect; otherwise the complemented pattern is stored even when the checksum then fails; a failing checksum (CRC build) calls nothing; otherwise setNextLine gets byte 1 and setLastLine follows only for an accepted line with bit 0 of byte 27 set; nothing is sent |
| SerialEncoding.HReqInfo | src/ayab/serial_encoding.cpp:133-140 | the information reply carries API version 5 and firmware 0.95 and leaves the line buffer alone |
| SerialEncoding.HReqTest | src/ayab/serial_encoding.cpp:142-149 | a test request always starts the test, whatever its length, and reports its success |
| SerialEncoding.OnPacketReceived | src/ayab/serial_encoding.cpp:157-179 | an id other than the four request ids has no effect; only start, line and test requests call the knitter; only start, info and test requests send a reply |
| SerialEncoding.CnfLineRoundTrip | src/ayab/serial_encoding.cpp:102-131 | every line confirmation the host encodes, with or without CRC support, leaves the inverse of its pattern in the buffer and passes its number on, marking the last line exactly when accepted and flagged |
| SerialEncoding.CorruptLineIgnored | src/ayab/serial_encoding.cpp:116-122 | with CRC support, a line confirmation whose checksum byte does not match bytes 0-27 never reaches the knitter |
| Knitter.StartOperation | src/ayab/knitter.cpp:113-142 | accepted if and only if the stop needle is inside the 200-needle bed, the start needle is before it and the knitter is ready; a refusal changes nothing; an acceptance enters operation with the window, the pattern pointer itself (not a copy of the line), line 255, nothing requested, no last line, a countdown of 2 and the ready beep |
| Knitter.StartTest | src/ayab/knitter.cpp:144-150 | the test state is entered if and only if the knitter is initialising or ready; otherwise nothing changes |
| Knitter.RequestLine | src/ayab/knitter.cpp:383-390 | a line request sends [reqLine, n] and leaves a request pending |
| Knitter.SetNextLine | src/ayab/knitter.cpp:152-165 | a line is accepted if and only if one was requested and its number is the one requested; acceptance clears the request and beeps; a wrong number re-requests the current line; with nothing requested, nothing happens |
| Knitter.SetLastLine | src/ayab/knitter.cpp:167-170 | only the last-line flag changes, and it is set |
| Knitter.IndStatePacket | src/ayab/knitter.cpp:392-409 | the status report is nine bytes: id, init flag, both hall values high byte first, carriage, position, direction |
| Knitter.IndStateCarriesHallValues | src/ayab/knitter.cpp:397-403 | both hall values are recovered exactly from their two bytes |
| Knitter.StateInit | src/ayab/knitter.cpp:174-203 | the ready latch is set if and only if it was already set or the carriage moves right with the left sensor active; a set latch means ready, all solenoids released and one report; otherwise the state stays initialising with no output |
| Knitter.InitLatchSticks | src/ayab/knitter.cpp:176-195 | once the latch is set, every later initialisation step enters ready, whatever the readings |
| Knitter.GetStartOffset | src/ayab/knitter.cpp:356-381 | the left offset is 8 for the G carriage and 40 otherwise, the right offset 32 for G and 16 otherwise, and 0 without a direction |
| Knitter.CalculatePixelAndSolenoid | src/ayab/knitter.cpp:308-354 | fails without a direction, and moving right (left) if and only if the position is before the left offset (past the right end less the right offset); on success the pixel is the position less the offset, shifted by +8 (-16) for the lace carriage, and the solenoid follows the belt shift, kept as it was for an unknown belt; a failure leaves pixel and solenoid unchanged |
| Knitter.SolenoidInBank | src/ayab/knitter.cpp:319-340 | with a known belt shift every successful placement names one of the 16 solenoids |
| Knitter.BeltShiftIsHalfBank | src/ayab/knitter.cpp:319-323 | moving right, the regular and shifted belts select solenoids eight apart modulo 16 |
| Knitter.FinishLine | src/ayab/knitter.cpp:270-287 | leaving a worked line with nothing pending requests the next line number (wrapping at 256); on the last line it beeps, returns to ready and releases all solenoids; with a request pending it only forgets the line |
| Knitter.FirstRun | src/ayab/knitter.cpp:217-223 | the first operation step after power-up waits, beeps and requests the line after the current one, and never happens again |
| Knitter.StateOperate | src/ayab/knitter.cpp:211-292 | the green LED is lit first; operation is left only for ready and only on the last line; an unchanged position does nothing beyond the first-run work; the needle window, pattern pointer and flags are kept |
| Knitter.PlacedInWindowMarksWorked | src/ayab/knitter.cpp:258-260 | a step that places a pixel between the start and stop needles marks the line worked on and leaves the state, request flag and line number as they were |
| Knitter.PlacedOutsideKeepsFlag | src/ayab/knitter.cpp:254-260 | a step that places no pixel, or one inside the window but outside the start and stop needles, leaves the worked flag unchanged |
| Knitter.KnittedLineIsFollowedByRequest | src/ayab/knitter.cpp:254-290 | a step placing a pixel of the line, then a step outside the window, sends the request for the next line number when none is pending and the line is not the last |
| Knitter.KnitsLiveBuffer | src/ayab/knitter.cpp:258-268 | at a new position, a pixel inside the window sets its solenoid to that pixel's bit of the line buffer as it is at this step |
| Knitter.StateTest | src/ayab/knitter.cpp:294-306 | an unchanged position does nothing; a new one is remembered, re-placed and reported with the init flag clear |
| Knitter.Fsm | src/ayab/knitter.cpp:89-111 | each state runs its own step; the ready state only turns the green LED off |
| Knitter.OperateLeavesOnlyOnLastLine | src/ayab/knitter.cpp:280-285 | without the last-line flag, operation continues after any step |
| Knitter.LeavingLineRequestsNext | src/ayab/knitter.cpp:264-279 | a new position outside the window after a worked line, with no request pending and more lines to come, requests exactly the next line number and leaves it pending |
| Knitter.FreshStartRequestsLineZero | src/ayab/knitter.cpp:129-131 | after a successful start on a fresh knitter, the first operation step requests line 0 |
| Knitter.SameOffsetsAsMachineTable | src/ayab/knitter.cpp:356-381 | for a detected carriage the fixed offsets equal the start-offset table of the Op-state machine |
| Knitter.NoCarriageOffsetsDiffer | src/ayab/knitter.cpp:356-381 | without a detected carriage the fixed offsets are 40 and 16 while the table gives 0 |
| Knitter.SamePlacementAsOpKnit | src/ayab/knitter.cpp:308-354 | on a KH910 with 16 solenoids and the same offsets, this layer places every pixel and solenoid as the Op-state knitting state does |
| Encoders.Rising | src/ayab/encoders.cpp:101-134 | the direction is line B's; away from the left sensor only the position moves, one step right while short of the right end; in front of it the position resets to the left end plus offset, the belt shift is regular when line C is high, and a low reading turns K into G and anything else into L while a high one means K |
| Encoders.Falling | src/ayab/encoders.cpp:139-170 | the direction is kept; away from the right sensor only the position moves, one step left while past the left end; in front of it the position resets to the right end less offset, the belt shift is shifted when line C is high, and only a low reading changes the carriage, to K |
| Encoders.Interrupt | src/ayab/encoders.cpp:34-45 | the hall flag is cleared first; a rising edge of line A runs the rising handler, a falling edge the falling one, no edge neither; line A's level is remembered |
| Encoders.GetHallValue | src/ayab/encoders.cpp:85-94 | the left or right analog reading for that side, and 0 for no side |
| Encoders.ReadingsOf | src/ayab/encoders.cpp:50-80 | the getters report the encoder's own position, direction, hall flag, carriage and belt shift |
| Encoders.InterruptStaysOnBed | src/ayab/encoders.cpp:101-170 | when both reset positions lie on the bed, every interrupt keeps the position between the left and right ends |
| Encoders.NoEdgeNoMove | src/ayab/encoders.cpp:34-45 | an interrupt without a change of line A moves nothing and leaves no sensor flagged |
| Encoders.LowLeftReadingsAlternate | src/ayab/encoders.cpp:118-123 | repeated low left readings turn K into G and then G into L |
| Solenoids.Init | src/ayab/solenoids.cpp:38-51 | all sixteen solenoids are on and the expanders hold 0xFFFF |
| Solenoids.SetSolenoid | src/ayab/solenoids.cpp:59-76 | an index of 16 or more is ignored; otherwise exactly that bit takes the new value, every other bit is kept, and the expanders are written, low byte first, only when the word changed |
| Solenoids.SetSolenoids | src/ayab/solenoids.cpp:84-91 | the word becomes the argument and is written out only when it differs |
| Solenoids.ExpandersFollowState | src/ayab/solenoids.cpp:59-110 | if the expanders held the shadow word before either call, they hold the new shadow word after it |
| Solenoids.RepeatIsQuiet | src/ayab/solenoids.cpp:59-91 | repeating the same call changes nothing and writes nothing |
| Machine.New | src/ayab/machine.h:55 | a new machine description has no machine type |
| Machine.SetMachineType | src/ayab/machine.cpp:30-32 | the stored type becomes the argument |
| Machine.MachineTypeRoundTrip | src/ayab/machine.cpp:26-32 | reading the type back gives the type last set, and none before any set |
| Machine.NumNeedles | src/ayab/machine.cpp:34-39 | 114 needles on the KH270 and 200 on every other type, including none |
| Machine.LenLineBuffer | src/ayab/machine.cpp:41-48 | 15 bytes on the KH270 and 25 otherwise |
| Machine.LineBufferCoversNeedles | src/ayab/machine.cpp:34-48 | the line buffer has a bit for every needle and no spare byte |
| Machine.EndOfLineOffsetL | src/ayab/machine.cpp:50-52 | 12 needles on every machine |
| Machine.EndOfLineOffsetR | src/ayab/machine.cpp:54-56 | 12 needles on every machine |
| Machine.StartOffsetLUT | src/ayab/machine.h:31-36 | 0 without a direction or carriage; going left 40 for K and L and 8 for G; going right 16 for K and L and 32 for G |
| Machine.OffsetsMirror | src/ayab/machine.h:31-36 | for a detected carriage, the left offset is smaller than the right one exactly for the garter carriage |
| OpFsm.Start | src/ayab/op.cpp:43-49 | both the current and the next state are waiting for a machine, the flash phase is off, the flash timer starts at the given time and no error is stored; the cached readings are kept |
| OpFsm.SetState | src/ayab/op.cpp:108-110 | only the pending state changes; the current state waits for the next update |
| OpFsm.StateError | src/ayab/op.cpp:204-223 | with init pending, both LEDs go off and the knitter is re-initialised; otherwise, once 500 ms of the wrapping 32-bit clock have passed, the LEDs flash in opposite phases, the phase toggles, the timer restarts and the error is reported; before that nothing happens |
| OpFsm.Update | src/ayab/op.cpp:54-85 | the readings are cached, the error is kept, and the current state becomes the pending one afterwards: ready when initialising with the knitter ready, otherwise whatever was already pending |
| OpFsm.OnlyInitRequestsReady | src/ayab/op.cpp:166-199 | outside init no handler requests a state, so the update commits the state that was pending |
| OpFsm.InitGoesReadyIff | src/ayab/op.cpp:173-178 | from init with nothing else pending, the machine becomes ready if and only if the knitter reports ready |
| OpFsm.InvalidStateOnlyCommits | src/ayab/op.cpp:81-84 | a stored state outside the enumeration produces no output and still commits the pending state |
| OpFsm.FlashAcrossClockWrap | src/ayab/op.cpp:214-215 | the 500 ms test is done in unsigned arithmetic, so a flash is still due when the clock wraps past zero |
| OpFsm.FlashAlternates | src/ayab/op.cpp:215-221 | consecutive flashes light the green LED in alternating phases with the yellow LED always opposite |
| OpIdle.Begin | src/ayab/opIdle.cpp:40-43 | starting the idle state turns the green LED off and reports success |
| OpIdle.Com | src/ayab/opIdle.cpp:54-62 | a packet is forwarded, whole, to the init handler if and only if it is an init request; nothing else is forwarded |
| OpIdle.IdleIgnoresOtherMessages | src/ayab/opIdle.cpp:54-62 | no sequence of non-init packets reaches any handler while idle |
| OpReady.Begin | src/ayab/opReady.cpp:48-50 | starting the ready state turns the green LED off and does nothing else |
| OpReady.Com | src/ayab/opReady.cpp:61-72 | a start request reaches the start handler with its bytes, a test request reaches the test handler without arguments, and any other packet is dropped |
| OpReady.ReadyAndIdleDisjoint | src/ayab/opReady.cpp:61-72 | no packet is acted on by both the ready and the idle state |
| OpError.Begin | src/ayab/opError.cpp:40-45 | starting the error state clears the phase and the stored error, starts the timer and reports success |
| OpError.Update | src/ayab/opError.cpp:50-62 | nothing happens if and only if fewer than 500 ms of the wrapping clock have passed; otherwise both LEDs flash in opposite phases, the phase toggles, the timer restarts and the unchanged error is reported |
| OpError.End | src/ayab/opError.cpp:76-80 | leaving the error state turns both LEDs off and re-initialises the knitting state |
| OpError.SameFlashAsOpFsm | src/ayab/opError.cpp:50-62 | while not leaving, the error state flashes and reports exactly like the error handler of the enumerated machine in op.cpp |
| OpError.RunKeepsError | src/ayab/opError.cpp:50-62 | over any run of updates the stored error never changes and every report carries it |
| OpError.QuietAfterBegin | src/ayab/opError.cpp:40-62 | within 500 ms of entering the error state nothing flashes and nothing is reported |
| OpInit.Init | src/ayab/opInit.cpp:47-52 | initialisation forgets the last hall sensor |
| OpInit.Begin | src/ayab/opInit.cpp:57-61 | starting the init state sets up the encoders, arms the interrupt and turns the green LED off, in that order |
| OpInit.Remember | src/ayab/opInit.cpp:78-81 | an active sensor replaces the remembered one; a reading with no sensor keeps it |
| OpInit.Update | src/ayab/opInit.cpp:67-109 | the ready state is requested if and only if the carriage moves right after the left sensor beyond the left end plus the garter slop, or left after the right sensor before the right end less the slop; it then sets all solenoids to the bitmask and reports success; otherwise nothing is output |
| OpInit.LastHallIsSticky | src/ayab/opInit.cpp:74-81 | over a run of updates that does not reach ready, the remembered sensor is the last one any reading reported, and nothing is output |
| OpInit.GarterPassReachesReady | src/ayab/opInit.cpp:74-100 | seeing the left sensor and later moving right past the slop with no sensor active reaches ready, as a garter carriage's second magnet requires |
| OpTest.Welcome | src/ayab/opTest.cpp:51-59 | the greeting is the title, the firmware and API versions, then the command list |
| OpTest.Begin | src/ayab/opTest.cpp:48-76 | entering the test state requests it first, then detaches the encoder interrupt and attaches the beeping handler in its place, last; both automatic modes start off with the timer at the given time, and success is reported |
| OpTest.Update | src/ayab/opTest.cpp:81-90 | a disabled test does nothing; an enabled one tracks the position and runs the timer event only once the loop delay has passed on the wrapping 32-bit clock, restarting the timer |
| OpTest.End | src/ayab/opTest.cpp:150-156 | leaving switches both automatic modes off, requests init, re-initialises knitting and re-arms the interrupt |
| OpTest.Receive | src/ayab/opTest.cpp:95-145 | quit ends the test, stop switches automatic modes off, set-single and set-all drive the solenoids from the packet, an id that is not a test command goes to the unrecognised handler, and only the automatic, stop and quit commands change the test state |
| OpTest.SilentAfterBegin | src/ayab/opTest.cpp:70-90 | right after entering the test, updates output nothing, not even position tracking |
| OpTest.StopSilences | src/ayab/opTest.cpp:81-90 | after a stop command every update is silent, whatever the clock says |
| OpTest.AutoTestWrites | src/ayab/opTest.cpp:81-90 | after switching the automatic test on, the next update past the delay writes one of the two alternating solenoid patterns |
| TestCommands.SetUp | src/ayab/opTest.cpp:70-73 | entering test mode leaves both automatic modes off, starts the timer at the given time and makes the first tick even |
| TestCommands.HelpCmd | src/ayab/opTest.cpp:168-181 | help sends the twelve lines of the command list, starting with the heading |
| TestCommands.SendCmd | src/ayab/opTest.cpp:186-191 | send emits its fixed packet between the "Called send" text and a newline |
| TestCommands.BeepCmd | src/ayab/opTest.cpp:196-199 | beep announces itself and plays the ready beep |
| TestCommands.EncoderAChange | src/ayab/opTest.cpp:283-290 | the encoder-A handler of the test modes (also tester.cpp:186-195 and test.cpp:236-244) makes exactly the beep of the beep command, without its text |
| TestCommands.SetSingleCmd | src/ayab/opTest.cpp:206-225 | a solenoid is set if and only if the packet has at least three bytes, an index of at most 15 and a value of at most 1, and then it is exactly that solenoid set to on for value 1; otherwise one error text follows the announcement |
| TestCommands.SetAllCmd | src/ayab/opTest.cpp:232-240 | fewer than three bytes give an error text; otherwise all solenoids take the word whose high byte is byte 1 and low byte is byte 2 |
| TestCommands.SetAllRoundTrip | src/ayab/opTest.cpp:232-240 | every 16-bit word can be set by sending its high and low byte |
| TestCommands.ReadEncoders | src/ayab/opTest.cpp:305-315 | the three encoder lines are reported as six texts, a label and a level for each |
| TestCommands.ReadEolSensors | src/ayab/opTest.cpp:320-327 | the left and then the right end-of-line reading are reported |
| TestCommands.AutoReadCmd | src/ayab/opTest.cpp:263-266 | automatic reading is switched on, which enables the test loop |
| TestCommands.AutoTestCmd | src/ayab/opTest.cpp:271-274 | the automatic solenoid test is switched on, which enables the test loop |
| TestCommands.StopCmd | src/ayab/opTest.cpp:279-282 | both automatic modes go off, which disables the loop, and the timer and parity are kept |
| TestCommands.HandleTimerEvent | src/ayab/opTest.cpp:362-374 | the parity always flips; a solenoid pattern is written if and only if the automatic test is on, 0x5555 on odd ticks and 0xAAAA on even ones; the sensors are read if and only if automatic reading is on and the tick is odd |
| TestCommands.PatternsAlternate | src/ayab/opTest.cpp:342-374 | over any run of n ticks with the automatic test on, the two patterns alternate starting from the current parity, and the parity ends flipped exactly when n is odd |
| TestCommands.WordsAppend | src/ayab/opTest.cpp:342-357 | the solenoid words a run of outputs writes are those of its first part followed by those of the rest |
| TestCommands.TickWords | src/ayab/opTest.cpp:342-374 | a timer event writes exactly one solenoid word, the one of its parity, when the automatic test is on, and none otherwise, whatever is read |
| TestCommands.ConsecutiveTicksComplementary | src/ayab/opTest.cpp:342-374 | with the automatic test on, two consecutive timer events each write one word, and the two words XOR to 0xFFFF: every solenoid changes at each tick |
| Tester.SetUpTest | src/ayab/tester.cpp:202-230 | setting up greets with the hardware-test title, ends by detaching the encoder interrupt and attaching the beeping handler, leaves both automatic modes off and starts the timer at the given time with even parity |
| Tester.StartTest | src/ayab/tester.cpp:165-175 | a test starts if and only if the state machine is initialising or ready; it then requests the test state, hands the machine type to the knitter and sets up; otherwise it reports the wrong-state error and changes nothing |
| Tester.Loop | src/ayab/tester.cpp:180-186 | before 500 ms of the wrapping clock nothing happens; after them the timer restarts and the timer event runs |
| Tester.QuitCmd | src/ayab/tester.cpp:153-156 | quitting requests init and re-arms the knitter's interrupt, leaving the automatic modes as they are |
| Tester.IdleLoopOnlyFlipsParity | src/ayab/tester.cpp:180-186 | with both automatic modes off the loop still ticks: it outputs nothing but flips the parity and restarts the timer |
| Tester.StartFromTestRefused | src/ayab/tester.cpp:165-175 | a start from the test or knitting state is refused, and from the test state leaves no trace |
| TestMode.Begin | src/ayab/test.cpp:46-79 | the test begins if and only if the state machine is ready; it then requests the test state, greets, ends by detaching the encoder interrupt and attaching the beeping handler, and sets up with both automatic modes off; otherwise it reports the wrong-state error and changes nothing |
| TestMode.Update | src/ayab/test.cpp:84-93 | a disabled test does nothing; an enabled one always tracks the position first, and once the loop delay has passed restarts the timer and flips the parity |
| TestMode.End | src/ayab/test.cpp:104-110 | ending disables both automatic modes, requests init, re-initialises knitting and re-arms the interrupt |
| TestMode.SameUpdateAsOpTest | src/ayab/test.cpp:84-93 | the update of this test mode is the same function of state, clock and pins as the Op-state test mode's |
| Controller.Init | src/ayab/controller.cpp:38-47 | a fresh controller has no machine type, caches no carriage, no direction, no active sensor, an unknown belt shift and position 0, and is idle with idle pending |
| Controller.SetState | src/ayab/controller.cpp:93-95 | only the pending state changes; the current state, the machine type and the cache stay |
| Controller.SetMachineType | src/ayab/controller.cpp:109-111 | only the machine type changes |
| Controller.Update | src/ayab/controller.cpp:52-64 | the readings are cached and the current state's update always runs first; the controller then settles in the requested (or already pending) state, and calls the old state's end and the new state's begin, in that order, exactly when that state differs from the current one |
| Controller.SetStateIsDeferred | src/ayab/controller.cpp:93-103 | a requested state is not visible to getState until the next update, which enters it |
| Controller.TransitionOrder | src/ayab/controller.cpp:52-64 | a change of state makes exactly three calls: update and end of the old state, then begin of the new one |
| Controller.UpdateSettles | src/ayab/controller.cpp:56-58 | once settled, further updates make no end or begin calls until another state is requested |
| Controller.MachineTypeRoundTrip | src/ayab/controller.cpp:109-119 | the machine type read back is the one last set, and updates do not change it |
| Controller.GettersReturnCache | src/ayab/controller.cpp:71-159 | after an update every getter returns the reading cached by that update |
| Fsm.Init | src/ayab/fsm.cpp:43-52 | a fresh driver has no machine type, empty cached readings, and is idle with idle pending |
| Fsm.SetState | src/ayab/fsm.cpp:92-94 | only the pending state changes |
| Fsm.SetMachineType | src/ayab/fsm.cpp:108-110 | only the machine type changes |
| Fsm.Update | src/ayab/fsm.cpp:57-69 | the readings are cached and the current state's update runs first; end and begin are called exactly when the settled state differs from the current one |
| Fsm.AsController | src/ayab/fsm.cpp:43-118 | each driver state corresponds field for field to a controller state |
| Fsm.SameAsController | src/ayab/fsm.cpp:43-94 | from corresponding states, init, setState and update of this driver give corresponding states and the same calls into the states as the controller's |
| Fsm.SetStateIsDeferred | src/ayab/fsm.cpp:92-102 | a requested state is entered by the next update and not before |
| Fsm.MachineTypeRoundTrip | src/ayab/fsm.cpp:108-118 | the machine type read back is the one last set |
| OpKnit.Init | src/ayab/opKnit.cpp:49-82 | both LEDs go on and the solenoids are initialised; the job has no pattern, an empty window, line 0, nothing pending, no last line, a first run to come, no worked line, no remembered sensor and pixel 0; the solenoid to set is not reset |
| OpKnit.Begin | src/ayab/opKnit.cpp:90-98 | knitting starts with success and the green LED on if and only if a machine type is set; otherwise the no-machine error is reported and nothing is output |
| OpKnit.Com | src/ayab/opKnit.cpp:110-119 | exactly one handler runs: the line handler, with the whole packet, if and only if the packet is a line confirmation, and the unrecognised handler otherwise |
| OpKnit.End | src/ayab/opKnit.cpp:125-134 | ending a job beeps end-of-work first, requests ready and sets all solenoids to the bitmask, in four outputs |
| OpKnit.StartKnitting | src/ayab/opKnit.cpp:144-178 | the checks come in order: not ready gives the wrong-state error, a missing pattern the null-pointer error, and start ≥ stop or stop past the machine's needles the needle error; any error leaves the job and outputs unchanged; success happens exactly when all pass, records the window, the pattern pointer and the reporting flag, sets line 255 with nothing pending and no last line, requests the knitting state and beeps |
| OpKnit.RequestLine | src/ayab/opKnit.cpp:364-367 | requesting a line sends its number and leaves a request pending |
| OpKnit.SetNextLine | src/ayab/opKnit.cpp:335-348 | a line is accepted if and only if one is pending and its number is the requested one; acceptance clears the request and beeps; a wrong number re-requests the current line; with nothing pending nothing happens |
| OpKnit.SetLastLine | src/ayab/opKnit.cpp:354-356 | only the last-line flag changes, and it is set |
| OpKnit.GetStartOffset | src/ayab/opKnit.cpp:319-328 | the table entry for machine, direction and carriage, or 0 when any of the three is unknown |
| OpKnit.PlaceRight | src/ayab/opKnit.cpp:380-394 | moving right succeeds if and only if the position reaches the left start offset; the pixel is the position less the offset, half a bank further for the lace carriage, wrapped to 8 bits |
| OpKnit.PlaceLeft | src/ayab/opKnit.cpp:397-411 | moving left succeeds if and only if the position is at most the right end less the right start offset; the pixel is the position less the offset, a whole bank earlier for the lace carriage, wrapped to 8 bits |
| OpKnit.CalculatePixelAndSolenoid | src/ayab/opKnit.cpp:373-429 | fails without a direction and otherwise as the direction's range test says; on success pixel and solenoid are as above, the solenoid from the belt shift (always the regular rule on the KH270, the old one when the shift is unknown) plus 3 on the KH270; a failure changes neither |
| OpKnit.IsReady | src/ayab/opKnit.cpp:200-238 | the knitting state's readiness test remembers the sensor and decides and outputs exactly as the init state's update |
| OpKnit.EncodePosition | src/ayab/opKnit.cpp:185-194 | an unchanged position does nothing; a new one is remembered, re-placed and reported with the unspecified-failure code |
| OpKnit.FirstRun | src/ayab/opKnit.cpp:244-250 | the first update of a job waits, beeps, advances the line number by one (wrapping) and requests that line; later updates skip this |
| OpKnit.FinishLine | src/ayab/opKnit.cpp:289-302 | only a worked line whose pixel is outside the window widened by the end-of-line offsets is finished: with nothing pending and more to come the next line (wrapping) is requested, on the last line the job ends, with a request pending the line is only forgotten |
| OpKnit.DoKnitting | src/ayab/opKnit.cpp:243-313 | after the first-run work, an unchanged position does nothing more; the window, pattern pointer and last-line flag are never changed by knitting |
| OpKnit.PlacedInWindowMarksWorked | src/ayab/opKnit.cpp:292-294 | a knitting step that places a pixel between the start and stop needles marks the line worked on and leaves the request flag and line number as they were |
| OpKnit.PlacedOutsideKeepsFlag | src/ayab/opKnit.cpp:292-299 | a step that places no pixel, or one outside the start and stop needles but not past the line's end offsets, leaves the worked flag unchanged |
| OpKnit.KnittedLineIsFollowedByRequest | src/ayab/opKnit.cpp:292-307 | a step placing a pixel of the line, then a step past the line's end, requests the next line number when none is pending and the line is not the last |
| OpKnit.KnitsLiveBuffer | src/ayab/opKnit.cpp:283-288 | at a new position, the solenoid of a placed pixel is set to that pixel's bit of the line buffer as it is at this step |
| LineFlow.ConfirmedLineIsKnitted | src/ayab/com.cpp:228-262 | a confirmation of the requested line is accepted, and at the next knitting step the solenoid of a placed pixel gets that pixel's bit of the host's line, complemented as the protocol layer stores it |
| LineFlow.AcceptedThenKnitted | src/ayab/opKnit.cpp:335-348 | accepting the requested line leaves the knitter pointing at the buffer, so its next step knits the buffer's current bits |
| LineFlow.ConfirmedLineIsKnittedOlder | src/ayab/serial_encoding.cpp:102-131 | the same for the older layer: a confirmed line is accepted and the next step sets a windowed pixel's solenoid from the complemented host byte |
| LineFlow.AcceptedThenKnittedOlder | src/ayab/knitter.cpp:152-165 | the older knitter's acceptance of the requested line leaves its next step knitting the buffer's current bits |
| OpKnit.NoRequestWhilePending | src/ayab/opKnit.cpp:295-300 | while a line request is pending, knitting never sends another one and the request stays pending |
| OpKnit.LeavingLineRequestsNext | src/ayab/opKnit.cpp:289-299 | leaving the widened window after a worked line, with nothing pending and more to come, ends with a request for the next line number, which is then pending |
| OpKnit.LeavingLastLineEnds | src/ayab/opKnit.cpp:289-302 | leaving the widened window after the last worked line ends the job and requests ready |
| OpKnit.RequestThenAccept | src/ayab/opKnit.cpp:335-367 | the line number just requested is accepted next, and nothing is then pending |
| OpKnit.FirstLineIsZero | src/ayab/opKnit.cpp:166-167 | after a successful start, the first request of the job is for line 0 because the line counter starts at 255 |
| OpKnit.Kh910Samples | src/ayab/opKnit.cpp:373-429 | KH910 samples: a lace carriage short of its offset fails; at position 100 the regular and shifted belts give solenoids 4 and 12 with pixel 68; an unknown belt keeps the old solenoid |
| OpKnit.Kh270Samples | src/ayab/opKnit.cpp:373-429 | KH270 samples: the solenoid is shifted by 3, and a pixel left of the offset wraps to 240 in 8 bits |
| OpKnit.ShiftedSolenoidWrapsNearZero | src/ayab/opKnit.cpp:386-387 | without a carriage, a shifted belt at position 3 gives a negative C remainder that is stored as solenoid 251 |
| OpKnit.SolenoidForInBank | src/ayab/opKnit.cpp:388-412 | for any machine but the KH270, a known belt shift picks a solenoid below the machine's solenoid count, in both directions, unless a shifted right-moving carriage is still within half a bank of needle 0 |
| OpKnit.SolenoidInBank | src/ayab/opKnit.cpp:373-429 | apart from the KH270 and that corner, every solenoid chosen by a known belt shift is below the solenoid count |
| Api.Seal | lib/api/api.cpp:159-160 | a sealed message keeps its body and ends with the checksum of that body, one byte longer |
| Api.IndicateStateMessage | lib/api/api.cpp:139-161 | the state indication is 13 bytes, sealed: id, error, state, each hall value as a big-endian pair that reassembles to the reading, then carriage, position, direction, active sensor and belt shift |
| Api.ConfirmInitMessage | lib/api/api.cpp:163-169 | the init confirmation is three sealed bytes carrying the confirm-init id and the error |
| Api.ConfirmStartMessage | lib/api/api.cpp:171-177 | the start confirmation is three sealed bytes carrying the confirm-start id and the error |
| Api.RequestLineMessage | lib/api/api.cpp:179-186 | a line request is four sealed bytes: id, row number and error |
| Api.ConfirmPeekMessage | lib/api/api.cpp:199-205 | the peek reply is three sealed bytes: id and the byte read |
| Api.StrNCpy | lib/api/api.cpp:193 | copying at most n characters yields exactly n bytes: each position before the source's terminator holds the source character and every position from the terminator, or past the source, holds NUL |
| Api.ConfirmInfoMessage | lib/api/api.cpp:189-197 | the information reply is 22 sealed bytes: id, API version, three firmware version numbers, then the version suffix as a 16-byte NUL-padded field |
| Api.ConfirmLineAsWritten | lib/api/api.cpp:72-82 | as written, the hook is reached exactly when the packet has at most 30 bytes and a good checksum, with pattern length size − 5 whatever the length; the error set before it is a checksum error up to 30 bytes and a length error above |
| Api.ConfirmLineShortPacket | lib/api/api.cpp:72-82 | as written, a sealed 4-byte line confirmation passes the test and the handler calls the line hook with a pattern length of −1; a short one with a bad checksum reports a checksum error, not a length error |
| Api.ConfirmLineChecked | lib/api/api.cpp:72-82 | the hook is called if and only if the packet is 5 to 30 bytes and sealed, with the line number, exactly the bytes between the flags and the checksum (at most 25) and the last-line flag; otherwise the error is a checksum error for a sealed-length packet and a length error for any other |
| Api.ReceiveControl | lib/api/api.cpp:37-82 | each reset, init, start or line request, the line confirmation as written, signals receive traffic first, then does at least one more thing, and every message it sends back ends with the checksum of the bytes before it |
| Api.ReceiveLineChecked | lib/api/api.cpp:72-82 | the corrected line confirmation: every reply is sealed, the hook is never handed a wrapped length, and a packet under 5 bytes is a length error that calls nothing |
| Api.ReceiveDebug | lib/api/api.cpp:103-127 | a poke or peek request signals receive traffic first, then does at least one more thing, and the peek answer ends with the checksum of the bytes before it |
| Api.ReceiveOther | lib/api/api.cpp:84-131 | each information, state, poke, peek or unknown request signals receive traffic first, then does at least one more thing, and every message it sends back ends with the checksum of the bytes before it |
| Api.RxMessageHandler | lib/api/api.cpp:28-133 | as written: an empty packet changes nothing and outputs nothing; any other packet first signals receive traffic and produces at least one more output; every message sent in reply is sealed |
| Api.RxMessageHandlerFixed | lib/api/api.cpp:28-133 | the handler with the corrected line confirmation; every other message is handled as written |
| Api.FixedAgreesFromFiveBytes | lib/api/api.cpp:72-82 | from 5 bytes on, the corrected and the written handler treat a line confirmation alike; below 5 the corrected one never calls the line hook |
| Api.ResetRequest | lib/api/api.cpp:37-47 | the reset happens if and only if the request is exactly two bytes and sealed; the state is indicated last in every case, and success is reported only for a good request |
| Api.WrongLengthStart | lib/api/api.cpp:60-70 | a start request of any length other than five is answered with a start confirmation carrying the length error and configures nothing |
| Api.StartRoundTrip | lib/api/api.cpp:60-70 | every sealed start request reaches the configuration hook with its start and stop needles and both flag bits, and the hook's result is reported and confirmed |
| Api.LineRoundTrip | lib/api/api.cpp:72-82 | every sealed line confirmation with up to 25 pattern bytes reaches the line hook with exactly that pattern, and the hook's result becomes the error |
| Api.InfoKeepsLengthError | lib/api/api.cpp:84-90 | a well-formed information request is answered, yet the error stays at "incorrect length" |
| Api.DebugRequests | lib/api/api.cpp:103-126 | a sealed five-byte poke writes its value at the little-endian address and still reports a checksum error; a sealed four-byte peek is answered with the byte at its address and indicates no state |
| Api.UnknownIdReported | lib/api/api.cpp:128-131 | a packet whose id the handler does not know sets the unknown-message error and only indicates the state |
| ProtoEncoders.New | encoders.cpp:7-12 | a new encoder has no direction, no belt phase and the position 0xFF |
| ProtoEncoders.Rising | encoders.cpp:15-37 | on a rising A edge line B decides the direction; moving left nothing else changes; moving right the left sensor outside its filter band resets the position to 0 and takes the phase from line C, and otherwise the position counts up with 8-bit wrap-around |
| ProtoEncoders.Falling | encoders.cpp:40-60 | a falling A edge acts only when moving left: the right sensor outside its band resets the position to 201 with the phase read inversely from line C, otherwise the position counts down with wrap-around |
| ProtoEncoders.PositionCountsEdges | encoders.cpp:15-37 | away from the left sensor, n rising edges moving right advance the position by exactly n modulo 256 and leave the direction Right |
| ProtoEncoders.StepBackRestores | encoders.cpp:15-60 | away from both sensors, a rising and a falling edge give a net step of one needle in the direction line B reported |
| ProtoHallSensor.Init | hallsensor.cpp:88-92 | resetting the detector makes it idle and inactive with both extrema cleared and keeps the detected carriage and position |
| ProtoHallSensor.New | hallsensor.cpp:5-11 | a new sensor holds its first reading, has no carriage, is idle and satisfies the detector invariant |
| ProtoHallSensor.SetThresholds | hallsensor.cpp:13-16 | setting thresholds changes exactly the two thresholds |
| ProtoHallSensor.DetectCarriage | hallsensor.cpp:94-114 | a hunt with only a north pole is the K carriage at the north position, only a south pole the L carriage at the south position, north first the G carriage half-way between the poles, and south first detects nothing and changes nothing |
| ProtoHallSensor.Record | hallsensor.cpp:46-65 | recording a reading keeps the state, direction and which pole came first |
| ProtoHallSensor.IsDetected | hallsensor.cpp:18-75 | an idle detector starts a hunt in the caller's direction exactly when the reading is past a threshold, recording that pole as first; a change of direction abandons a hunt; detection is only reported by a hunt in its own direction, and the carriage changes only when detection is reported |
| ProtoHallSensor.IsDetectedKeepsInv | hallsensor.cpp:18-114 | for readings below 0xFFFF every call keeps the invariant: idle means cleared extrema, a hunt has a pole and one to three needles to go, poles sit at byte positions and at most one is first |
| ProtoHallSensor.NorthThenSouthIsGarter | hallsensor.cpp:105-108 | a north pole followed by three south readings in the same direction detects the G carriage half-way between the two positions and returns to idle |
| ProtoHallSensor.SouthThenNorthIgnored | hallsensor.cpp:109-111 | a south pole followed by north readings detects nothing and keeps the carriage and position |
| ProtoKnitter.SolenoidFor | knitter.cpp:33-65 | moving right the solenoid is the position mod 16 on a regular belt and (position − 8) mod 16, truncated as C does, on a shifted one; moving left it is (position + 8) mod 16 regular and position mod 16 shifted |
| ProtoKnitter.Select | knitter.cpp:31-69 | moving right a needle is selected if and only if the position is past the needle offset, at pixel position − offset; moving left if and only if the position is below 200 − offset, at pixel position + offset; with no direction the previous pixel and solenoid are reused |
| ProtoKnitter.KnitAsWritten | knitter.cpp:18-80 | as written, the same position does nothing, a selected solenoid gets the bit at the solenoid's own index of the pixel's byte, and the expanders are written only at a line end, with the word 0 |
| ProtoKnitter.AsWrittenUpperBitsNeverSet | knitter.cpp:73 | as written, a step away from the line ends that selects a solenoid from 8 to 15 never sets that bit of the solenoid word, whatever the pattern |
| ProtoKnitter.Knit | knitter.cpp:18-80 | the same position does nothing; a line end clears the solenoid word on the expanders and records nothing; an unselected position does nothing; otherwise the position, pixel and solenoid are recorded, the expanders hold the new word and the solenoid carries the pattern bit of its pixel |
| ProtoKnitter.UpperBankSample | knitter.cpp:73 | with offset 40 and a full pattern, position 56 moving right selects pixel 16 on solenoid 8, whose bit of the word the as-written reading leaves clear and the corrected one sets |
| ProtoKnitter.LineEndRepeats | knitter.cpp:25-29 | a line end is not recorded as the old position, so reporting it again changes nothing further |
| ProtoSerial.HReqStart | serial_encoding.cpp:12-31 | a start request fills the line buffer with 0xFF, starts the operation with the start and stop needles and the reporting flag, and confirms with the outcome as 0 or 1 |
| ProtoSerial.HCnfLine | serial_encoding.cpp:33-57 | a line confirmation stores the bitwise complement of the 25 pattern bytes, offers the line number, marks the last line only if the line was accepted and bit 0 of the flags is set, and sends nothing |
| ProtoSerial.OnPacketReceived | serial_encoding.cpp:84-106 | unknown ids do nothing; the information request answers id, API version and both firmware numbers; the test request starts the test and confirms its outcome |
| ProtoSerial.ChecksumIgnored | serial_encoding.cpp:45-48 | two line confirmations that differ only in the checksum byte have the same effect |
| ProtoSolenoids.New | solenoids.cpp:10-13 | a new driver holds every solenoid bit clear |
| ProtoSolenoids.SetSolenoids | solenoids.cpp:33-40 | the state becomes the new word, and the expanders are written, low byte first, exactly when it differs from the old one |
| ProtoSolenoids.ResetSolenoids | solenoids.cpp:42-45 | resetting leaves 0xFFFF both in the state and on the expanders |
| ProtoSolenoids.SetSolenoidAsWritten | solenoids.cpp:16-30 | as written, indices above 15 are ignored, the bit of a valid index takes the requested value, and the expanders are never written |
| ProtoSolenoids.AsWrittenLosesWrite | solenoids.cpp:16-30 | switching solenoid 0 on from a fresh driver sets the state to 1 while the expanders keep 0 |
| ProtoSolenoids.SetSolenoid | solenoids.cpp:16-30 | indices above 15 change nothing; a valid index sets its bit to the requested value and leaves the others; the expanders are written exactly when the word changes |
| ProtoSolenoids.ExpandersFollowState | solenoids.cpp:16-40 | after any call the expanders hold the driver's state word, provided they held the old one |
| ProtoSolenoidsWire.New | Solenoids.cpp:8-15 | a new driver holds every solenoid bit clear |
| ProtoSolenoidsWire.SetWord | Solenoids.cpp:29-33 | setting a word stores it and writes it to both expanders whatever they held |
| ProtoSolenoidsWire.SetSolenoid | Solenoids.cpp:18-26 | the chosen bit takes the requested value, every other bit keeps its value, and the expanders are left holding the new word |
| ProtoSolenoidsWire.RepeatStillWrites | Solenoids.cpp:18-33 | repeating a call leaves the word unchanged yet still writes both expanders |
| LibMachine.Reset | lib/components/machine/machine.cpp:7 | after a reset no machine type is defined |
| LibMachine.SetType | lib/components/machine/machine.cpp:9-11 | setting a type stores it, and the machine is defined exactly when the type is not "no machine" |
| LibMachine.NumberOfNeedles | lib/components/machine/machine.cpp:13-20 | the KH270 has 112 needles and every other type, including none, 200 |
| LibMachine.BankSize | lib/components/machine/machine.cpp:45-62 | a solenoid bank has 12 solenoids or 16 |
| LibMachine.SensorConfig | lib/components/machine/machine.cpp:22-43 | the left sensor sits at needle 0 and the right one at the last needle; thresholds are 100 and 1024 for the right sensor of a KH910 and 200 and 600 otherwise, low always below high |
| LibMachine.SolenoidToSet | lib/components/machine/machine.cpp:45-52 | the solenoid for a needle is the one in the bank congruent to the needle modulo the bank size |
| LibMachine.SolenoidShift | lib/components/machine/machine.cpp:54-62 | the shifted solenoid lies in the bank, half a bank away from the original modulo the bank size |
| LibMachine.ShiftTwiceRestores | lib/components/machine/machine.cpp:54-62 | shifting a solenoid of the bank twice gives it back |
| LibMachine.SolenoidFitsWord | lib/components/machine/machine.cpp:45-62 | every selected solenoid, shifted or not, is a bit of the 16-bit solenoid word |
| LibLine.NextLineNumber | lib/components/knitter/line.cpp:74 | the next line number is one more than the current one, wrapping from 255 to 0 |
| LibLine.Reset | lib/components/knitter/line.cpp:7-15 | after a reset the pattern is 25 bytes of 0xFF, the next line expected is 0, the line is not last, not worked on, not requested and counts as finished; the overflow counter is untouched |
| LibLine.SetPattern | lib/components/knitter/line.cpp:47-58 | a pattern is accepted if and only if its number is the next one expected; a refused pattern changes nothing; an accepted one stores the first 25 bytes, the number and the last-line flag and clears working, requested and finished |
| LibLine.NeedleValue | lib/components/knitter/line.cpp:60-70 | a position whose byte, truncated toward zero, lies past the pattern reads as not selected; otherwise the value is the complement of the position's bit, least significant bit first |
| LibLine.NeedleValueOnBed | lib/components/knitter/line.cpp:60-70 | on needles 0 to 199 the value is the complement of bit position mod 8 of byte position / 8 |
| LibLine.NeedleValueOffBed | lib/components/knitter/line.cpp:60-70 | positions from 200 until the byte index wraps read as not selected |
| LibLine.FirstLineAccepted | lib/components/knitter/line.cpp:7-58 | after a reset line 0 is accepted, the next line expected becomes 1, the line is unfinished and every needle on the bed reads the complement of the given pattern's bit |
| LibLine.WorkedOn | lib/components/knitter/line.cpp:17-45 | when idle, reaching the window arms the counter and starts work, keeping a recorded enter side or deriving it from the direction, and any other side only records the enter side; when working the counter steps, the line finishes when it reaches zero and stays working otherwise; pattern, number and request flag never change |
| LibLine.FinishesAfterOverflow | lib/components/knitter/line.cpp:17-31 | a line entered from the left finishes after exactly as many steps right past the right edge as its counter holds, and not one step sooner |
| LibCarriage.Reset | lib/components/carriage/carriage.cpp:5-10 | after a reset no carriage is defined, the position is 0, it is idle with no enter side, and the overflow counter is untouched |
| LibCarriage.SetPosition | lib/components/carriage/carriage.cpp:74 | setting the position changes the position and nothing else |
| LibCarriage.Extension | lib/components/carriage/carriage.cpp:78-96 | the travel past the work is 18 needles for the G carriage, 8 for the KH270 one and 12 for every other |
| LibCarriage.SelectPosition | lib/components/carriage/carriage.cpp:98-123 | the needle to select is the carriage position plus its type's lead when travelling left and minus it otherwise (the lead is −8 for G, 4 for L, 6 for KH270 and 16 for K), stored as a 16-bit integer |
| LibCarriage.SelectSymmetric | lib/components/carriage/carriage.cpp:98-123 | away from the ends of the 16-bit range the left and right selections lie symmetrically about the carriage |
| LibCarriage.IsCrossing | lib/components/carriage/carriage.cpp:46-68 | a crossing is taken if and only if the travel since detection points in the requested direction and the carriage is not a KH270 one; otherwise nothing changes; when taken, the carriage is reset, takes the detected type and the sensor position plus the travel, moved 12 needles toward the centre for G and 6 for KH270 |
| LibCarriage.WorkFinished | lib/components/carriage/carriage.cpp:12-44 | an idle carriage never reports the end: entering the window arms the counter with its extension and another side only records the enter side; a working one steps the counter and reports the end exactly when it reaches zero, which leaves it idle with no enter side; type and position never change |
| LibCarriage.FinishedAfterExtension | lib/components/carriage/carriage.cpp:12-44 | entering from the left and travelling right past the right edge, the end is reported after exactly the counter's number of needles and not one sooner |
| LibCarriage.ArmedWithExtension | lib/components/carriage/carriage.cpp:30-36 | arming a G carriage starts work with a count of 18 |
| LibHallSensor.ResetDetector | lib/components/hallsensor/hallsensor.cpp:96-100 | a reset detector is idle and inactive and keeps the last detected carriage and position |
| LibHallSensor.New | lib/components/hallsensor/hallsensor.cpp:10-21 | a new sensor has detected no carriage, reports position 255, is idle and inactive and holds its first reading |
| LibHallSensor.DetectCarriage | lib/components/hallsensor/hallsensor.cpp:102-125 | a hunt with only a north pole is the K carriage at the north position, only a south pole the L carriage at the south position, south first the G carriage half-way between the poles, and north first detects nothing and changes nothing |
| LibHallSensor.Record | lib/components/hallsensor/hallsensor.cpp:63-84 | recording a reading keeps the state, the reading and which pole came first |
| LibHallSensor.IsDetected | lib/components/hallsensor/hallsensor.cpp:39-94 | an idle detector with a reading between the thresholds only stores the reading; a reading past a threshold starts a hunt with that pole recorded as first at the encoder position stored in a byte; detection is only ever reported from a hunt, which records the reading, counts a needle down and classifies the carriage when none are left |
| LibHallSensor.IsDetectedKeepsInv | lib/components/hallsensor/hallsensor.cpp:39-125 | for readings below 0xFFFF every call keeps the invariant: idle means no pole recorded, a hunt has a pole and one to three needles to go, and at most one pole is first |
| LibHallSensor.KnitSample | lib/components/hallsensor/hallsensor.cpp:105-108 | a north pole followed by three quiet needles detects the K carriage at the pole's position and returns to idle |
| LibHallSensor.NorthThenSouthIgnored | lib/components/hallsensor/hallsensor.cpp:120-122 | north followed by south detects nothing and keeps the last detected carriage and position |
| LibHallSensor.SouthThenNorthIsGartner | lib/components/hallsensor/hallsensor.cpp:113-119 | south followed by north detects the G carriage half-way between the two byte positions |
| LibBeeper.New | lib/components/beeper/beeper.cpp:8-16 | a new beeper is idle and enabled, and its pin is written the off value |
| LibBeeper.Config | lib/components/beeper/beeper.cpp:39 | configuring changes only whether the beeper is enabled |
| LibBeeper.Beep | lib/components/beeper/beeper.cpp:32-37 | a request is taken if and only if the beeper is enabled and idle, and then n tones are pending (one when n is 0); otherwise nothing changes |
| LibBeeper.Schedule | lib/components/beeper/beeper.cpp:43-75 | an armed tone is switched on for 100 ms, an ending tone is switched off for 100 ms and counted, and a wait ends only once the clock is past its deadline, going idle with the pin off when no tone is left |
| LibBeeper.ScheduleKeepsInv | lib/components/beeper/beeper.cpp:43-75 | every step keeps the beeper in a reachable state: the off phase has a tone to count and a wait resumes on or off |
| LibBeeper.ScheduleCountsTones | lib/components/beeper/beeper.cpp:43-75 | each step either switches the tone on once, lowering the pending count by one, or leaves that count unchanged |
| LibBeeper.IdleIsSilent | lib/components/beeper/beeper.cpp:41-75 | an idle beeper has no tone pending and a step does nothing |
| LibBeeper.RunCountsTones | lib/components/beeper/beeper.cpp:32-75 | over any run of steps at any clock readings, the tones switched on plus the tones still pending equal the tones pending at the start, so a request for n sounds exactly n tones once it is finished |
| LibLed.Write | lib/components/led/led.cpp:16-23 | writing drives the pin to the on or off value that matches the state and records the time |
| LibLed.New | lib/components/led/led.cpp:3-14 | a new LED is off and solid, its pin written the off value |
| LibLed.TurnOff | lib/components/led/led.cpp:25-29 | switching off makes the LED solid and off and writes the off value |
| LibLed.TurnOn | lib/components/led/led.cpp:31-35 | switching on makes the LED solid and on and writes the on value |
| LibLed.Toggle | lib/components/led/led.cpp:37-40 | toggling flips the state, keeps the mode and writes the new level |
| LibLed.StartBlink | lib/components/led/led.cpp:42-48 | blinking stores both times, enters blink mode and switches the LED at once |
| LibLed.StartFlash | lib/components/led/led.cpp:50-60 | a flash under way is extended by the new time without any write; otherwise the current mode is saved and the LED switches |
| LibLed.Schedule | lib/components/led/led.cpp:62-84 | a solid LED is left alone; a blinking one toggles once its on or off time has passed, and a flash ends once its time has passed, restoring the saved mode, all times as unsigned 32-bit differences |
| LibLed.FlashReturns | lib/components/led/led.cpp:50-84 | a flash of a solid LED, once its time is up, leaves the LED solid at its old level, having written the other level and then its own |
| LibLed.FlashKeepsBlink | lib/components/led/led.cpp:50-84 | a flash of a blinking LED hands back to blinking at its old level with both blink times intact |
| LibLed.BlinkWaits | lib/components/led/led.cpp:62-74 | a blinking LED whose time is not up is not touched |
| LibEncoder.New | lib/components/encoder/encoder.cpp:16-18 | a new encoder publishes position 0, counts from 0 and has no pending change |
| LibEncoder.InterruptHandler | lib/components/encoder/encoder.cpp:25-37 | an edge with V2 low changes nothing; with V2 high the interrupt count steps up when V1 is high and down otherwise, with 16-bit wrap-around, and a change is flagged while the published position stays put |
| LibEncoder.SetPosition | lib/components/encoder/encoder.cpp:39-44 | setting a position sets both the published and the interrupt count and leaves the pending flag |
| LibEncoder.GetPosition | lib/components/encoder/encoder.cpp:46 | reading gives the published position |
| LibEncoder.Schedule | lib/components/encoder/encoder.cpp:48-55 | a pending change is published and cleared; without one nothing changes |
| LibEncoder.UpDownCancels | lib/components/encoder/encoder.cpp:25-55 | a rising then a falling edge with V2 high return the count to where it was, and the next schedule publishes that |
| LibEncoder.PublishedOnlyBySchedule | lib/components/encoder/encoder.cpp:25-55 | an interrupt never moves the published position; the next schedule publishes the interrupt count exactly when a change is pending |
| LibEncoder.ScheduleIdempotent | lib/components/encoder/encoder.cpp:48-55 | scheduling twice is the same as scheduling once |
| LibSolenoids.UpdateDevices | lib/components/solenoids/solenoids.cpp:32-40 | with both expanders present the low byte goes to the first and the high byte to the second; a missing expander is skipped and only the other one is written |
| LibSolenoids.SetAll | lib/components/solenoids/solenoids.cpp:18-21 | setting all solenoids stores the word and pushes it to the expanders |
| LibSolenoids.Reset | lib/components/solenoids/solenoids.cpp:10-12 | a reset stores all ones and pushes them to the expanders |
| LibSolenoids.Set | lib/components/solenoids/solenoids.cpp:23-30 | one solenoid takes the requested value, every other keeps its value, and the word is pushed to the expanders |
| LibSolenoids.ResetOne | lib/components/solenoids/solenoids.cpp:14-16 | resetting one solenoid sets its bit and keeps the others |
| LibSolenoids.ExpandersFollowState | lib/components/solenoids/solenoids.cpp:10-40 | with both expanders present, they hold the state word after every change, whatever they held before |
| LibSolenoids.ResetUndoesClear | lib/components/solenoids/solenoids.cpp:14-30 | clearing a set solenoid and resetting it gives back the original word |
| LibKnitter.RequestReset | lib/components/knitter/knitter.cpp:129 | a reset request changes only the state, to Reset |
| LibKnitter.Transmit | lib/components/knitter/knitter.cpp:127 | sending a message emits exactly that message and changes only the transmit LED |
| LibKnitter.ReceiveIndication | lib/components/knitter/knitter.cpp:125 | receiving traffic changes only the receive LED |
| LibKnitter.StateReport | lib/components/knitter/knitter.cpp:162-170 | the state indication reports initialisation as done in every state but Init, and names the left sensor as active whenever it is, else the right one when it is |
| LibKnitter.Crossed | lib/components/knitter/knitter.cpp:177-196 | the carriage is always updated by the crossing test; when the crossing is not taken nothing else changes; when it is, the encoder moves to the carriage position, the belt is shifted exactly when the phase is high for the K carriage at the left sensor or the L carriage at the right one (and low for the others), and the ready beep is requested |
| LibKnitter.CheckHallSensors | lib/components/knitter/knitter.cpp:173-198 | the left sensor is always polled, and a detection there is handled as a crossing to the right without polling the right sensor; the state, line, job, machine, solenoids and direction never change |
| LibKnitter.Heading | lib/components/knitter/knitter.cpp:205-207 | a move is to the right exactly when the 8-bit difference from the old position is below 128, and otherwise to the left, never undetermined |
| LibKnitter.SideOf | lib/components/knitter/knitter.cpp:236-245 | a needle is inside the job if and only if it lies between the start and stop needles, and on the left side if and only if it lies before the start |
| LibKnitter.Solenoid | lib/components/knitter/knitter.cpp:215-226 | the solenoid for the selected needle lies within the machine's bank |
| LibKnitter.Select | lib/components/knitter/knitter.cpp:213-248 | with a known carriage and an unfinished line, a needle of the job gets the line's value on its (possibly shifted) solenoid and the line is told the carriage is inside, while any other needle's solenoid is released and the line is told the side; otherwise the unshifted solenoid is released; state, job, machine, carriage, line number and flags are untouched |
| LibKnitter.RunMachine | lib/components/knitter/knitter.cpp:200-256 | nothing happens without a machine type or without a move of the encoder's byte position; otherwise the direction follows the move, the solenoids are driven, and a state indication follows exactly when continuous reporting is on; state, job, machine and line number never change |
| LibKnitter.ResetStep | lib/components/knitter/knitter.cpp:52-75 | the Reset state goes to Init with the job invalid and reporting off, the build's machine type set, no carriage at the encoder's position, every solenoid released and the sensors configured for that machine; the line is untouched |
| LibKnitter.Fsm | lib/components/knitter/knitter.cpp:48-122 | Init goes to Ready exactly when machine and carriage are both known, indicating the state and invalidating the job; Ready goes to Operate exactly when the job is valid and the beeper has gone quiet, resetting the line; Operate goes to Reset exactly when the finished line was the last, and requests the next line exactly once per finished line; a valid job after a step is the job and machine of before |
| LibKnitter.Schedule | lib/components/knitter/knitter.cpp:39-123 | a schedule services the components, then runs the machine, then steps the state machine, with the outputs in that order |
| LibKnitter.Serviced | lib/components/knitter/knitter.cpp:40-44 | servicing the components runs the encoder and beeper schedules and touches no knitting state |
| LibKnitter.SetConfig | lib/components/knitter/knitter.cpp:131-146 | a job is accepted if and only if the knitter is Ready and the range is non-empty and ends on the bed; in Ready the new range and reporting flag are stored either way; outside Ready only the validity is cleared |
| LibKnitter.SetLine | lib/components/knitter/knitter.cpp:148-160 | a line is accepted if and only if the knitter is operating and it is the next line expected; an accepted line is stored and beeps; a rejected one asks again for the expected line; outside Operate nothing happens |
| LibKnitter.JobStaysOnBed | lib/components/knitter/knitter.cpp:131-146 | no schedule, configuration, line or reset can make a valid job that does not lie on the machine's bed |
| LibKnitter.LineHandshake | lib/components/knitter/knitter.cpp:103-160 | a finished line that is not the last makes the next step request the following line; when it arrives it is accepted and worked on with no request pending |
| LibKnitter.ResetRestarts | lib/components/knitter/knitter.cpp:52-75 | after a reset request the next step lands in Init with no valid job, every solenoid released and a machine type defined |
| LibKnitter.HeadingOfOneNeedle | lib/components/knitter/knitter.cpp:205-207 | one needle of travel either way is read as that direction, also across the byte wrap |

## Left out

- Serial framing: the SLIP/COBS framing and the `PacketSerial` library are not part of this model. Handlers receive de-framed packets. The `lib` knitter's schedule starts with `API::schedule`, which only polls that framing, so `LibKnitter.Schedule` leaves it out.
- Com.OnPacketReceived: requires a packet of at least one byte. An empty packet makes `src/ayab/com.cpp:71` switch on `buffer[0]` past the packet, which has no defined result; the `lib` handler guards against empty packets, which some host serial libraries send first.
- Com.OnPacketReceivedFixed: requires a packet of at least one byte. An empty packet makes `src/ayab/com.cpp:71` switch on `buffer[0]` past the packet, which has no defined result; the `lib` handler guards against empty packets, which some host serial libraries send first.
- SerialEncoding.OnPacketReceived: requires a packet of at least one byte. An empty packet makes `src/ayab/serial_encoding.cpp:158` switch on `buffer[0]` past the packet, which has no defined result; the `lib` handler guards against empty packets, which some host serial libraries send first.
- ProtoSerial.OnPacketReceived: requires a packet of at least one byte. An empty packet makes `serial_encoding.cpp:85` switch on `buffer[0]` past the packet, which has no defined result; the `lib` handler guards against empty packets, which some host serial libraries send first.
- OpKnit.Com: requires a packet of at least one byte. An empty packet makes `src/ayab/opKnit.cpp:111` switch on `buffer[0]` past the packet, which has no defined result; the `lib` handler guards against empty packets, which some host serial libraries send first.
- OpIdle.Com: requires a packet of at least one byte. An empty packet makes `src/ayab/opIdle.cpp:55` switch on `buffer[0]` past the packet, which has no defined result; the `lib` handler guards against empty packets, which some host serial libraries send first.
- OpReady.Com: requires a packet of at least one byte. An empty packet makes `src/ayab/opReady.cpp:62` switch on `buffer[0]` past the packet, which has no defined result; the `lib` handler guards against empty packets, which some host serial libraries send first.
- OpTest.Receive: requires a packet of at least one byte. An empty packet makes `src/ayab/opTest.cpp:96` switch on `buffer[0]` past the packet, which has no defined result; the `lib` handler guards against empty packets, which some host serial libraries send first.
- The CRC of the `lib` rewrite: the body of `crc8.h` is not part of this model, so `Api` takes the checksum function as the parameter `crc`. The `src/ayab` CRC is modelled in `Crc8`.
- Debug memory access: the byte a peek reads is the parameter `peek`, and a poke's write to memory is the output `Poked`.
- Hardware access: pins, `analogRead`, `digitalRead`, `millis`, I2C transfers and interrupt attachment are inputs or recorded outputs. The `IODIR` set-up of the expanders and `pinMode` calls are left out.
- Constants from headers that are not part of this model: `NUM_NEEDLES`, `START_OFFSET`, `END_RIGHT`, `END_OF_LINE_OFFSET_*`, `SOLENOIDS_NUM`, the filter thresholds, `NEEDLE_OFFSET` and the message ids of the older layers. These are the record parameters `Geometry` and `Config`, or `needleOffset`, `endRight` and `Ids`.
- `DBG_NOMACHINE` builds: the debug-button variants of `opInit.cpp` and `opKnit.cpp` are left out.
- Constructors: they are modelled as `New`/`Init` functions. Members the source leaves uninitialised are always written before they are read, and start at zero:
  - the beeper's count and deadline;
  - the LED times;
  - a line before its first reset.
- Function-local statics: those of the older `knitter.cpp` (`_firstRun`, `_ready`, `_sOldPosition`, `_workedOnLine`) are state fields that nothing resets, as in the source.
- The UNO R4 variant of the beeper's off write is left out. It writes the pin HIGH instead of the PWM value 255.
- The `lib` knitter's LED and beeper pin writes are carried as component states, not logged as outputs. Their own modules log them.
- The `default` branch of the `lib` knitter's state switch is left out, because the four-valued `State` cannot reach it.
- `_apiRequestLine` is called with one argument by the `lib` knitter and defined with two in `api.cpp`. The knitter's request is the output `RequestLine` and the message layout is `Api.RequestLineMessage`.
- `digitalRead(ENC_PIN_C)` in the `lib` knitter's `_checkHallSensors` is read but not used, so it is left out.
- Not part of this model:
  - `main.cpp` and the `global_*` wrappers, which only forward to the modelled objects;
  - `hw_test.cpp`, whose commands are the shared `TestCommands`;
  - the older root `beeper.cpp`;
  - the empty init, ready and wait stubs of the root files.
- Root prototype belt phase: `knitter.cpp` uses the phase `Shifted`, which the root headers do not declare, while `encoders.cpp` calls its second phase `Goofy`. `ProtoKnitter` takes the phase as `AyabTypes.BeltShift`.
- ProtoKnitter.KnitAsWritten: a bit index of 8 or more on a byte is modelled as giving 0, which is what Arduino's `bitRead` gives on a promoted byte.
- ProtoSerial.HReqStart: requires 4 bytes, and `HCnfLine` requires 29, because the source reads those offsets without checking the size. A shorter packet reads past the buffer, which has no defined meaning.
- ProtoSolenoidsWire.SetSolenoid: requires an index below 16. `bitSet` on a 16-bit word with a larger index has no meaning the model can give it.
- LibSolenoids.Set: requires an index below 16. `1 << solenoid` on a 16-bit `int` is undefined from 16 on.
- LibSolenoids.ResetOne: requires an index below 16, for the same reason.
- LibLine.NeedleValue: requires `Defined(position)`. A negative position that is not a multiple of 8 makes `1 << bitIndex` shift by 249 to 255, which C leaves undefined. The knitter only passes byte positions, so it never reaches this case.
- LibLine.SetPattern: requires at least 25 pattern bytes, because `memcpy` copies 25 bytes from the pointer it is given.
- LibKnitter.SetLine: requires at least 25 pattern bytes, for the same reason.
- LibHallSensor.IsDetectedKeepsInv: requires readings below 0xFFFF, which marks "no extremum". A reading of exactly 0xFFFF would be stored as if nothing had been recorded. `ProtoHallSensor.IsDetectedKeepsInv` has the same precondition.
- Api.ConfirmLineShortPacket: a sealed line confirmation of 2 or 3 bytes makes the source read bytes 1 and 3 past the packet. The model hands the hook the line-number, pattern and flag arguments only from 5 bytes on; below that it records the wrapped pattern length and the hook's answer, an input `setLineWrapped`, and leaves the out-of-bounds reads unmodelled.
- Com.SendMsg: requires a NUL below index 255. `com.cpp:157-164` has no such bound: its `uint8_t` length wraps and the 255-byte message buffer overflows on a longer text. Every caller passes a short literal, so the model does not describe that overflow.
- Api.RxMessageHandler: requires `ValidCodes`, which says the ids taken from `api.h` are distinct, as the `case` labels of one `switch` must be.

## Findings

| source | as written | input that shows it | evidently intended | confidence | as-written member | corrected member |
|---|---|---|---|---|---|---|
| src/ayab/com.cpp:285 | the test request hands `startTest` the machine type from byte 0, which always holds the message id | any test request `[0x04, 0x00]`: `startTest` receives 0x04 | byte 1, where every other request carries the machine type | high; not executed | Com.HReqTestAsWritten, Com.OnPacketReceived, Com.ReqTestMachineIsMessageId | Com.HReqTest, Com.OnPacketReceivedFixed, Com.FixedReqTestCarriesMachine |
| lib/api/api.cpp:75-78 | a line confirmation only has an upper size bound, so a sealed 4-byte packet reaches `_apiRxSetLine` with pattern length `size - 5` = −1, which wraps as a `size_t` | `[confirmLine, n, 0, crc]` with a good checksum | at least 5 bytes (id, line, colour, flags, checksum) before the hook is called | high; not executed | Api.ConfirmLineAsWritten, Api.RxMessageHandler, Api.ConfirmLineShortPacket | Api.ConfirmLineChecked, Api.ReceiveLineChecked, Api.RxMessageHandlerFixed |
| solenoids.cpp:16-30 | `setSolenoid` changes the state word before calling `setSolenoids`, whose change test then compares the word with itself and never writes the expanders | switching solenoid 0 on from a fresh driver: the state becomes 1, the expanders keep 0 | pass the new word with the state unchanged, so that the change test sees the change | high; not executed | ProtoSolenoids.SetSolenoidAsWritten, ProtoSolenoids.AsWrittenLosesWrite | ProtoSolenoids.SetSolenoid, ProtoSolenoids.ExpandersFollowState |
| knitter.cpp:73 | the pattern bit is read at index `m_solenoidToSet` (0-15) of a single byte, so bits 8-15 of the solenoid word are never set | needle offset 40, a full pattern, position 56 moving right on a regular belt: pixel 16, solenoid 8, pattern bit 1, bit 8 of the word left clear | read bit `pixel % 8` of byte `pixel / 8`, as the later generations do | medium; not executed | ProtoKnitter.KnitAsWritten, ProtoKnitter.AsWrittenUpperBitsNeverSet | ProtoKnitter.Knit, ProtoKnitter.UpperBankSample |

=== FILE: api.dfy ===
/**
 The message layer of the `lib` rewrite (`lib/api/api.cpp`). Every message
 in either direction ends with a CRC-8 of the bytes before it; the CRC
 routine lives in `crc8.h`, which is not part of this model, so it is the
 function parameter `crc`. The derived knitter's hooks (`_apiRequestInit`,
 `_apiRxSetConfig`, `_apiRxSetLine`) are function parameters too, as is
 the memory a debug peek reads; the hooks without a result, and a debug
 poke's write, are recorded as events.
 */
module Api {
  import opened Bytes

  const ApiVersion: bv8 := 5

  const RequestReset: bv8 := 0x00
  const RequestStart: bv8 := 0x01
  const ConfirmStart: bv8 := 0xc1
  const RequestLine: bv8 := 0x82
  const ConfirmLine: bv8 := 0x42
  const RequestInfo: bv8 := 0x03
  const ConfirmInfo: bv8 := 0xc3
  const RequestState: bv8 := 0x44
  const IndicateState: bv8 := 0x84
  const DebugRequestPeek: bv8 := 0xf8
  const DebugConfirmPeek: bv8 := 0xf9
  const DebugRequestPoke: bv8 := 0xfa

  /** The largest line confirmation: id, line, colour, flags, 25 pattern bytes, checksum. */
  const MaxConfirmLine: nat := 30

  /**
   Values the sources use but do not define: the ids of the init request and
   its confirmation, the byte values of the four error codes the handler
   sets itself, and the firmware version.
   */
  datatype Codes = Codes(
    requestInit: bv8, confirmInit: bv8,
    success: bv8, incorrectLength: bv8, checksum: bv8, unknown: bv8,
    fwMaj: bv8, fwMin: bv8, fwPatch: bv8, fwSuffix: seq<bv8>)

  /** The init request is one more `case` of the receive `switch`, so its id differs from the others. */
  predicate ValidCodes(c: Codes) {
    c.requestInit !in {RequestReset, RequestStart, ConfirmLine, RequestInfo, RequestState, DebugRequestPeek, DebugRequestPoke}
  }

  /** The derived knitter's answers to the hooks that return an error code. */
  datatype Hooks = Hooks(
    requestInit: bv8 -> bv8,
    setConfig: (bv8, bv8, bool, bool) -> bv8,
    setLine: (bv8, seq<bv8>, bool) -> bv8,
    setLineWrapped: int -> bv8,
    peek: bv16 -> bv8)

  /** What the handler does, in order. */
  datatype Event =
    | RxTraffic
    | TxTraffic
    | Reset
    | InitRequested(machine: bv8)
    | ConfigSet(start: bv8, stop: bv8, continuous: bool, beeper: bool)
    | LineSet(line: bv8, pattern: seq<bv8>, last: bool)
    | LineSetWrapped(length: int)
    | StateIndicated(error: bv8)
    | Poked(address: bv16, value: bv8)
    | Sent(packet: seq<bv8>)

  datatype Rx = Rx(error: bv8, events: seq<Event>)

  /** A packet whose last byte is the checksum of the bytes before it. */
  predicate Sealed(crc: seq<bv8> -> bv8, p: seq<bv8>) {
    |p| >= 1 && p[|p| - 1] == crc(p[..|p| - 1])
  }

  /** Append the checksum, as every builder does with its last byte. */
  function Seal(crc: seq<bv8> -> bv8, body: seq<bv8>): (p: seq<bv8>)
    ensures Sealed(crc, p) && |p| == |body| + 1 && p[..|body|] == body
  {
    body + [crc(body)]
  }

  // ---------------------------------------------------------------------
  // Outgoing messages

  /** A message sent by a builder, followed by the transmit indication. */
  function Transmit(p: seq<bv8>): seq<Event> {
    [Sent(p), TxTraffic]
  }

  /** The 13-byte state indication: both hall readings big-endian, then carriage, position and belt. */
  function IndicateStateMessage(crc: seq<bv8> -> bv8, error: bv8, state: bv8, hallLeft: bv16, hallRight: bv16,
                                carriage: bv8, position: bv8, direction: bv8, hallActive: bv8, belt: bv8): (p: seq<bv8>)
    ensures |p| == 13 && Sealed(crc, p)
    ensures p[0] == IndicateState && p[1] == error && p[2] == state
    ensures Word(p[3], p[4]) == hallLeft && Word(p[5], p[6]) == hallRight
    ensures p[7..12] == [carriage, position, direction, hallActive, belt]
  {
    WordSplit(hallLeft);
    WordSplit(hallRight);
    Seal(crc, [IndicateState, error, state, HighByte(hallLeft), LowByte(hallLeft), HighByte(hallRight),
               LowByte(hallRight), carriage, position, direction, hallActive, belt])
  }

  function ConfirmInitMessage(crc: seq<bv8> -> bv8, codes: Codes, error: bv8): (p: seq<bv8>)
    ensures |p| == 3 && Sealed(crc, p) && p[..2] == [codes.confirmInit, error]
  {
    Seal(crc, [codes.confirmInit, error])
  }

  function ConfirmStartMessage(crc: seq<bv8> -> bv8, error: bv8): (p: seq<bv8>)
    ensures |p| == 3 && Sealed(crc, p) && p[..2] == [ConfirmStart, error]
  {
    Seal(crc, [ConfirmStart, error])
  }

  function RequestLineMessage(crc: seq<bv8> -> bv8, row: bv8, error: bv8): (p: seq<bv8>)
    ensures |p| == 4 && Sealed(crc, p) && p[..3] == [RequestLine, row, error]
  {
    Seal(crc, [RequestLine, row, error])
  }

  function ConfirmPeekMessage(crc: seq<bv8> -> bv8, value: bv8): (p: seq<bv8>)
    ensures |p| == 3 && Sealed(crc, p) && p[..2] == [DebugConfirmPeek, value]
  {
    Seal(crc, [DebugConfirmPeek, value])
  }

  /** `strncpy(dst, src, n)`: the characters of `src` up to its terminator, at most `n`, padded with NULs. */
  function StrNCpy(src: seq<bv8>, n: nat): (r: seq<bv8>)
    ensures |r| == n
    ensures forall i :: 0 <= i < n && i < |src| && 0 !in src[..i + 1] ==> r[i] == src[i]
    ensures forall i :: 0 <= i < n && (i >= |src| || 0 in src[..i + 1]) ==> r[i] == 0
    decreases n
  {
    if n == 0 then []
    else if |src| == 0 || src[0] == 0 then
      var rest := StrNCpy([], n - 1);
      [0] + rest
    else
      var rest := StrNCpy(src[1..], n - 1);
      assert forall i :: 1 <= i < n && i < |src| ==> (0 in src[..i + 1] <==> 0 in src[1..][..i]) by {
        forall i | 1 <= i < n && i < |src| ensures (0 in src[..i + 1] <==> 0 in src[1..][..i]) {
          assert src[..i + 1] == [src[0]] + src[1..][..i];
        }
      }
      [src[0]] + rest
  }

  /** The 22-byte information reply: versions, a 16-byte version suffix field, checksum. */
  function ConfirmInfoMessage(crc: seq<bv8> -> bv8, codes: Codes): (p: seq<bv8>)
    ensures |p| == 22 && Sealed(crc, p)
    ensures p[..5] == [ConfirmInfo, ApiVersion, codes.fwMaj, codes.fwMin, codes.fwPatch]
    ensures p[5..21] == StrNCpy(codes.fwSuffix, 16)
  {
    var body := [ConfirmInfo, ApiVersion, codes.fwMaj, codes.fwMin, codes.fwPatch] + StrNCpy(codes.fwSuffix, 16);
    var p := Seal(crc, body);
    assert p[5..21] == body[5..21];
    p
  }

  // ---------------------------------------------------------------------
  // The receive handler

  /**
   The line confirmation's gate as written: only an upper size bound, then
   the checksum test over all bytes but the last. The result is the error
   set before the hook is called and, when it is called, the pattern length
   `size - 5` it is handed, negative (a wrapped `size_t`) below 5 bytes.
   */
  function ConfirmLineAsWritten(crc: seq<bv8> -> bv8, codes: Codes, packet: seq<bv8>): (r: (bv8, Option<int>))
    requires |packet| >= 1
    ensures r.1.Some? <==> |packet| <= MaxConfirmLine && Sealed(crc, packet)
    ensures r.1.Some? ==> r.1.value == |packet| - 5
    ensures r.0 == (if |packet| <= MaxConfirmLine then codes.checksum else codes.incorrectLength)
  {
    if |packet| <= MaxConfirmLine then
      if crc(packet[..|packet| - 1]) == packet[|packet| - 1] then (codes.checksum, Some(|packet| - 5))
      else (codes.checksum, None)
    else (codes.incorrectLength, None)
  }

  /**
   A 4-byte line confirmation whose last byte is the checksum of the first
   three passes the test, and the handler calls the line hook with pattern
   length -1; a short one with a bad checksum reports a checksum error, not
   a length error.
   */
  lemma ConfirmLineShortPacket(crc: seq<bv8> -> bv8, codes: Codes, hooks: Hooks, error: bv8, line: bv8, packet: seq<bv8>)
    requires ValidCodes(codes)
    requires 1 <= |packet| <= 4 && packet[0] == ConfirmLine && !Sealed(crc, packet)
    ensures var p := Seal(crc, [ConfirmLine, line, 0]);
      && |p| == 4
      && ConfirmLineAsWritten(crc, codes, p).1 == Some(-1)
      && RxMessageHandler(crc, codes, hooks, error, p).events == [RxTraffic, LineSetWrapped(-1), StateIndicated(hooks.setLineWrapped(-1))]
    ensures RxMessageHandler(crc, codes, hooks, error, packet) == Rx(codes.checksum, [RxTraffic, StateIndicated(codes.checksum)])
  {
    var p := Seal(crc, [ConfirmLine, line, 0]);
    assert p[..3] == [ConfirmLine, line, 0];
  }

  /** The line confirmation with the lower bound restored: at least id, line, colour, flags and checksum. */
  function ConfirmLineChecked(crc: seq<bv8> -> bv8, codes: Codes, packet: seq<bv8>): (r: (bv8, Option<(bv8, seq<bv8>, bool)>))
    requires |packet| >= 1
    ensures r.1.Some? <==> 5 <= |packet| <= MaxConfirmLine && Sealed(crc, packet)
    ensures r.1.Some? ==> r.1.value == (packet[1], packet[4..|packet| - 1], packet[3] & 1 != 0)
    ensures r.1.Some? ==> |r.1.value.1| == |packet| - 5 <= 25
    ensures r.1.None? ==> r.0 == (if 5 <= |packet| <= MaxConfirmLine then codes.checksum else codes.incorrectLength)
  {
    if 5 <= |packet| <= MaxConfirmLine then
      if crc(packet[..|packet| - 1]) == packet[|packet| - 1] then
        (codes.checksum, Some((packet[1], packet[4..|packet| - 1], packet[3] & 1 != 0)))
      else (codes.checksum, None)
    else (codes.incorrectLength, None)
  }

  /**
   A reply to a non-empty packet: receive traffic is signalled first, at
   least one more thing happens, and every message sent is sealed.
   */
  predicate Replied(crc: seq<bv8> -> bv8, r: Rx) {
    && |r.events| >= 2 && r.events[0] == RxTraffic
    && forall i :: 0 <= i < |r.events| && r.events[i].Sent? ==> Sealed(crc, r.events[i].packet)
  }

  /** The requests that drive the knitter: reset, init, start and line confirmation. */
  predicate IsControl(codes: Codes, id: bv8) {
    id in {RequestReset, codes.requestInit, RequestStart, ConfirmLine}
  }

  /** The `case`s of `rxMessageHandler` for the requests that drive the knitter. */
  function ReceiveControl(crc: seq<bv8> -> bv8, codes: Codes, hooks: Hooks, packet: seq<bv8>): (r: Rx)
    requires |packet| >= 1 && IsControl(codes, packet[0])
    ensures Replied(crc, r)
  {
    var id := packet[0];
    var size := |packet|;
    if id == RequestReset then
      var ok := size == 2 && crc(packet[..1]) == packet[1];
      var e := if ok then codes.success else if size == 2 then codes.checksum else codes.incorrectLength;
      Rx(e, [RxTraffic] + (if ok then [Reset] else []) + [StateIndicated(e)])
    else if id == codes.requestInit then
      if size == 3 && crc(packet[..2]) == packet[2] then
        var e := hooks.requestInit(packet[1]);
        Rx(e, [RxTraffic, InitRequested(packet[1])] + Transmit(ConfirmInitMessage(crc, codes, e)))
      else
        var e := if size == 3 then codes.checksum else codes.incorrectLength;
        Rx(e, [RxTraffic] + Transmit(ConfirmInitMessage(crc, codes, e)))
    else if id == RequestStart then
      if size == 5 && crc(packet[..4]) == packet[4] then
        var continuous := packet[3] & 1 != 0;
        var beeper := packet[3] & 2 != 0;
        var e := hooks.setConfig(packet[1], packet[2], continuous, beeper);
        Rx(e, [RxTraffic, ConfigSet(packet[1], packet[2], continuous, beeper)] + Transmit(ConfirmStartMessage(crc, e)))
      else
        var e := if size == 5 then codes.checksum else codes.incorrectLength;
        Rx(e, [RxTraffic] + Transmit(ConfirmStartMessage(crc, e)))
    else
      var (e0, length) := ConfirmLineAsWritten(crc, codes, packet);
      if length.None? then Rx(e0, [RxTraffic, StateIndicated(e0)])
      else if length.value >= 0 then
        var (line, pattern, last) := (packet[1], packet[4..|packet| - 1], packet[3] & 1 != 0);
        var e := hooks.setLine(line, pattern, last);
        Rx(e, [RxTraffic, LineSet(line, pattern, last), StateIndicated(e)])
      else
        var e := hooks.setLineWrapped(length.value);
        Rx(e, [RxTraffic, LineSetWrapped(length.value), StateIndicated(e)])
  }

  /** The line confirmation `case` with the lower bound restored: a short packet is a length error and calls nothing. */
  function ReceiveLineChecked(crc: seq<bv8> -> bv8, codes: Codes, hooks: Hooks, packet: seq<bv8>): (r: Rx)
    requires |packet| >= 1
    ensures Replied(crc, r)
    ensures forall i :: 0 <= i < |r.events| ==> !r.events[i].LineSetWrapped?
    ensures |packet| < 5 ==> r == Rx(codes.incorrectLength, [RxTraffic, StateIndicated(codes.incorrectLength)])
  {
    var (e0, call) := ConfirmLineChecked(crc, codes, packet);
    if call.Some? then
      var (line, pattern, last) := call.value;
      var e := hooks.setLine(line, pattern, last);
      Rx(e, [RxTraffic, LineSet(line, pattern, last), StateIndicated(e)])
    else Rx(e0, [RxTraffic, StateIndicated(e0)])
  }

  /** The `case`s of `rxMessageHandler` for queries, debug access and unknown ids. */
  function ReceiveOther(crc: seq<bv8> -> bv8, codes: Codes, hooks: Hooks, packet: seq<bv8>): (r: Rx)
    requires |packet| >= 1
    ensures Replied(crc, r)
  {
    var id := packet[0];
    var size := |packet|;
    if id == RequestInfo then
      var e := codes.incorrectLength;
      Rx(e, [RxTraffic] + (if size == 1 then Transmit(ConfirmInfoMessage(crc, codes)) else []) + [StateIndicated(e)])
    else if id == RequestState then
      var e := if size == 2 && crc(packet[..1]) == packet[1] then codes.success
               else if size == 2 then codes.checksum else codes.incorrectLength;
      Rx(e, [RxTraffic, StateIndicated(e)])
    else if id == DebugRequestPoke || id == DebugRequestPeek then ReceiveDebug(crc, codes, hooks, packet)
    else
      Rx(codes.unknown, [RxTraffic, StateIndicated(codes.unknown)])
  }

  /** The two debug `case`s: a memory write, and a memory read answered with the byte read. */
  function ReceiveDebug(crc: seq<bv8> -> bv8, codes: Codes, hooks: Hooks, packet: seq<bv8>): (r: Rx)
    requires |packet| >= 1 && (packet[0] == DebugRequestPoke || packet[0] == DebugRequestPeek)
    ensures Replied(crc, r)
  {
    var size := |packet|;
    if packet[0] == DebugRequestPoke then
      if size == 5 && crc(packet[..4]) == packet[4] then
        Rx(codes.checksum, [RxTraffic, Poked(Word(packet[2], packet[1]), packet[3]), StateIndicated(codes.checksum)])
      else
        var e := if size == 5 then codes.checksum else codes.incorrectLength;
        Rx(e, [RxTraffic, StateIndicated(e)])
    else
      if size == 4 && crc(packet[..3]) == packet[3] then
        Rx(codes.checksum, [RxTraffic] + Transmit(ConfirmPeekMessage(crc, hooks.peek(Word(packet[2], packet[1])))))
      else
        var e := if size == 4 then codes.checksum else codes.incorrectLength;
        Rx(e, [RxTraffic, StateIndicated(e)])
  }

  /** `rxMessageHandler`: the error after the packet and what was done, in order. */
  function RxMessageHandler(crc: seq<bv8> -> bv8, codes: Codes, hooks: Hooks, error: bv8, packet: seq<bv8>): (r: Rx)
    requires ValidCodes(codes)
    ensures |packet| == 0 ==> r == Rx(error, [])
    ensures |packet| > 0 ==> Replied(crc, r)
  {
    if |packet| == 0 then Rx(error, [])
    else if IsControl(codes, packet[0]) then ReceiveControl(crc, codes, hooks, packet)
    else ReceiveOther(crc, codes, hooks, packet)
  }

  /** `rxMessageHandler` with the corrected line confirmation; every other message is handled as written. */
  function RxMessageHandlerFixed(crc: seq<bv8> -> bv8, codes: Codes, hooks: Hooks, error: bv8, packet: seq<bv8>): (r: Rx)
    requires ValidCodes(codes)
    ensures |packet| > 0 && packet[0] == ConfirmLine ==> r == ReceiveLineChecked(crc, codes, hooks, packet)
    ensures |packet| == 0 || packet[0] != ConfirmLine ==> r == RxMessageHandler(crc, codes, hooks, error, packet)
  {
    if |packet| > 0 && packet[0] == ConfirmLine then ReceiveLineChecked(crc, codes, hooks, packet)
    else RxMessageHandler(crc, codes, hooks, error, packet)
  }

  /**
   From 5 bytes on the corrected and the written handler treat a line
   confirmation alike; below 5 only the corrected one refuses to call the hook.
   */
  lemma FixedAgreesFromFiveBytes(crc: seq<bv8> -> bv8, codes: Codes, hooks: Hooks, error: bv8, packet: seq<bv8>)
    requires ValidCodes(codes) && |packet| >= 1 && packet[0] == ConfirmLine
    ensures |packet| >= 5 ==> RxMessageHandlerFixed(crc, codes, hooks, error, packet) == RxMessageHandler(crc, codes, hooks, error, packet)
    ensures |packet| < 5 ==> forall e | e in RxMessageHandlerFixed(crc, codes, hooks, error, packet).events :: !e.LineSetWrapped? && !e.LineSet?
  {
  }

  /** The reset request acts exactly when it is two bytes with a good checksum; the state is indicated either way. */
  lemma ResetRequest(crc: seq<bv8> -> bv8, codes: Codes, hooks: Hooks, error: bv8, packet: seq<bv8>)
    requires ValidCodes(codes) && |packet| >= 1 && packet[0] == RequestReset
    ensures var r := RxMessageHandler(crc, codes, hooks, error, packet);
      && (Reset in r.events <==> |packet| == 2 && Sealed(crc, packet))
      && r.events[|r.events| - 1] == StateIndicated(r.error)
      && (r.error == codes.success || |packet| != 2 || !Sealed(crc, packet))
  {
  }

  /** A message other than a reset, info or state request that is not two, three or five bytes long is a length error. */
  lemma WrongLengthStart(crc: seq<bv8> -> bv8, codes: Codes, hooks: Hooks, error: bv8, packet: seq<bv8>)
    requires ValidCodes(codes) && |packet| >= 1 && packet[0] == RequestStart && |packet| != 5
    ensures RxMessageHandler(crc, codes, hooks, error, packet) ==
      Rx(codes.incorrectLength, [RxTraffic, Sent(ConfirmStartMessage(crc, codes.incorrectLength)), TxTraffic])
  {
  }

  /** Every start request the host seals reaches `_apiRxSetConfig` with its fields, and its result is confirmed. */
  lemma StartRoundTrip(crc: seq<bv8> -> bv8, codes: Codes, hooks: Hooks, error: bv8, start: bv8, stop: bv8, flags: bv8)
    requires ValidCodes(codes)
    ensures var r := RxMessageHandler(crc, codes, hooks, error, Seal(crc, [RequestStart, start, stop, flags]));
      var e := hooks.setConfig(start, stop, flags & 1 != 0, flags & 2 != 0);
      && r.error == e
      && r.events == [RxTraffic, ConfigSet(start, stop, flags & 1 != 0, flags & 2 != 0), Sent(ConfirmStartMessage(crc, e)), TxTraffic]
  {
    var p := Seal(crc, [RequestStart, start, stop, flags]);
    assert p[..4] == [RequestStart, start, stop, flags];
  }

  /** Every line the host seals, with at most 25 pattern bytes, reaches `_apiRxSetLine` with exactly that pattern. */
  lemma LineRoundTrip(crc: seq<bv8> -> bv8, codes: Codes, hooks: Hooks, error: bv8, line: bv8, flags: bv8, pattern: seq<bv8>)
    requires ValidCodes(codes) && |pattern| <= 25
    ensures var r := RxMessageHandler(crc, codes, hooks, error, Seal(crc, [ConfirmLine, line, 0, flags] + pattern));
      && LineSet(line, pattern, flags & 1 != 0) in r.events
      && r.error == hooks.setLine(line, pattern, flags & 1 != 0)
  {
    var body := [ConfirmLine, line, 0, flags] + pattern;
    var p := Seal(crc, body);
    assert p[4..|p| - 1] == pattern;
  }

  /** A valid information request is answered, yet the error stays at "incorrect length". */
  lemma InfoKeepsLengthError(crc: seq<bv8> -> bv8, codes: Codes, hooks: Hooks, error: bv8)
    requires ValidCodes(codes)
    ensures var r := RxMessageHandler(crc, codes, hooks, error, [RequestInfo]);
      && r.error == codes.incorrectLength
      && Sent(ConfirmInfoMessage(crc, codes)) in r.events
  {
  }

  /**
   A sealed poke writes its value and still reports a checksum error; a
   sealed peek answers with the byte read and indicates no state.
   */
  lemma DebugRequests(crc: seq<bv8> -> bv8, codes: Codes, hooks: Hooks, error: bv8, packet: seq<bv8>)
    requires ValidCodes(codes) && |packet| >= 1
    ensures var r := RxMessageHandler(crc, codes, hooks, error, packet);
      packet[0] == DebugRequestPoke && |packet| == 5 && Sealed(crc, packet) ==>
        r.error == codes.checksum && Poked(Word(packet[2], packet[1]), packet[3]) in r.events
    ensures var r := RxMessageHandler(crc, codes, hooks, error, packet);
      packet[0] == DebugRequestPeek && |packet| == 4 && Sealed(crc, packet) ==>
        r.events == [RxTraffic, Sent(ConfirmPeekMessage(crc, hooks.peek(Word(packet[2], packet[1])))), TxTraffic]
  {
  }

  /** An id the handler does not know reports "unknown message" and only indicates the state. */
  lemma UnknownIdReported(crc: seq<bv8> -> bv8, codes: Codes, hooks: Hooks, error: bv8, packet: seq<bv8>)
    requires ValidCodes(codes) && |packet| >= 1
    requires packet[0] !in {RequestReset, RequestStart, ConfirmLine, RequestInfo, RequestState, DebugRequestPeek, DebugRequestPoke}
    requires packet[0] != codes.requestInit
    ensures RxMessageHandler(crc, codes, hooks, error, packet) == Rx(codes.unknown, [RxTraffic, StateIndicated(codes.unknown)])
  {
  }
}

=== FILE: ayab_types.dfy ===
/**
 Enumerations, error codes and outputs shared by the `src/ayab` firmware
 (both the Op-state design and the older knitter layer).

 The enumerations for direction, carriage and belt shift are declared in a
 settings header that is not part of this model; their members are the ones
 the `.cpp` files use. The carriage letters of the older files map as
 K = Knit, L = Lace, G = Garter.
 */
module AyabTypes {
  import opened Bytes

  datatype Direction = NoDirection | Left | Right
  datatype Carriage = NoCarriage | Knit | Lace | Garter
  datatype BeltShift = Unknown | Regular | Shifted
  datatype MachineType = Kh910 | Kh930 | Kh270 | NoMachine

  /** Error codes of `src/ayab/op.h`; two of its names share 0x13. */
  const Success: bv8 := 0x00
  const ErrExpectedLongerMessage: bv8 := 0x01
  const ErrUnrecognizedMsgId: bv8 := 0x02
  const ErrUnexpectedMsgId: bv8 := 0x03
  const ErrChecksumError: bv8 := 0x04
  const ErrMachineTypeInvalid: bv8 := 0x10
  const ErrNeedleValueInvalid: bv8 := 0x11
  const ErrNullPointerArgument: bv8 := 0x12
  const ErrArgumentInvalid: bv8 := 0x13
  const ErrArgumentsIncompatible: bv8 := 0x13
  const ErrNoMachineType: bv8 := 0x20
  const ErrNoCarriage: bv8 := 0x21
  const ErrNoDirection: bv8 := 0x22
  const ErrNoBeltShift: bv8 := 0x23
  const ErrMachineStateInit: bv8 := 0xE0
  const ErrMachineStateReady: bv8 := 0xE1
  const ErrMachineStateKnit: bv8 := 0xE2
  const ErrMachineStateTest: bv8 := 0xE3
  const ErrWrongMachineState: bv8 := 0xEF
  const Warning: bv8 := 0xF0
  const RecoverableError: bv8 := 0xF1
  const CriticalError: bv8 := 0xF2
  const FatalError: bv8 := 0xF3
  const UnspecifiedFailure: bv8 := 0xFF

  /** The encoder readings a state machine copies at the start of each update. */
  datatype Readings = Readings(beltShift: BeltShift, carriage: Carriage, direction: Direction,
                               hallActive: Direction, position: u8)

  /** The operating states of the Op-state design. */
  datatype OpId = OpIdle | OpInit | OpReady | OpKnit | OpTest | OpError

  /**
   The knitter's pattern pointer. The protocol layer is its only caller and
   always hands it the protocol layer's own static line buffer, so a pointer
   that is not null is that buffer. The knitter holds the pointer, not a
   copy: what it reads is the buffer as the protocol layer has last written
   it, which each step takes as an input.
   */
  datatype Pointer = Null | HostLineBuffer

  /** The two status LEDs: A is green, B is yellow. */
  datatype LedPin = LedA | LedB

  /** The beeper melodies the knitter plays. */
  datatype Tune = BeepReady | BeepFinishedLine | BeepEndWork

  /** An observable output of the firmware, in the order it happens. */
  datatype Event =
    | Led(pin: LedPin, on: bool)
    | SetSolenoid(index: int, on: bool)
    | SetSolenoids(mask: bv16)
    | IndState(error: bv8)
    | ReqLine(line: u8)
    | Send(packet: seq<bv8>)
    | TestText(text: string)
    | Reading(caption: string, value: int)
    | Beep(tune: Tune)
    | SetState(op: OpId)
    | Forward(handler: Handler, packet: seq<bv8>)
    | Action(name: Hook)
    | ExpanderWrite(bank: Bank, bits: bv8)

  /** The two I/O expanders that drive solenoids 0-7 and 8-15. */
  datatype Bank = LowBank | HighBank

  /** The protocol handlers a state forwards a packet to. */
  datatype Handler = HReqInit | HReqStart | HReqTest | HCnfLine | HUnrecognized

  /**
   Calls into other components that have no result the model needs.
   `AttachEncoderABeep` attaches the test modes' `encoderAChange` handler to
   the rising edge of encoder A; what that handler does is
   `TestCommands.EncoderAChange`.
   */
  datatype Hook = EncodersInit | SetUpInterrupt | DetachInterrupt | AttachEncoderABeep | OpKnitInit | KnitInit | KnitterInit | KnitterKnit | KnitterSetUpInterrupt | SolenoidsInit | EncodePosition | StartDelay

  /**
   Per-machine constants that the `.cpp` files index by machine type but
   whose tables are not part of this model. Each is a function of the
   machine type, so an index with `NoMachine` is modelled too.
   */
  datatype Geometry = Geometry(
    numNeedles: MachineType -> u8,
    lineBufferLen: MachineType -> u8,
    startOffset: (MachineType, Direction, Carriage) -> u8,
    endRight: MachineType -> u8,
    endLeftPlusOffset: MachineType -> u8,
    endRightMinusOffset: MachineType -> u8,
    garterSlop: u8,
    solenoidsNum: MachineType -> u8,
    halfSolenoidsNum: MachineType -> u8,
    endOfLineOffsetL: MachineType -> u8,
    endOfLineOffsetR: MachineType -> u8,
    solenoidsBitmask: bv16)

  /** `%` by a solenoid count is only defined for a non-zero count. */
  predicate ValidGeometry(g: Geometry) {
    forall m: MachineType :: g.solenoidsNum(m) > 0
  }

  /** Writing a 16-bit solenoid word: the low byte to the expander of solenoids 0-7, then the high byte. */
  function WriteWord(w: bv16): (r: seq<Event>)
    ensures |r| == 2 && r[0].ExpanderWrite? && r[0].bank == LowBank && r[1].ExpanderWrite? && r[1].bank == HighBank
  {
    [ExpanderWrite(LowBank, LowByte(w)), ExpanderWrite(HighBank, HighByte(w))]
  }

  /**
   The word the two expanders hold after a run of outputs, starting from
   `hw`: each expander write replaces its half, every other output leaves
   the expanders alone.
   */
  function Latch(hw: bv16, events: seq<Event>): bv16
    decreases |events|
  {
    if events == [] then hw
    else
      var e := events[0];
      var hw' := if !e.ExpanderWrite? then hw
                 else if e.bank == LowBank then Word(HighByte(hw), e.bits)
                 else Word(e.bits, LowByte(hw));
      Latch(hw', events[1..])
  }

  /** Whatever the expanders held before, writing a word leaves exactly that word on them. */
  lemma LatchWriteWord(hw: bv16, w: bv16)
    ensures Latch(hw, WriteWord(w)) == w
  {
    var ev := WriteWord(w);
    var hw1 := Word(HighByte(hw), LowByte(w));
    SplitWord(HighByte(hw), LowByte(w));
    assert ev[1..][1..] == [];
    assert Latch(hw, ev) == Latch(hw1, ev[1..]);
    assert Latch(hw1, ev[1..]) == Latch(Word(HighByte(w), LowByte(hw1)), []);
    WordSplit(w);
  }

  lemma LatchWriteWordAll(w: bv16)
    ensures forall hw: bv16 {:trigger Latch(hw, WriteWord(w))} :: Latch(hw, WriteWord(w)) == w
  {
    forall hw: bv16 ensures Latch(hw, WriteWord(w)) == w {
      LatchWriteWord(hw, w);
    }
  }

  /** Outputs that touch no expander leave the expanders as they were. */
  lemma {:induction false} LatchIgnoresOthers(hw: bv16, events: seq<Event>)
    requires forall k :: 0 <= k < |events| ==> !events[k].ExpanderWrite?
    ensures Latch(hw, events) == hw
    decreases |events|
  {
    if events != [] {
      LatchIgnoresOthers(hw, events[1..]);
    }
  }
}

=== FILE: bytes.dfy ===
/**
 Integer widths of the firmware's C++ types and the C conversion rules that
 the models below depend on. Dafny integers are unbounded, so every store into
 a `uint8_t`, `uint16_t`, `uint32_t` or `int16_t` is written out here once.
 */
module Bytes {

  /** Values of `uint8_t`, `uint16_t` and `uint32_t` (`unsigned long` on the AVR). */
  type u8 = x: int | 0 <= x < 0x100
  type u16 = x: int | 0 <= x < 0x1_0000
  type u32 = x: int | 0 <= x < 0x1_0000_0000

  /** Values of `int16_t`. */
  type i16 = x: int | -0x8000 <= x < 0x8000

  /** The optional value the C++ code expresses with a `bool` return and out-parameters. */
  datatype Option<+T> = None | Some(value: T)

  /** Storing an `int` into a `uint8_t` keeps it modulo 256. */
  function ToU8(x: int): u8 { x % 0x100 }

  /** Storing an `int` into a `uint16_t` keeps it modulo 2^16. */
  function ToU16(x: int): u16 { x % 0x1_0000 }

  /** Unsigned 32-bit arithmetic (`millis()` values) is modulo 2^32. */
  function ToU32(x: int): u32 { x % 0x1_0000_0000 }

  /** Storing an `int` into an `int16_t` wraps in two's complement. */
  function ToI16(x: int): i16 { (x + 0x8000) % 0x1_0000 - 0x8000 }

  /** Elapsed time `now - last` computed in unsigned 32-bit arithmetic. */
  function Elapsed(now: u32, last: u32): u32 { ToU32(now - last) }

  /**
   C's `%` on `int`: the quotient truncates toward zero, so the remainder
   takes the sign of the dividend (Dafny's `%` never returns a negative value).
   */
  function CRem(a: int, n: int): (r: int)
    requires n > 0
    ensures -n < r < n
    ensures a >= 0 ==> r == a % n
    ensures a < 0 ==> r <= 0
    ensures -n < a < 0 ==> r == a
  {
    if a >= 0 then a % n else -((-a) % n)
  }

  /** C's `/` on `int`, truncating toward zero; with `CRem` it splits the dividend. */
  function CDiv(a: int, n: int): (q: int)
    requires n > 0
    ensures q * n + CRem(a, n) == a
    ensures a >= 0 ==> q == a / n
  {
    if a >= 0 then a / n else -((-a) / n)
  }

  /** The byte a `uint8_t` value is sent as. */
  function Byte(x: u8): bv8 { x as bv8 }

  /** The `uint8_t` value of a received byte. */
  function Val(b: bv8): u8 { b as int }

  /** Arduino `bitRead(value, bit)` on a byte. */
  predicate BitRead(value: bv8, bit: nat)
    requires bit < 8
  {
    (value >> bit) & 1 == 1
  }

  /** Arduino `lowByte` and `highByte` of a 16-bit word. */
  function LowByte(w: bv16): bv8 { (w & 0xFF) as bv8 }
  function HighByte(w: bv16): bv8 { (w >> 8) as bv8 }

  /** A `uint8_t` stored into a `uint16_t` and shifted, as in `(hi << 8) + lo`. */
  function Word(hi: bv8, lo: bv8): bv16 { ((hi as bv16) << 8) + (lo as bv16) }

  /** A 16-bit word travels as its two bytes, so splitting and joining are inverse. */
  lemma WordSplit(w: bv16)
    ensures Word(HighByte(w), LowByte(w)) == w
  {
  }

  lemma SplitWord(hi: bv8, lo: bv8)
    ensures HighByte(Word(hi, lo)) == hi && LowByte(Word(hi, lo)) == lo
  {
  }

  /** Wrapping an already representable value changes nothing. */
  lemma ToU8Small(x: int)
    requires 0 <= x < 0x100
    ensures ToU8(x) == x
  {
  }

  /** Two `uint8_t` stores in a row wrap like one: `(uint8_t)((uint8_t)a + b) == (uint8_t)(a + b)`. */
  lemma ToU8Add(a: int, b: int)
    ensures ToU8(ToU8(a) + b) == ToU8(a + b)
  {
    var q := a / 0x100;
    assert a == 0x100 * q + ToU8(a);
  }

  /** The mask of bit `i` of a 16-bit word, `1 << i`. */
  function Bit(i: bv8): bv16
    requires i < 16
  {
    (1 as bv16) << i
  }

  /** Arduino `bitSet` (when `on`) or `bitClear` of bit `i` of a 16-bit word. */
  function SetBit(w: bv16, i: bv8, on: bool): bv16
    requires i < 16
  {
    if on then w | Bit(i) else w & !Bit(i)
  }

  predicate IsSet(w: bv16, i: bv8)
    requires i < 16
  {
    w & Bit(i) != 0
  }

  /** Setting or clearing one bit gives that bit the new value and leaves the other fifteen alone. */
  lemma SetBitEffect(w: bv16, i: bv8, on: bool)
    requires i < 16
    ensures IsSet(SetBit(w, i, on), i) == on
    ensures forall j: bv8 :: j < 16 && j != i ==> IsSet(SetBit(w, i, on), j) == IsSet(w, j)
  {
  }

  /** Setting a bit to the value it already has changes nothing. */
  lemma SetBitIdempotent(w: bv16, i: bv8, on: bool)
    requires i < 16
    ensures SetBit(SetBit(w, i, on), i, on) == SetBit(w, i, on)
  {
  }

  /** Clearing a set bit and setting it again gives back the word. */
  lemma SetBitRestore(w: bv16, i: bv8)
    requires i < 16 && IsSet(w, i)
    ensures SetBit(SetBit(w, i, false), i, true) == w
  {
  }
}

=== FILE: com.dfy ===
/**
 The host protocol handler of the current firmware (`src/ayab/com.cpp`): a
 de-framed packet is dispatched on its first byte, checked for length and,
 when the firmware is built with CRC support, for its checksum, and its
 fields are handed to the knitter or the hardware tester.

 A handler is a pure function from the packet to an `Effect`: the line buffer
 after the call, the calls made into the knitter and tester, and the packets
 sent back. What the knitter answers to those calls is an input (`Answers`).
 Whether the firmware is built with CRC support is the parameter `crcOn`.
 */
module Com {
  import opened Bytes
  import Crc8

  const FwVersionMaj: bv8 := 1
  const FwVersionMin: bv8 := 0
  const ApiVersion: bv8 := 6
  const MaxLineBufferLen: nat := 25
  const MaxMsgBufferLen: nat := 255

  const ReqStart: bv8 := 0x01
  const CnfStart: bv8 := 0xc1
  const ReqLine: bv8 := 0x82
  const CnfLine: bv8 := 0x42
  const ReqInfo: bv8 := 0x03
  const CnfInfo: bv8 := 0xc3
  const ReqTest: bv8 := 0x04
  const CnfTest: bv8 := 0xc4
  const IndState: bv8 := 0x84
  const HelpCmd: bv8 := 0x25
  const SendCmd: bv8 := 0x26
  const BeepCmd: bv8 := 0x27
  const SetSingleCmd: bv8 := 0x28
  const SetAllCmd: bv8 := 0x29
  const ReadEolSensorsCmd: bv8 := 0x2a
  const ReadEncodersCmd: bv8 := 0x2b
  const AutoReadCmd: bv8 := 0x2c
  const AutoTestCmd: bv8 := 0x2d
  const StopCmd: bv8 := 0x2e
  const QuitCmd: bv8 := 0x2f

  /** A call the protocol layer makes into the knitter or the hardware tester. */
  datatype Call =
    | StartKnitting(machine: bv8, start: bv8, stop: bv8, continuous: bool)
    | SetNextLine(line: bv8)
    | SetLastLine
    | StartTest(machine: bv8)
    | Tester(cmd: bv8, packet: seq<bv8>)

  /** What the knitter returns from `startKnitting`, `setNextLine` and `startTest`. */
  datatype Answers = Answers(started: bool, accepted: bool, tested: bool)

  /** The line buffer after a handler, the calls it made and the packets it sent, in order. */
  datatype Effect = Effect(lineBuffer: seq<bv8>, calls: seq<Call>, sent: seq<seq<bv8>>)

  /** A `bool` sent as one byte. */
  function Flag(b: bool): bv8 { if b then 1 else 0 }

  /** The line buffer is `MAX_LINE_BUFFER_LEN` bytes and a machine's line is no longer. */
  predicate ValidBuffers(lineBuffer: seq<bv8>, lineLen: nat) {
    |lineBuffer| == MaxLineBufferLen && lineLen <= MaxLineBufferLen
  }

  /** The checksum test, skipped when CRC support is compiled out. */
  predicate CrcOk(crcOn: bool, packet: seq<bv8>, n: nat) {
    !crcOn || (n < |packet| && packet[n] == Crc8.Crc(packet[..n]))
  }

  /** The line buffer after `h_cnfLine` has stored the complement of the first `n` payload bytes. */
  function StoreLine(lineBuffer: seq<bv8>, packet: seq<bv8>, n: nat): (r: seq<bv8>)
    requires n <= |lineBuffer| && n + 4 <= |packet|
    ensures |r| == |lineBuffer|
    ensures forall i :: 0 <= i < n ==> r[i] == !packet[i + 4]
    ensures forall i :: n <= i < |r| ==> r[i] == lineBuffer[i]
  {
    seq(|lineBuffer|, i requires 0 <= i < |lineBuffer| => if i < n then !packet[i + 4] else lineBuffer[i])
  }

  /** Start request: machine, first and last needle, continuous-reporting flag. */
  function HReqStart(crcOn: bool, packet: seq<bv8>, lineBuffer: seq<bv8>, ans: Answers): (e: Effect)
    ensures |packet| < (if crcOn then 6 else 5) ==> e == Effect(lineBuffer, [], [])
    ensures |packet| >= 6 && crcOn && packet[5] != Crc8.Crc(packet[..5]) ==> e == Effect(lineBuffer, [], [])
    ensures e.calls != [] <==> |packet| >= 5 && (crcOn ==> |packet| >= 6 && packet[5] == Crc8.Crc(packet[..5]))
    ensures e.calls != [] ==>
      && e.lineBuffer == seq(MaxLineBufferLen, _ => 0xFF)
      && e.calls == [StartKnitting(packet[1], packet[2], packet[3], packet[4] != 0)]
      && e.sent == [[CnfStart, Flag(ans.started)]]
  {
    if |packet| < (if crcOn then 6 else 5) then Effect(lineBuffer, [], [])
    else if !CrcOk(crcOn, packet, 5) then Effect(lineBuffer, [], [])
    else
      Effect(seq(MaxLineBufferLen, _ => 0xFF),
             [StartKnitting(packet[1], packet[2], packet[3], packet[4] != 0)],
             [[CnfStart, Flag(ans.started)]])
  }

  /**
   Line confirmation: line number, colour, flags and `lineLen` pattern bytes,
   then the checksum. The complemented pattern is stored before the checksum
   is tested.
   */
  function HCnfLine(crcOn: bool, packet: seq<bv8>, lineBuffer: seq<bv8>, lineLen: nat, ans: Answers): (e: Effect)
    requires ValidBuffers(lineBuffer, lineLen)
    ensures |packet| < lineLen + 5 ==> e == Effect(lineBuffer, [], [])
    ensures |packet| >= lineLen + 5 ==>
      && e.lineBuffer == StoreLine(lineBuffer, packet, lineLen)
      && e.sent == []
      && (CrcOk(crcOn, packet, lineLen + 4) ==>
            e.calls == [SetNextLine(packet[1])] + (if ans.accepted && BitRead(packet[3], 0) then [SetLastLine] else []))
      && (!CrcOk(crcOn, packet, lineLen + 4) ==> e.calls == [])
    ensures SetLastLine in e.calls ==> ans.accepted && BitRead(packet[3], 0)
  {
    if |packet| < lineLen + 5 then Effect(lineBuffer, [], [])
    else
      var stored := StoreLine(lineBuffer, packet, lineLen);
      if !CrcOk(crcOn, packet, lineLen + 4) then Effect(stored, [], [])
      else if ans.accepted && BitRead(packet[3], 0) then Effect(stored, [SetNextLine(packet[1]), SetLastLine], [])
      else Effect(stored, [SetNextLine(packet[1])], [])
  }

  /** Information request: the reply carries the API version and the firmware version. */
  function HReqInfo(lineBuffer: seq<bv8>): (e: Effect)
    ensures e.sent == [[CnfInfo, ApiVersion, FwVersionMaj, FwVersionMin]]
    ensures e.calls == [] && e.lineBuffer == lineBuffer
  {
    Effect(lineBuffer, [], [[CnfInfo, ApiVersion, FwVersionMaj, FwVersionMin]])
  }

  /**
   Test request as the firmware is written: the machine type handed to
   `startTest` is read from byte 0, which always holds the message id.
   */
  function HReqTestAsWritten(packet: seq<bv8>, lineBuffer: seq<bv8>, ans: Answers): (e: Effect)
    ensures |packet| < 2 ==> e == Effect(lineBuffer, [], [])
    ensures |packet| >= 2 ==> e.calls == [StartTest(packet[0])] && e.sent == [[CnfTest, Flag(ans.tested)]]
  {
    if |packet| < 2 then Effect(lineBuffer, [], [])
    else Effect(lineBuffer, [StartTest(packet[0])], [[CnfTest, Flag(ans.tested)]])
  }

  /** Test request with the machine type taken from byte 1, where the other requests carry it. */
  function HReqTest(packet: seq<bv8>, lineBuffer: seq<bv8>, ans: Answers): (e: Effect)
    ensures |packet| < 2 ==> e == Effect(lineBuffer, [], [])
    ensures |packet| >= 2 ==> e.calls == [StartTest(packet[1])] && e.sent == [[CnfTest, Flag(ans.tested)]]
  {
    if |packet| < 2 then Effect(lineBuffer, [], [])
    else Effect(lineBuffer, [StartTest(packet[1])], [[CnfTest, Flag(ans.tested)]])
  }

  /** The hardware-test commands the dispatcher forwards to the tester. */
  predicate IsTesterCommand(id: bv8) {
    id in {HelpCmd, SendCmd, BeepCmd, SetSingleCmd, SetAllCmd, ReadEolSensorsCmd,
            ReadEncodersCmd, AutoReadCmd, AutoTestCmd, StopCmd, QuitCmd}
  }

  /**
   The packet callback as written: dispatch on the message id. Start, line
   and information requests reach their handlers; a test request reaches
   `h_reqTest`, which passes on byte 0.
   */
  function OnPacketReceived(crcOn: bool, packet: seq<bv8>, lineBuffer: seq<bv8>, lineLen: nat, ans: Answers): (e: Effect)
    requires |packet| >= 1 && ValidBuffers(lineBuffer, lineLen)
    ensures packet[0] == ReqStart ==>
      e.calls == (if |packet| >= 5 && CrcOk(crcOn, packet, 5) then [StartKnitting(packet[1], packet[2], packet[3], packet[4] != 0)] else [])
    ensures packet[0] == CnfLine ==> e.sent == [] && (e.calls == [] || (|packet| >= 2 && e.calls[0] == SetNextLine(packet[1])))
    ensures packet[0] == CnfLine && |packet| < lineLen + 5 ==> e == Effect(lineBuffer, [], [])
    ensures packet[0] == ReqInfo ==> e == Effect(lineBuffer, [], [[CnfInfo, ApiVersion, FwVersionMaj, FwVersionMin]])
    ensures packet[0] == ReqTest ==> e.lineBuffer == lineBuffer && e.calls == (if |packet| >= 2 then [StartTest(ReqTest)] else [])
    ensures IsTesterCommand(packet[0]) ==> e == Effect(lineBuffer, [Tester(packet[0], packet)], [])
    ensures packet[0] !in {ReqStart, CnfLine, ReqInfo, ReqTest} && !IsTesterCommand(packet[0]) ==>
      e == Effect(lineBuffer, [], [])
    ensures |e.lineBuffer| == MaxLineBufferLen
  {
    var id := packet[0];
    if id == ReqStart then HReqStart(crcOn, packet, lineBuffer, ans)
    else if id == CnfLine then HCnfLine(crcOn, packet, lineBuffer, lineLen, ans)
    else if id == ReqInfo then HReqInfo(lineBuffer)
    else if id == ReqTest then HReqTestAsWritten(packet, lineBuffer, ans)
    else if IsTesterCommand(id) then Effect(lineBuffer, [Tester(id, packet)], [])
    else Effect(lineBuffer, [], [])
  }

  /** Every test request the dispatcher accepts starts the test with the message id 0x04 as machine type. */
  lemma ReqTestMachineIsMessageId(crcOn: bool, machine: bv8, rest: seq<bv8>, lineBuffer: seq<bv8>, lineLen: nat, ans: Answers)
    requires ValidBuffers(lineBuffer, lineLen)
    ensures var e := OnPacketReceived(crcOn, [ReqTest, machine] + rest, lineBuffer, lineLen, ans);
      e.calls == [StartTest(0x04)] && (machine != 0x04 ==> e.calls != [StartTest(machine)])
  {
  }

  /** The dispatcher with the corrected test handler; every other message goes where it did. */
  function OnPacketReceivedFixed(crcOn: bool, packet: seq<bv8>, lineBuffer: seq<bv8>, lineLen: nat, ans: Answers): (e: Effect)
    requires |packet| >= 1 && ValidBuffers(lineBuffer, lineLen)
    ensures packet[0] == ReqTest ==> e.lineBuffer == lineBuffer && e.calls == (if |packet| >= 2 then [StartTest(packet[1])] else [])
    ensures packet[0] != ReqTest ==> e == OnPacketReceived(crcOn, packet, lineBuffer, lineLen, ans)
  {
    if packet[0] == ReqTest then HReqTest(packet, lineBuffer, ans)
    else OnPacketReceived(crcOn, packet, lineBuffer, lineLen, ans)
  }

  /** With the fix, a test request hands `startTest` the machine type the host put in byte 1. */
  lemma FixedReqTestCarriesMachine(crcOn: bool, machine: bv8, rest: seq<bv8>, lineBuffer: seq<bv8>, lineLen: nat, ans: Answers)
    requires ValidBuffers(lineBuffer, lineLen)
    ensures var e := OnPacketReceivedFixed(crcOn, [ReqTest, machine] + rest, lineBuffer, lineLen, ans);
      e.calls == [StartTest(machine)] && e.sent == [[CnfTest, Flag(ans.tested)]]
  {
  }

  /** `sendMsg`: the id, then the characters of a NUL-terminated string up to the terminator. */
  method SendMsg(id: bv8, msg: seq<bv8>) returns (payload: seq<bv8>)
    requires exists k :: 0 <= k < |msg| && k < MaxMsgBufferLen && msg[k] == 0
    ensures 1 <= |payload| <= MaxMsgBufferLen && payload[0] == id
    ensures |payload| - 1 < |msg| && msg[|payload| - 1] == 0
    ensures payload[1..] == msg[..|payload| - 1]
    ensures forall i :: 1 <= i < |payload| ==> payload[i] != 0
  {
    ghost var k :| 0 <= k < |msg| && k < MaxMsgBufferLen && msg[k] == 0;
    payload := [id];
    var i := 0;
    while msg[i] != 0
      invariant 0 <= i <= k
      invariant payload == [id] + msg[..i]
      invariant forall j :: 0 <= j < i ==> msg[j] != 0
      decreases k - i
    {
      payload := payload + [msg[i]];
      i := i + 1;
      assert msg[..i] == msg[..i - 1] + [msg[i - 1]];
    }
  }

  // ---------------------------------------------------------------------
  // The host's side of the protocol, used to state the round trips.

  /** The start request as the host sends it, checksum appended. */
  function EncodeReqStart(machine: bv8, start: bv8, stop: bv8, continuous: bool): (p: seq<bv8>)
    ensures |p| == 6 && p[0] == ReqStart
  {
    var body := [ReqStart, machine, start, stop, Flag(continuous)];
    body + [Crc8.Crc(body)]
  }

  /** The line confirmation as the host sends it, checksum appended. */
  function EncodeCnfLine(line: bv8, pattern: seq<bv8>, last: bool): (p: seq<bv8>)
    ensures |p| == |pattern| + 5 && p[0] == CnfLine
  {
    var body := [CnfLine, line, 0, Flag(last)] + pattern;
    body + [Crc8.Crc(body)]
  }

  /** Every start request the host encodes reaches `startKnitting` with its own fields. */
  lemma ReqStartRoundTrip(crcOn: bool, machine: bv8, start: bv8, stop: bv8, continuous: bool,
                          lineBuffer: seq<bv8>, lineLen: nat, ans: Answers)
    requires ValidBuffers(lineBuffer, lineLen)
    ensures var e := OnPacketReceived(crcOn, EncodeReqStart(machine, start, stop, continuous), lineBuffer, lineLen, ans);
      && e.calls == [StartKnitting(machine, start, stop, continuous)]
      && e.sent == [[CnfStart, Flag(ans.started)]]
  {
    var p := EncodeReqStart(machine, start, stop, continuous);
    assert p[..5] == [ReqStart, machine, start, stop, Flag(continuous)];
  }

  /**
   Every line confirmation the host encodes for the current machine's line
   length hands its line number to `setNextLine`, leaves the complemented
   pattern in the line buffer, and marks the last line exactly when the
   knitter accepted it and the host flagged it.
   */
  lemma CnfLineRoundTrip(crcOn: bool, line: bv8, pattern: seq<bv8>, last: bool,
                         lineBuffer: seq<bv8>, ans: Answers)
    requires ValidBuffers(lineBuffer, |pattern|)
    ensures var e := OnPacketReceived(crcOn, EncodeCnfLine(line, pattern, last), lineBuffer, |pattern|, ans);
      && (forall i :: 0 <= i < |pattern| ==> !e.lineBuffer[i] == pattern[i])
      && e.calls == [SetNextLine(line)] + (if ans.accepted && last then [SetLastLine] else [])
      && e.sent == []
  {
    var p := EncodeCnfLine(line, pattern, last);
    var n := |pattern|;
    var body := [CnfLine, line, 0, Flag(last)] + pattern;
    assert p == body + [Crc8.Crc(body)];
    assert p[..n + 4] == body;
    assert CrcOk(crcOn, p, n + 4);
    assert p[1] == line && p[3] == Flag(last);
    assert BitRead(Flag(last), 0) == last;
    var e := HCnfLine(crcOn, p, lineBuffer, n, ans);
    assert OnPacketReceived(crcOn, p, lineBuffer, n, ans) == e;
    forall i | 0 <= i < n
      ensures !e.lineBuffer[i] == pattern[i]
    {
      assert e.lineBuffer[i] == !p[i + 4];
      assert p[i + 4] == body[i + 4] == pattern[i];
    }
  }

  /** With CRC support on, a start request whose checksum byte is altered has no effect at all. */
  lemma CorruptReqStartIgnored(machine: bv8, start: bv8, stop: bv8, continuous: bool, bad: bv8,
                               lineBuffer: seq<bv8>, lineLen: nat, ans: Answers)
    requires ValidBuffers(lineBuffer, lineLen)
    requires bad != Crc8.Crc([ReqStart, machine, start, stop, Flag(continuous)])
    ensures var p := [ReqStart, machine, start, stop, Flag(continuous), bad];
      OnPacketReceived(true, p, lineBuffer, lineLen, ans) == Effect(lineBuffer, [], [])
  {
    var p := [ReqStart, machine, start, stop, Flag(continuous), bad];
    assert p[..5] == [ReqStart, machine, start, stop, Flag(continuous)];
  }
}

=== FILE: controller.dfy ===
/**
 The controller of the Op-state design (`src/ayab/controller.cpp`). It caches
 the encoder readings, runs the current state's `update`, and performs a
 state change requested with `setState` only at the next `update`, calling
 the old state's `end` and the new state's `begin`.

 The states themselves are modelled in their own modules; here a state is
 its `OpId`, what its `update` requested is an input, and the calls the
 controller makes into the states are recorded as `Step`s.
 */
module Controller {
  import opened Bytes
  import opened AyabTypes

  datatype Controller = Controller(machineType: MachineType, cache: Readings, current: OpId, next: OpId)

  /** A call the controller makes into a state object. */
  datatype Step = Updated(op: OpId) | Ended(op: OpId) | Began(op: OpId)

  /** `init`: no machine, no carriage, no direction, unknown belt shift, position 0, idle. */
  function Init(): (c: Controller)
    ensures c.machineType == NoMachine
    ensures c.cache == Readings(Unknown, NoCarriage, NoDirection, NoDirection, 0)
    ensures c.current == OpIdle && c.next == OpIdle
  {
    Controller(NoMachine, Readings(Unknown, NoCarriage, NoDirection, NoDirection, 0), OpIdle, OpIdle)
  }

  /** `setState` only records the state to change to. */
  function SetState(c: Controller, op: OpId): (c': Controller)
    ensures c'.next == op
    ensures c'.current == c.current && c'.machineType == c.machineType && c'.cache == c.cache
  {
    c.(next := op)
  }

  /** `getState` reports the state the controller is in, not the one requested. */
  function GetState(c: Controller): OpId { c.current }

  function SetMachineType(c: Controller, m: MachineType): (c': Controller)
    ensures c'.machineType == m
    ensures c'.current == c.current && c'.next == c.next && c'.cache == c.cache
  {
    c.(machineType := m)
  }

  function GetMachineType(c: Controller): MachineType { c.machineType }

  /** The cached getters. */
  function GetBeltShift(c: Controller): BeltShift { c.cache.beltShift }
  function GetCarriage(c: Controller): Carriage { c.cache.carriage }
  function GetDirection(c: Controller): Direction { c.cache.direction }
  function GetHallActive(c: Controller): Direction { c.cache.hallActive }
  function GetPosition(c: Controller): u8 { c.cache.position }

  /**
   `update`: cache `readings`, run the current state's `update` (which may
   itself call `setState`, given as `request`), then change state if one is
   pending. The result is the new controller and the calls made, in order.
   */
  function Update(c: Controller, readings: Readings, request: Option<OpId>): (r: (Controller, seq<Step>))
    ensures r.0.cache == readings && r.0.machineType == c.machineType
    ensures |r.1| >= 1 && r.1[0] == Updated(c.current)
    ensures r.0.current == r.0.next
    ensures var target := if request.Some? then request.value else c.next;
      && r.0.current == target
      && (target == c.current <==> r.1 == [Updated(c.current)])
      && (target != c.current ==> r.1 == [Updated(c.current), Ended(c.current), Began(target)])
  {
    var c1 := c.(cache := readings);
    var c2 := if request.Some? then SetState(c1, request.value) else c1;
    if c2.current == c2.next then (c2, [Updated(c.current)])
    else (c2.(current := c2.next), [Updated(c.current), Ended(c.current), Began(c2.next)])
  }

  /** A requested state is invisible to `getState` until the next `update`, which enters it. */
  lemma SetStateIsDeferred(c: Controller, op: OpId, readings: Readings)
    ensures GetState(SetState(c, op)) == GetState(c)
    ensures GetState(Update(SetState(c, op), readings, None).0) == op
  {
  }

  /**
   After `setState(s)` with `s` different from the current state, the next
   `update` calls exactly the current state's `update` and `end`, then the
   new state's `begin`, in that order.
   */
  lemma TransitionOrder(c: Controller, op: OpId, readings: Readings)
    requires op != c.current
    ensures Update(SetState(c, op), readings, None).1 == [Updated(c.current), Ended(c.current), Began(op)]
  {
  }

  /** Once settled, repeated updates make no `end` or `begin` calls until another `setState`. */
  lemma UpdateSettles(c: Controller, r1: Readings, r2: Readings)
    ensures var c1 := Update(c, r1, None).0;
      Update(c1, r2, None).1 == [Updated(c1.current)] && Update(c1, r2, None).0.current == c1.current
  {
  }

  /** Setting and then reading the machine type gives back the type that was set. */
  lemma MachineTypeRoundTrip(c: Controller, m: MachineType, readings: Readings, request: Option<OpId>)
    ensures GetMachineType(SetMachineType(c, m)) == m
    ensures GetMachineType(Update(SetMachineType(c, m), readings, request).0) == m
  {
  }

  /** The getters return exactly the readings cached by the last `update`. */
  lemma GettersReturnCache(c: Controller, readings: Readings, request: Option<OpId>)
    ensures var c' := Update(c, readings, request).0;
      && GetBeltShift(c') == readings.beltShift && GetCarriage(c') == readings.carriage
      && GetDirection(c') == readings.direction && GetHallActive(c') == readings.hallActive
      && GetPosition(c') == readings.position
  {
  }
}

=== FILE: crc8.dfy ===
/**
 The Dallas/Maxim 1-Wire CRC-8 (polynomial x^8 + x^5 + x^4 + 1) that both
 `src/ayab` generations use to protect host messages: bits are taken
 least-significant first, the reflected constant is 0x8C and the register
 starts at 0 with no final inversion.
 */
module Crc8 {

  const Poly: bv8 := 0x8C

  /** One iteration of the inner loop: shift the register right, xor the constant when the low bits differed. */
  function BitStep(crc: bv8, extract: bv8): bv8 {
    var sum := (crc ^ extract) & 1;
    var shifted := crc >> 1;
    if sum != 0 then shifted ^ Poly else shifted
  }

  /** `n` iterations of the inner loop, the data byte shifting right alongside. */
  function Steps(crc: bv8, extract: bv8, n: nat): bv8
    decreases n
  {
    if n == 0 then crc else Steps(BitStep(crc, extract), extract >> 1, n - 1)
  }

  /** The register after one data byte: eight inner iterations. */
  function Update(crc: bv8, b: bv8): bv8 {
    Steps(crc, b, 8)
  }

  /** Reference definition: the CRC of a buffer is a left fold of `Update` from 0. */
  function Crc(s: seq<bv8>): bv8 {
    if |s| == 0 then 0 else Update(Crc(s[..|s| - 1]), s[|s| - 1])
  }

  /** Folding `Update` over a buffer from an arbitrary register value. */
  function Fold(crc: bv8, s: seq<bv8>): bv8
    decreases |s|
  {
    if |s| == 0 then crc else Fold(Update(crc, s[0]), s[1..])
  }

  /**
   The firmware's byte loop and bit loop (src/ayab/com.cpp:39-57 and the
   identical src/ayab/serial_encoding.cpp:75-93) compute the fold.
   */
  method ComputeCrc(buffer: seq<bv8>) returns (crc: bv8)
    ensures crc == Crc(buffer)
  {
    crc := 0;
    var i := 0;
    while i < |buffer|
      invariant 0 <= i <= |buffer|
      invariant crc == Crc(buffer[..i])
    {
      var extract := buffer[i];
      ghost var start := crc;
      var k := 8;
      while k > 0
        invariant 0 <= k <= 8
        invariant Steps(crc, extract, k) == Update(start, buffer[i])
      {
        var sum := (crc ^ extract) & 1;
        crc := crc >> 1;
        if sum != 0 {
          crc := crc ^ Poly;
        }
        extract := extract >> 1;
        k := k - 1;
      }
      assert buffer[..i + 1][..i] == buffer[..i];
      i := i + 1;
    }
    assert buffer[..|buffer|] == buffer;
  }

  /** The checksum of an empty buffer is 0. */
  lemma CrcEmpty()
    ensures Crc([]) == 0
  {
  }

  /** One byte of the example below, its eight bit steps spelled out. */
  lemma UpdateSteps(crc: bv8, b: bv8)
    ensures Update(crc, b) ==
      var c1 := BitStep(crc, b);
      var c2 := BitStep(c1, b >> 1);
      var c3 := BitStep(c2, b >> 2);
      var c4 := BitStep(c3, b >> 3);
      var c5 := BitStep(c4, b >> 4);
      var c6 := BitStep(c5, b >> 5);
      var c7 := BitStep(c6, b >> 6);
      BitStep(c7, b >> 7)
  {
    assert b >> 1 >> 1 == b >> 2 && b >> 2 >> 1 == b >> 3 && b >> 3 >> 1 == b >> 4;
    assert b >> 4 >> 1 == b >> 5 && b >> 5 >> 1 == b >> 6 && b >> 6 >> 1 == b >> 7;
  }

  /** The host-side example message [0x01, 0x00, 0x0A, 0x01] has checksum 0x36. */
  lemma CrcExample()
    ensures Crc([0x01, 0x00, 0x0A, 0x01]) == 0x36
  {
    var s0: seq<bv8> := [];
    var s1 := s0 + [0x01];
    var s2 := s1 + [0x00];
    var s3 := s2 + [0x0A];
    var s4 := s3 + [0x01];
    assert s1[..0] == s0 && s2[..1] == s1 && s3[..2] == s2 && s4[..3] == s3;
    UpdateSteps(0, 0x01);
    UpdateSteps(0x5E, 0x00);
    UpdateSteps(0xC4, 0x0A);
    UpdateSteps(0xD5, 0x01);
    assert Crc(s1) == 0x5E;
    assert Crc(s2) == 0xC4;
    assert Crc(s3) == 0xD5;
    assert Crc(s4) == 0x36;
    assert s4 == [0x01, 0x00, 0x0A, 0x01];
  }

  /** The checksum of a concatenation continues the fold from the checksum of the prefix. */
  lemma {:induction false} CrcAppend(a: seq<bv8>, b: seq<bv8>)
    ensures Crc(a + b) == Fold(Crc(a), b)
    decreases |b|
  {
    if |b| == 0 {
      assert a + b == a;
    } else {
      var a' := a + [b[0]];
      assert (a + [b[0]])[..|a|] == a;
      assert Crc(a') == Update(Crc(a), b[0]);
      assert a' + b[1..] == a + b;
      CrcAppend(a', b[1..]);
    }
  }

  /** Feeding a register value to itself clears it bit by bit. */
  lemma {:induction false} StepsSelf(x: bv8, n: nat)
    requires n <= 8
    ensures Steps(x, x, n) == x >> n
    decreases n
  {
    if n > 0 {
      assert BitStep(x, x) == x >> 1;
      StepsSelf(x >> 1, n - 1);
      assert (x >> 1) >> (n - 1) == x >> n;
    }
  }

  /** Appending its own checksum to a buffer gives a buffer whose checksum is 0. */
  lemma CrcResidue(s: seq<bv8>)
    ensures Crc(s + [Crc(s)]) == 0
  {
    var t := s + [Crc(s)];
    assert t[..|t| - 1] == s;
    StepsSelf(Crc(s), 8);
  }
}

=== FILE: encoders.dfy ===
/**
 The position encoder of `src/ayab` (`src/ayab/encoders.cpp`): an
 interrupt on every change of encoder line A, with the direction decided on
 rising edges, the position counted in a `uint8_t` and clamped to the
 needle bed, and the hall sensors resetting it and classifying the
 carriage. The end positions and filter thresholds come from a settings
 header that is not part of this model and are the parameter `Config`;
 the pin and analog readings are the parameter `Pins`.
 */
module Encoders {
  import opened Bytes
  import opened AyabTypes

  datatype Config = Config(endLeft: u8, endRight: u8, endOffset: u8,
                           filterLMin: u16, filterLMax: u16, filterRMin: u16, filterRMax: u16)

  /** Encoder lines A, B and C (true = high) and the two hall sensor readings. */
  datatype Pins = Pins(a: bool, b: bool, c: bool, hallLeft: u16, hallRight: u16)

  datatype Encoders = Encoders(direction: Direction, hallActive: Direction, beltShift: BeltShift,
                               carriage: Carriage, position: u8, oldState: bool)

  /** The position the left sensor resets to. */
  function LeftReset(cfg: Config): u8 { ToU8(cfg.endLeft + cfg.endOffset) }

  /** The position the right sensor resets to. */
  function RightReset(cfg: Config): u8 { ToU8(cfg.endRight - cfg.endOffset) }

  predicate LeftSensed(cfg: Config, p: Pins) { p.hallLeft < cfg.filterLMin || p.hallLeft > cfg.filterLMax }
  predicate RightSensed(cfg: Config, p: Pins) { p.hallRight < cfg.filterRMin || p.hallRight > cfg.filterRMax }

  /**
   `encA_rising`: direction from line B; one step right while short of the
   right end; in front of the left sensor, classify the carriage, take the
   belt shift from line C and reset the position.
   */
  function Rising(cfg: Config, e: Encoders, p: Pins): (r: Encoders)
    ensures r.direction == (if p.b then Right else Left)
    ensures !LeftSensed(cfg, p) ==>
      && r.hallActive == e.hallActive && r.carriage == e.carriage && r.beltShift == e.beltShift
      && r.position == (if p.b && e.position < cfg.endRight then e.position + 1 else e.position)
    ensures LeftSensed(cfg, p) ==>
      && r.hallActive == Left && r.position == LeftReset(cfg)
      && r.beltShift == (if p.c then Regular else Shifted)
      && r.carriage == (if p.hallLeft >= cfg.filterLMin then Knit else if e.carriage == Knit then Garter else Lace)
    ensures r.oldState == e.oldState
  {
    var dir := if p.b then Right else Left;
    var pos := if dir == Right && e.position < cfg.endRight then e.position + 1 else e.position;
    if LeftSensed(cfg, p) then
      var carriage := if p.hallLeft < cfg.filterLMin then (if e.carriage == Knit then Garter else Lace) else Knit;
      e.(direction := dir, hallActive := Left, carriage := carriage,
         beltShift := if p.c then Regular else Shifted, position := LeftReset(cfg))
    else e.(direction := dir, position := pos)
  }

  /**
   `encA_falling`: one step left while past the left end; in front of the
   right sensor, take the belt shift from line C, reset the position, and
   detect K on a low reading.
   */
  function Falling(cfg: Config, e: Encoders, p: Pins): (r: Encoders)
    ensures r.direction == e.direction
    ensures !RightSensed(cfg, p) ==>
      && r.hallActive == e.hallActive && r.carriage == e.carriage && r.beltShift == e.beltShift
      && r.position == (if e.direction == Left && e.position > cfg.endLeft then e.position - 1 else e.position)
    ensures RightSensed(cfg, p) ==>
      && r.hallActive == Right && r.position == RightReset(cfg)
      && r.beltShift == (if p.c then Shifted else Regular)
      && r.carriage == (if p.hallRight < cfg.filterRMin then Knit else e.carriage)
    ensures r.oldState == e.oldState
  {
    var pos := if e.direction == Left && e.position > cfg.endLeft then e.position - 1 else e.position;
    if RightSensed(cfg, p) then
      e.(hallActive := Right, carriage := if p.hallRight < cfg.filterRMin then Knit else e.carriage,
         beltShift := if p.c then Shifted else Regular, position := RightReset(cfg))
    else e.(position := pos)
  }

  /** `encA_interrupt`: clear the hall flag, then run the handler for the edge line A made, if any. */
  function Interrupt(cfg: Config, e: Encoders, p: Pins): (r: Encoders)
    ensures r.oldState == p.a
    ensures !e.oldState && p.a ==> r == Rising(cfg, e.(hallActive := NoDirection), p).(oldState := p.a)
    ensures e.oldState && !p.a ==> r == Falling(cfg, e.(hallActive := NoDirection), p).(oldState := p.a)
    ensures e.oldState == p.a ==> r == e.(hallActive := NoDirection)
  {
    var e0 := e.(hallActive := NoDirection);
    var e1 := if !e.oldState && p.a then Rising(cfg, e0, p)
              else if e.oldState && !p.a then Falling(cfg, e0, p)
              else e0;
    e1.(oldState := p.a)
  }

  /** `getHallValue`: the analog reading on the named side, 0 for no side. */
  function GetHallValue(side: Direction, p: Pins): (r: u16)
    ensures side == Left ==> r == p.hallLeft
    ensures side == Right ==> r == p.hallRight
    ensures side == NoDirection ==> r == 0
  {
    match side
    case Left => p.hallLeft
    case Right => p.hallRight
    case NoDirection => 0
  }

  /** The readings the state machines cache from the encoder getters. */
  function ReadingsOf(e: Encoders): (rd: Readings)
    ensures rd.position == e.position && rd.direction == e.direction && rd.hallActive == e.hallActive
    ensures rd.carriage == e.carriage && rd.beltShift == e.beltShift
  {
    Readings(e.beltShift, e.carriage, e.direction, e.hallActive, e.position)
  }

  /** The needle bed, with both sensor reset positions inside it. */
  predicate Bounded(cfg: Config, e: Encoders) {
    cfg.endLeft <= e.position <= cfg.endRight
  }

  predicate ResetsInside(cfg: Config) {
    cfg.endLeft <= LeftReset(cfg) <= cfg.endRight && cfg.endLeft <= RightReset(cfg) <= cfg.endRight
  }

  /** Every interrupt keeps the position on the needle bed. */
  lemma InterruptStaysOnBed(cfg: Config, e: Encoders, p: Pins)
    requires ResetsInside(cfg) && Bounded(cfg, e)
    ensures Bounded(cfg, Interrupt(cfg, e, p))
  {
  }

  /** A level that did not change runs neither handler: only the hall flag is cleared. */
  lemma NoEdgeNoMove(cfg: Config, e: Encoders, p: Pins)
    requires e.oldState == p.a
    ensures Interrupt(cfg, e, p).position == e.position && Interrupt(cfg, e, p).hallActive == NoDirection
  {
  }

  /** Two low left readings in a row turn a K carriage into G, and any third into L. */
  lemma LowLeftReadingsAlternate(cfg: Config, e: Encoders, p: Pins)
    requires p.hallLeft < cfg.filterLMin && e.carriage == Knit
    ensures Rising(cfg, e, p).carriage == Garter
    ensures Rising(cfg, Rising(cfg, e, p), p).carriage == Lace
  {
  }
}

=== FILE: fsm.dfy ===
/**
 The state-machine driver of the older `src/ayab` layer (`src/ayab/fsm.cpp`).
 Its `.cpp` drives state objects exactly like the controller of the
 Op-state design; it is modelled on its own and then shown to behave the
 same as `Controller`.
 */
module Fsm {
  import opened Bytes
  import opened AyabTypes
  import Controller

  datatype Fsm = Fsm(machineType: MachineType, cache: Readings, current: OpId, next: OpId)

  /** A call into a state object, in the order `update` makes them. */
  datatype Call = CallUpdate(op: OpId) | CallEnd(op: OpId) | CallBegin(op: OpId)

  function Init(): (f: Fsm)
    ensures f.machineType == NoMachine && f.current == OpIdle && f.next == OpIdle
    ensures f.cache == Readings(Unknown, NoCarriage, NoDirection, NoDirection, 0)
  {
    Fsm(NoMachine, Readings(Unknown, NoCarriage, NoDirection, NoDirection, 0), OpIdle, OpIdle)
  }

  function SetState(f: Fsm, op: OpId): (f': Fsm)
    ensures f'.next == op && f'.current == f.current
    ensures f'.machineType == f.machineType && f'.cache == f.cache
  {
    f.(next := op)
  }

  function GetState(f: Fsm): OpId { f.current }

  function SetMachineType(f: Fsm, m: MachineType): (f': Fsm)
    ensures f'.machineType == m && f'.current == f.current && f'.next == f.next && f'.cache == f.cache
  {
    f.(machineType := m)
  }

  function GetMachineType(f: Fsm): MachineType { f.machineType }

  /** `update`: cache, run the current state, then switch if a switch is pending. */
  function Update(f: Fsm, readings: Readings, request: Option<OpId>): (r: (Fsm, seq<Call>))
    ensures r.0.cache == readings && r.0.machineType == f.machineType && r.0.current == r.0.next
    ensures |r.1| >= 1 && r.1[0] == CallUpdate(f.current)
    ensures var target := if request.Some? then request.value else f.next;
      && r.0.current == target
      && (target == f.current <==> |r.1| == 1)
      && (target != f.current ==> r.1 == [CallUpdate(f.current), CallEnd(f.current), CallBegin(target)])
  {
    var f1 := f.(cache := readings);
    var f2 := if request.Some? then SetState(f1, request.value) else f1;
    if f2.current == f2.next then (f2, [CallUpdate(f.current)])
    else (f2.(current := f2.next), [CallUpdate(f.current), CallEnd(f.current), CallBegin(f2.next)])
  }

  /** The controller state that corresponds to a driver state. */
  function AsController(f: Fsm): (c: Controller.Controller)
    ensures c.machineType == f.machineType && c.cache == f.cache && c.current == f.current && c.next == f.next
  {
    Controller.Controller(f.machineType, f.cache, f.current, f.next)
  }

  function AsStep(call: Call): (s: Controller.Step)
    ensures s.op == call.op
  {
    match call
    case CallUpdate(op) => Controller.Updated(op)
    case CallEnd(op) => Controller.Ended(op)
    case CallBegin(op) => Controller.Began(op)
  }

  /**
   The two drivers are interchangeable: from corresponding states, `init`,
   `setState` and `update` give corresponding states and the same sequence
   of calls into the state objects.
   */
  lemma SameAsController(f: Fsm, op: OpId, readings: Readings, request: Option<OpId>)
    ensures AsController(Init()) == Controller.Init()
    ensures AsController(SetState(f, op)) == Controller.SetState(AsController(f), op)
    ensures var r := Update(f, readings, request);
      var q := Controller.Update(AsController(f), readings, request);
      && AsController(r.0) == q.0
      && |r.1| == |q.1|
      && forall i :: 0 <= i < |r.1| ==> AsStep(r.1[i]) == q.1[i]
  {
  }

  /** A state requested with `setState` is entered by the next `update` and not before. */
  lemma SetStateIsDeferred(f: Fsm, op: OpId, readings: Readings)
    ensures GetState(SetState(f, op)) == GetState(f)
    ensures GetState(Update(SetState(f, op), readings, None).0) == op
  {
  }

  lemma MachineTypeRoundTrip(f: Fsm, m: MachineType)
    ensures GetMachineType(SetMachineType(f, m)) == m
  {
  }
}

=== FILE: knitter.dfy ===
/**
 The knitting engine of the older `src/ayab` layer (`src/ayab/knitter.cpp`):
 its own four-state machine, the start and line handshake with the host,
 and the 16-solenoid pixel arithmetic with fixed start offsets.

 The function-local statics of `state_init`, `state_operate` and
 `state_test` (`_ready`, `_firstRun`, `_sOldPosition`, `_workedOnLine`)
 live as long as the program, so they are fields of `State` that nothing
 resets. `END_RIGHT` comes from a settings header that is not part of this
 model and is the parameter `endRight`; the encoder readings the interrupt
 copies in are the parameter `rd`.
 */
module Knitter {
  import opened Bytes
  import opened AyabTypes
  import SerialEncoding
  import Machine
  import OpKnit

  /** `OpState` of `src/ayab/knitter.h`. */
  datatype OpState = SInit | SReady | SOperate | STest

  const NumNeedles: u8 := 200
  const EndOfLineOffsetL: u8 := 12
  const EndOfLineOffsetR: u8 := 12

  datatype State = State(
    opState: OpState,
    startNeedle: u8, stopNeedle: u8, continuous: bool, lineBuffer: Pointer,
    currentLineNumber: u8, lineRequested: bool, lastLineFlag: bool, lastLinesCountdown: u8,
    pixel: u8, solenoid: u8,
    initReady: bool, firstRun: bool, oldPosition: u8, workedOnLine: bool, testOldPosition: u8)

  /**
   What `indState` reads besides the cached readings: the two hall sensor
   values and the byte codes of the carriage and direction enumerations,
   whose numeric values are not part of this model.
   */
  datatype Sensors = Sensors(hallLeft: bv16, hallRight: bv16,
                             carriageCode: Carriage -> bv8, directionCode: Direction -> bv8)

  /**
   `startOperation`: accepted only for a needle window inside the bed and
   only in the ready state; it then enters operation with line 255 (so the
   first request is for line 0) and nothing pending. The pattern is kept as
   the pointer it is given, not as a copy of the buffer.
   */
  function StartOperation(k: State, start: u8, stop: u8, continuous: bool, line: Pointer): (r: (bool, State, seq<Event>))
    ensures r.0 <==> stop < NumNeedles && start < stop && k.opState == SReady
    ensures !r.0 ==> r.1 == k && r.2 == []
    ensures r.0 ==>
      && r.1.opState == SOperate && r.1.startNeedle == start && r.1.stopNeedle == stop
      && r.1.continuous == continuous && r.1.lineBuffer == line
      && r.1.currentLineNumber == 255 && !r.1.lineRequested && !r.1.lastLineFlag && r.1.lastLinesCountdown == 2
      && r.2 == [Beep(BeepReady)]
    ensures r.1.firstRun == k.firstRun && r.1.oldPosition == k.oldPosition && r.1.initReady == k.initReady
  {
    if stop < NumNeedles && start < stop && k.opState == SReady then
      (true,
       k.(opState := SOperate, startNeedle := start, stopNeedle := stop, continuous := continuous,
          lineBuffer := line, currentLineNumber := 255, lineRequested := false, lastLineFlag := false,
          lastLinesCountdown := 2),
       [Beep(BeepReady)])
    else (false, k, [])
  }

  /** `startTest`: enters the test state from init or ready only. */
  function StartTest(k: State): (r: (bool, State))
    ensures r.0 <==> k.opState == SInit || k.opState == SReady
    ensures r.0 ==> r.1 == k.(opState := STest)
    ensures !r.0 ==> r.1 == k
  {
    if k.opState == SInit || k.opState == SReady then (true, k.(opState := STest)) else (false, k)
  }

  /** `reqLine`: send the request for line `n` and remember that one is pending. */
  function RequestLine(k: State, n: u8): (r: (State, seq<Event>))
    ensures r.0 == k.(lineRequested := true)
    ensures r.1 == [Send([SerialEncoding.ReqLine, Byte(n)])]
  {
    (k.(lineRequested := true), [Send([SerialEncoding.ReqLine, Byte(n)])])
  }

  /** `setNextLine`: the same accept-or-request-again handshake as the Op-state design. */
  function SetNextLine(k: State, n: u8): (r: (bool, State, seq<Event>))
    ensures r.0 <==> k.lineRequested && n == k.currentLineNumber
    ensures r.0 ==> r.1 == k.(lineRequested := false) && r.2 == [Beep(BeepFinishedLine)]
    ensures k.lineRequested && n != k.currentLineNumber ==> r.1 == k && r.2 == RequestLine(k, k.currentLineNumber).1
    ensures !k.lineRequested ==> r.1 == k && r.2 == []
  {
    if k.lineRequested then
      if n == k.currentLineNumber then (true, k.(lineRequested := false), [Beep(BeepFinishedLine)])
      else var q := RequestLine(k, k.currentLineNumber); (false, q.0, q.1)
    else (false, k, [])
  }

  function SetLastLine(k: State): (k': State)
    ensures k'.lastLineFlag && k' == k.(lastLineFlag := true)
  {
    k.(lastLineFlag := true)
  }

  /** `indState`: nine bytes, the hall values big-endian. */
  function IndStatePacket(rd: Readings, s: Sensors, initState: bool): (p: seq<bv8>)
    ensures |p| == 9 && p[0] == SerialEncoding.IndState && p[1] == SerialEncoding.Flag(initState)
    ensures p[6] == s.carriageCode(rd.carriage) && p[7] == Byte(rd.position) && p[8] == s.directionCode(rd.direction)
  {
    [SerialEncoding.IndState, SerialEncoding.Flag(initState),
     HighByte(s.hallLeft), LowByte(s.hallLeft), HighByte(s.hallRight), LowByte(s.hallRight),
     s.carriageCode(rd.carriage), Byte(rd.position), s.directionCode(rd.direction)]
  }

  /** The host gets both hall values back unchanged from their two bytes each. */
  lemma IndStateCarriesHallValues(rd: Readings, s: Sensors, initState: bool)
    ensures var p := IndStatePacket(rd, s, initState);
      Word(p[2], p[3]) == s.hallLeft && Word(p[4], p[5]) == s.hallRight
  {
    WordSplit(s.hallLeft);
    WordSplit(s.hallRight);
  }

  /**
   `state_init`: once the carriage has passed the left hall sensor moving
   right, the latch stays set, and from then on every call enters ready.
   */
  function StateInit(k: State, rd: Readings, s: Sensors): (r: (State, seq<Event>))
    ensures r.0.initReady <==> k.initReady || (rd.direction == Right && rd.hallActive == Left)
    ensures r.0.opState == (if r.0.initReady then SReady else SInit)
    ensures r.0.initReady ==> r.1 == [SetSolenoids(0xFFFF), Send(IndStatePacket(rd, s, true))]
    ensures !r.0.initReady ==> r.1 == []
    ensures r.0 == k.(initReady := r.0.initReady, opState := r.0.opState)
  {
    var ready := k.initReady || (rd.direction == Right && rd.hallActive == Left);
    if ready then (k.(initReady := true, opState := SReady), [SetSolenoids(0xFFFF), Send(IndStatePacket(rd, s, true))])
    else (k.(opState := SInit), [])
  }

  /** Once latched, the init state goes to ready whatever the readings are. */
  lemma InitLatchSticks(k: State, rd: Readings, rd': Readings, s: Sensors)
    requires StateInit(k, rd, s).0.initReady
    ensures StateInit(StateInit(k, rd, s).0, rd', s).0.opState == SReady
  {
  }

  /** `getStartOffset`: fixed offsets; K and L share one, G has its own, and every carriage but G uses the K/L value. */
  function GetStartOffset(carriage: Carriage, direction: Direction): (r: u8)
    ensures direction == NoDirection ==> r == 0
    ensures direction == Left ==> r == (if carriage == Garter then 8 else 40)
    ensures direction == Right ==> r == (if carriage == Garter then 32 else 16)
  {
    match direction
    case Left => if carriage == Garter then 8 else 40
    case Right => if carriage == Garter then 32 else 16
    case NoDirection => 0
  }

  /** The pixel and solenoid after `calculatePixelAndSolenoid`, and whether it succeeded. */
  datatype Placement = Placement(ok: bool, pixel: u8, solenoid: u8)

  /** The solenoid of a 16-solenoid bank; `previous` when the belt shift is unknown. */
  function SolenoidFor(direction: Direction, beltShift: BeltShift, position: u8, previous: u8): u8
    requires direction != NoDirection
  {
    if direction == Right then
      if beltShift == Regular then ToU8(position % 16)
      else if beltShift == Shifted then ToU8(CRem(position - 8, 16))
      else previous
    else
      if beltShift == Regular then ToU8((position + 8) % 16)
      else if beltShift == Shifted then ToU8(position % 16)
      else previous
  }

  /** `calculatePixelAndSolenoid` on the cached readings, with each direction's own range guard. */
  function CalculatePixelAndSolenoid(endRight: u8, rd: Readings, pixel: u8, solenoid: u8): (p: Placement)
    ensures rd.direction == NoDirection ==> !p.ok
    ensures rd.direction == Right ==> (p.ok <==> rd.position >= GetStartOffset(rd.carriage, Left))
    ensures rd.direction == Left ==> (p.ok <==> rd.position <= endRight - GetStartOffset(rd.carriage, Right))
    ensures p.ok && rd.direction == Right ==>
      p.pixel == ToU8(rd.position - GetStartOffset(rd.carriage, Left) + (if rd.carriage == Lace then 8 else 0))
    ensures p.ok && rd.direction == Left ==>
      p.pixel == ToU8(rd.position - GetStartOffset(rd.carriage, Right) - (if rd.carriage == Lace then 16 else 0))
    ensures p.ok ==> p.solenoid == SolenoidFor(rd.direction, rd.beltShift, rd.position, solenoid)
    ensures !p.ok ==> p.pixel == pixel && p.solenoid == solenoid
  {
    match rd.direction
    case NoDirection => Placement(false, pixel, solenoid)
    case Right =>
      var offset := GetStartOffset(rd.carriage, Left);
      if rd.position >= offset then
        var px := ToU8(rd.position - offset);
        var px' := if rd.carriage == Lace then ToU8Add(rd.position - offset, 8); ToU8(px + 8) else px;
        Placement(true, px', SolenoidFor(Right, rd.beltShift, rd.position, solenoid))
      else Placement(false, pixel, solenoid)
    case Left =>
      var offset := GetStartOffset(rd.carriage, Right);
      if rd.position <= endRight - offset then
        var px := ToU8(rd.position - offset);
        var px' := if rd.carriage == Lace then ToU8Add(rd.position - offset, -16); ToU8(px - 16) else px;
        Placement(true, px', SolenoidFor(Left, rd.beltShift, rd.position, solenoid))
      else Placement(false, pixel, solenoid)
  }

  /** With a known belt shift, the chosen solenoid is one of the sixteen. */
  lemma SolenoidInBank(endRight: u8, rd: Readings, pixel: u8, solenoid: u8)
    requires rd.beltShift != Unknown
    ensures var p := CalculatePixelAndSolenoid(endRight, rd, pixel, solenoid); p.ok ==> p.solenoid < 16
  {
  }

  /** Moving right with a known belt, the regular and shifted solenoids are half a bank apart. */
  lemma BeltShiftIsHalfBank(endRight: u8, rd: Readings, pixel: u8, solenoid: u8)
    requires rd.direction == Right && rd.position >= GetStartOffset(rd.carriage, Left)
    ensures var reg := CalculatePixelAndSolenoid(endRight, rd.(beltShift := Regular), pixel, solenoid).solenoid;
      var sh := CalculatePixelAndSolenoid(endRight, rd.(beltShift := Shifted), pixel, solenoid).solenoid;
      (sh + 8) % 16 == reg
  {
    var pos := rd.position as int;
    assert pos >= 8;
    ToU8Small(pos % 16);
    ToU8Small((pos - 8) % 16);
    assert CRem(pos - 8, 16) == (pos - 8) % 16;
  }

  /**
   The pattern bit for a pixel: bit `pixel % 8` of byte `pixel / 8` of the
   buffer the pointer refers to, as it is now, or `stray` past the end of
   the buffer or through a null pointer.
   */
  function PixelValue(line: Pointer, lineBuffer: seq<bv8>, pixel: u8, stray: bool): bool {
    var i := pixel / 8;
    if line == HostLineBuffer && i < |lineBuffer| then BitRead(lineBuffer[i], pixel % 8) else stray
  }

  /** Inside the needle window widened by the end-of-line offsets (compared as `int`). */
  predicate InWindow(k: State, pixel: u8) {
    k.startNeedle - EndOfLineOffsetL <= pixel <= k.stopNeedle + EndOfLineOffsetR
  }

  /** Leaving the window after working on a line: request the next one, or finish on the last. */
  function FinishLine(k: State): (r: (State, seq<Event>))
    requires k.workedOnLine
    ensures !r.0.workedOnLine
    ensures !k.lineRequested && !k.lastLineFlag ==>
      r == RequestLine(k.(workedOnLine := false, currentLineNumber := ToU8(k.currentLineNumber + 1)), ToU8(k.currentLineNumber + 1))
    ensures k.lastLineFlag ==>
      r == (k.(workedOnLine := false, opState := SReady), [Beep(BeepEndWork), SetSolenoids(0xFFFF), Beep(BeepFinishedLine)])
    ensures k.lineRequested && !k.lastLineFlag ==> r == (k.(workedOnLine := false), [])
  {
    var k1 := k.(workedOnLine := false);
    if !k.lineRequested && !k.lastLineFlag then
      var n := ToU8(k.currentLineNumber + 1);
      RequestLine(k1.(currentLineNumber := n), n)
    else if k.lastLineFlag then (k1.(opState := SReady), [Beep(BeepEndWork), SetSolenoids(0xFFFF), Beep(BeepFinishedLine)])
    else (k1, [])
  }

  /** The first call after power-up waits, beeps and requests the line after the current one. */
  function FirstRun(k: State): (r: (State, seq<Event>))
    ensures !r.0.firstRun
    ensures k.firstRun ==>
      r == (k.(firstRun := false, currentLineNumber := ToU8(k.currentLineNumber + 1), lineRequested := true),
            [Action(StartDelay), Beep(BeepFinishedLine)] + RequestLine(k, ToU8(k.currentLineNumber + 1)).1)
    ensures !k.firstRun ==> r == (k, [])
  {
    if k.firstRun then
      var n := ToU8(k.currentLineNumber + 1);
      var q := RequestLine(k.(firstRun := false, currentLineNumber := n), n);
      (q.0, [Action(StartDelay), Beep(BeepFinishedLine)] + q.1)
    else (k, [])
  }

  /**
   `state_operate`: green LED on; on a new position, report it if asked,
   place the pixel, and either write the pattern bit (inside the window) or
   release the solenoid and possibly finish the line (outside it). The
   pattern bit comes from `lineBuffer`, the serial layer's line buffer as it
   was last written.
   */
  function StateOperate(endRight: u8, rd: Readings, s: Sensors, k: State, lineBuffer: seq<bv8>, stray: bool): (r: (State, seq<Event>))
    ensures |r.1| >= 1 && r.1[0] == Led(LedA, true)
    ensures !r.0.firstRun
    ensures r.0.opState == k.opState || (r.0.opState == SReady && k.lastLineFlag)
    ensures rd.position == FirstRun(k).0.oldPosition ==> r == (FirstRun(k).0, [Led(LedA, true)] + FirstRun(k).1)
    ensures r.0.startNeedle == k.startNeedle && r.0.stopNeedle == k.stopNeedle && r.0.lineBuffer == k.lineBuffer
    ensures r.0.lastLineFlag == k.lastLineFlag && r.0.initReady == k.initReady
  {
    var f := FirstRun(k);
    var k0 := f.0;
    var ev0 := [Led(LedA, true)] + f.1;
    if rd.position == k0.oldPosition then (k0, ev0)
    else
      var k1 := k0.(oldPosition := rd.position);
      var ev1 := ev0 + (if k1.continuous then [Send(IndStatePacket(rd, s, true))] else []);
      var p := CalculatePixelAndSolenoid(endRight, rd, k1.pixel, k1.solenoid);
      if !p.ok then (k1, ev1)
      else
        var k2 := k1.(pixel := p.pixel, solenoid := p.solenoid);
        if InWindow(k2, p.pixel) then
          var k3 := k2.(workedOnLine := k2.workedOnLine || (k2.startNeedle <= p.pixel <= k2.stopNeedle));
          (k3, ev1 + [SetSolenoid(p.solenoid, PixelValue(k3.lineBuffer, lineBuffer, p.pixel, stray))])
        else
          var ev2 := ev1 + [SetSolenoid(p.solenoid, true)];
          if k2.workedOnLine then
            var e := FinishLine(k2);
            (e.0, ev2 + e.1)
          else (k2, ev2)
  }

  /**
   The knitter holds a pointer to the serial layer's line buffer, not a
   copy: a step that places a pixel inside the window drives its solenoid
   with that pixel's bit of the buffer as it is at this step.
   */
  lemma KnitsLiveBuffer(endRight: u8, rd: Readings, s: Sensors, k: State, lineBuffer: seq<bv8>, stray: bool)
    requires !k.firstRun && rd.position != k.oldPosition && k.lineBuffer == HostLineBuffer
    requires var p := CalculatePixelAndSolenoid(endRight, rd, k.pixel, k.solenoid);
      p.ok && InWindow(k, p.pixel) && p.pixel / 8 < |lineBuffer|
    ensures var p := CalculatePixelAndSolenoid(endRight, rd, k.pixel, k.solenoid);
      var r := StateOperate(endRight, rd, s, k, lineBuffer, stray);
      var i := if k.continuous then 2 else 1;
      i < |r.1| && r.1[i] == SetSolenoid(p.solenoid, BitRead(lineBuffer[p.pixel / 8], p.pixel % 8))
  {
  }

  /**
   A step that places a pixel between the start and stop needles marks the
   line as worked on; nothing else about the line handshake changes.
   */
  lemma PlacedInWindowMarksWorked(endRight: u8, rd: Readings, s: Sensors, k: State, lineBuffer: seq<bv8>, stray: bool)
    requires !k.firstRun && rd.position != k.oldPosition
    requires var p := CalculatePixelAndSolenoid(endRight, rd, k.pixel, k.solenoid); p.ok && k.startNeedle <= p.pixel <= k.stopNeedle
    ensures var r := StateOperate(endRight, rd, s, k, lineBuffer, stray);
      && r.0.workedOnLine && r.0.lineRequested == k.lineRequested && r.0.currentLineNumber == k.currentLineNumber
      && r.0.opState == k.opState
  {
  }

  /**
   A step that places no pixel, or places one inside the window but outside
   the start and stop needles, leaves the worked flag as it was.
   */
  lemma PlacedOutsideKeepsFlag(endRight: u8, rd: Readings, s: Sensors, k: State, lineBuffer: seq<bv8>, stray: bool)
    requires !k.firstRun && rd.position != k.oldPosition
    ensures var p := CalculatePixelAndSolenoid(endRight, rd, k.pixel, k.solenoid);
      var r := StateOperate(endRight, rd, s, k, lineBuffer, stray);
      (!p.ok || (InWindow(k, p.pixel) && !(k.startNeedle <= p.pixel <= k.stopNeedle))) ==>
        r.0.workedOnLine == k.workedOnLine
  {
  }

  /**
   The line handshake is reached from knitting: a step that places a pixel
   of the line, followed by a step outside the window, requests the next
   line when none is pending and this is not the last line.
   */
  lemma KnittedLineIsFollowedByRequest(endRight: u8, rd1: Readings, rd2: Readings, s: Sensors, k: State,
                                       lineBuffer: seq<bv8>, stray: bool)
    requires k.opState == SOperate && !k.firstRun && !k.lineRequested && !k.lastLineFlag
    requires rd1.position != k.oldPosition
    requires var p := CalculatePixelAndSolenoid(endRight, rd1, k.pixel, k.solenoid); p.ok && k.startNeedle <= p.pixel <= k.stopNeedle
    requires var k1 := StateOperate(endRight, rd1, s, k, lineBuffer, stray).0;
      var p := CalculatePixelAndSolenoid(endRight, rd2, k1.pixel, k1.solenoid);
      rd2.position != k1.oldPosition && p.ok && !InWindow(k, p.pixel)
    ensures var k1 := Fsm(endRight, rd1, s, k, lineBuffer, stray).0;
      var r := Fsm(endRight, rd2, s, k1, lineBuffer, stray);
      && r.0.lineRequested && r.0.currentLineNumber == ToU8(k.currentLineNumber + 1)
      && r.1[|r.1| - 1] == Send([SerialEncoding.ReqLine, Byte(ToU8(k.currentLineNumber + 1))])
  {
    var k1 := StateOperate(endRight, rd1, s, k, lineBuffer, stray).0;
    PlacedInWindowMarksWorked(endRight, rd1, s, k, lineBuffer, stray);
    LeavingLineRequestsNext(endRight, rd2, s, k1, lineBuffer, stray);
  }

  /** `state_test`: on a new position, place the pixel and report the state. */
  function StateTest(endRight: u8, rd: Readings, s: Sensors, k: State): (r: (State, seq<Event>))
    ensures rd.position == k.testOldPosition ==> r == (k, [])
    ensures rd.position != k.testOldPosition ==>
      var p := CalculatePixelAndSolenoid(endRight, rd, k.pixel, k.solenoid);
      && r.0 == k.(testOldPosition := rd.position, pixel := p.pixel, solenoid := p.solenoid)
      && r.1 == [Send(IndStatePacket(rd, s, false))]
  {
    if rd.position == k.testOldPosition then (k, [])
    else
      var p := CalculatePixelAndSolenoid(endRight, rd, k.pixel, k.solenoid);
      (k.(testOldPosition := rd.position, pixel := p.pixel, solenoid := p.solenoid), [Send(IndStatePacket(rd, s, false))])
  }

  /** `fsm`: one step of the state machine on the readings the interrupt cached. */
  function Fsm(endRight: u8, rd: Readings, s: Sensors, k: State, lineBuffer: seq<bv8>, stray: bool): (r: (State, seq<Event>))
    ensures k.opState == SReady ==> r == (k, [Led(LedA, false)])
    ensures k.opState == SInit ==> r == StateInit(k, rd, s)
    ensures k.opState == SOperate ==> r == StateOperate(endRight, rd, s, k, lineBuffer, stray)
    ensures k.opState == STest ==> r == StateTest(endRight, rd, s, k)
  {
    match k.opState
    case SInit => StateInit(k, rd, s)
    case SReady => (k, [Led(LedA, false)])
    case SOperate => StateOperate(endRight, rd, s, k, lineBuffer, stray)
    case STest => StateTest(endRight, rd, s, k)
  }

  /** Only operation can leave operation, and only on the last line. */
  lemma OperateLeavesOnlyOnLastLine(endRight: u8, rd: Readings, s: Sensors, k: State, lineBuffer: seq<bv8>, stray: bool)
    requires k.opState == SOperate && !k.lastLineFlag
    ensures Fsm(endRight, rd, s, k, lineBuffer, stray).0.opState == SOperate
  {
  }

  /**
   A new position past a worked line with nothing pending and more to come
   requests exactly the next line number.
   */
  lemma LeavingLineRequestsNext(endRight: u8, rd: Readings, s: Sensors, k: State, lineBuffer: seq<bv8>, stray: bool)
    requires k.opState == SOperate && !k.firstRun && rd.position != k.oldPosition
    requires k.workedOnLine && !k.lineRequested && !k.lastLineFlag
    requires CalculatePixelAndSolenoid(endRight, rd, k.pixel, k.solenoid).ok
    requires !InWindow(k, CalculatePixelAndSolenoid(endRight, rd, k.pixel, k.solenoid).pixel)
    ensures var r := Fsm(endRight, rd, s, k, lineBuffer, stray);
      && r.0.lineRequested && r.0.currentLineNumber == ToU8(k.currentLineNumber + 1)
      && r.1[|r.1| - 1] == Send([SerialEncoding.ReqLine, Byte(ToU8(k.currentLineNumber + 1))])
  {
  }

  /** After a successful start on a fresh knitter, the first operation step requests line 0. */
  lemma FreshStartRequestsLineZero(endRight: u8, rd: Readings, s: Sensors, k: State, start: u8, stop: u8,
                                   continuous: bool, line: Pointer, lineBuffer: seq<bv8>, stray: bool)
    requires k.firstRun
    requires StartOperation(k, start, stop, continuous, line).0
    ensures var k1 := StartOperation(k, start, stop, continuous, line).1;
      Send([SerialEncoding.ReqLine, 0]) in Fsm(endRight, rd, s, k1, lineBuffer, stray).1
  {
    var k1 := StartOperation(k, start, stop, continuous, line).1;
    var f := FirstRun(k1);
    assert f.1[2] == Send([SerialEncoding.ReqLine, 0]);
    var r := Fsm(endRight, rd, s, k1, lineBuffer, stray);
    assert r.1[..1 + |f.1|] == [Led(LedA, true)] + f.1;
    assert r.1[3] == Send([SerialEncoding.ReqLine, 0]);
  }

  /** For a detected carriage the fixed offsets are the table of the Op-state design's machine. */
  lemma SameOffsetsAsMachineTable(carriage: Carriage, direction: Direction)
    requires carriage != NoCarriage
    ensures GetStartOffset(carriage, direction) == Machine.StartOffsetLUT(direction, carriage)
  {
  }

  /** Without a detected carriage this layer still uses the K/L offsets, where the table gives 0. */
  lemma NoCarriageOffsetsDiffer()
    ensures GetStartOffset(NoCarriage, Left) == 40 && Machine.StartOffsetLUT(Left, NoCarriage) == 0
    ensures GetStartOffset(NoCarriage, Right) == 16 && Machine.StartOffsetLUT(Right, NoCarriage) == 0
  {
  }

  /**
   On a KH910 with the same bank size, end position and offsets, this
   layer places every pixel and solenoid exactly as the Op-state knitting
   state does.
   */
  lemma SamePlacementAsOpKnit(g: Geometry, endRight: u8, rd: Readings, pixel: u8, solenoid: u8)
    requires ValidGeometry(g) && g.solenoidsNum(Kh910) == 16 && g.halfSolenoidsNum(Kh910) == 8
    requires g.endRight(Kh910) == endRight && rd.carriage != NoCarriage
    requires g.startOffset(Kh910, Left, rd.carriage) == GetStartOffset(rd.carriage, Left)
    requires g.startOffset(Kh910, Right, rd.carriage) == GetStartOffset(rd.carriage, Right)
    ensures var a := OpKnit.CalculatePixelAndSolenoid(g, Kh910, rd, pixel, solenoid);
      var b := CalculatePixelAndSolenoid(endRight, rd, pixel, solenoid);
      a.ok == b.ok && a.pixel == b.pixel && a.solenoid == b.solenoid
  {
  }
}

=== FILE: lib_beeper.dfy ===
/**
 The non-blocking beeper of the `lib/components` rewrite
 (`lib/components/beeper/beeper.cpp`). `beep(n)` arms a sequence of tones
 that `schedule` plays out, 100 ms on and 100 ms off, against the
 millisecond clock, which is a parameter here. The tone output is recorded
 as the PWM values written to the pin.
 */
module LibBeeper {
  import opened Bytes

  const BeepTimeOn: u32 := 100
  const BeepTimeOff: u32 := 100
  const BeepValueOn: u8 := 32
  const BeepValueOff: u8 := 255

  datatype Phase = Idle | Off | On | Wait

  /** `number` counts the tones still to end; `nextTime` is an unsigned 32-bit deadline. */
  datatype Beeper = Beeper(state: Phase, nextState: Phase, number: u8, enabled: bool, nextTime: u32)

  /** Values written to the beeper pin, in order. */
  datatype Output = AnalogWrite(value: u8)

  /**
   The constructor: idle, enabled, pin silenced. The count, next state and
   deadline are left unset by the source and are always written before
   they are read, so the model starts them at zero and `Idle`.
   */
  function New(): (r: (Beeper, seq<Output>))
    ensures !Busy(r.0) && r.0.enabled && r.1 == [AnalogWrite(BeepValueOff)]
  {
    (Beeper(Idle, Idle, 0, true, 0), [AnalogWrite(BeepValueOff)])
  }

  predicate Busy(b: Beeper) {
    b.state != Idle
  }

  /** `config`: enable or disable future beeps; a sequence already playing is unaffected. */
  function Config(b: Beeper, enabled: bool): (r: Beeper)
    ensures r.enabled == enabled && r.(enabled := b.enabled) == b
  {
    b.(enabled := enabled)
  }

  /** `beep`: arm `number` tones, only when enabled and not already playing. */
  function Beep(b: Beeper, number: u8): (r: Beeper)
    ensures b.enabled && !Busy(b) ==> r == b.(number := number, state := On)
    ensures !(b.enabled && !Busy(b)) ==> r == b
    ensures b.enabled && !Busy(b) ==> Pending(r) == if number == 0 then 1 else number
  {
    if b.enabled && !Busy(b) then b.(number := number, state := On) else b
  }

  /** `schedule` at time `now` (the value `millis()` returns). */
  function Schedule(b: Beeper, now: u32): (r: (Beeper, seq<Output>))
    ensures b.state == Idle ==> r == (b, [])
    ensures b.state == On ==> r == (b.(state := Wait, nextState := Off, nextTime := ToU32(now + BeepTimeOn)), [AnalogWrite(BeepValueOn)])
    ensures b.state == Off ==>
      r == (b.(state := Wait, nextState := On, nextTime := ToU32(now + BeepTimeOff), number := ToU8(b.number - 1)), [AnalogWrite(BeepValueOff)])
    ensures b.state == Wait && now <= b.nextTime ==> r == (b, [])
    ensures b.state == Wait && now > b.nextTime ==>
      r == if b.number == 0 then (b.(state := Idle), [AnalogWrite(BeepValueOff)]) else (b.(state := b.nextState), [])
  {
    match b.state
    case On => (b.(state := Wait, nextState := Off, nextTime := ToU32(now + BeepTimeOn)), [AnalogWrite(BeepValueOn)])
    case Off =>
      (b.(state := Wait, nextState := On, nextTime := ToU32(now + BeepTimeOff), number := ToU8(b.number - 1)), [AnalogWrite(BeepValueOff)])
    case Wait =>
      if now > b.nextTime then
        if b.number == 0 then (b.(state := Idle), [AnalogWrite(BeepValueOff)]) else (b.(state := b.nextState), [])
      else (b, [])
    case Idle => (b, [])
  }

  /**
   The states `beep` and `schedule` can reach: a waiting beeper resumes in
   `On` or `Off`, and `Off` is entered only with a tone left to count, so
   the count never wraps below zero.
   */
  predicate Inv(b: Beeper) {
    && (b.state == Off ==> b.number >= 1)
    && (b.state == Wait ==> b.nextState in {On, Off})
  }

  /** How many more times the tone will be switched on. */
  function Pending(b: Beeper): nat {
    match b.state
    case Idle => 0
    case On => if b.number == 0 then 1 else b.number
    case Off => if b.number == 0 then 0 else b.number - 1
    case Wait =>
      if b.nextState == Off then (if b.number == 0 then 0 else b.number - 1)
      else if b.nextState == On then b.number
      else 0
  }

  function Ons(out: seq<Output>): nat {
    if AnalogWrite(BeepValueOn) in out then 1 else 0
  }

  lemma ScheduleKeepsInv(b: Beeper, now: u32)
    requires Inv(b)
    ensures Inv(Schedule(b, now).0)
  {
  }

  /**
   Each `schedule` step either switches the tone on once or leaves the
   count of tones to come unchanged: `beep(n)` sounds `n` tones (one for
   `n` = 0), however the clock advances.
   */
  lemma ScheduleCountsTones(b: Beeper, now: u32)
    requires Inv(b)
    ensures var r := Schedule(b, now); Pending(b) == Pending(r.0) + Ons(r.1)
  {
  }

  /** An idle beeper is silent: nothing to play and nothing written. */
  lemma IdleIsSilent(b: Beeper, now: u32)
    requires Inv(b) && !Busy(b)
    ensures Pending(b) == 0 && Schedule(b, now) == (b, [])
  {
  }

  /** `schedule` called once per clock reading in `times`, outputs concatenated. */
  function Run(b: Beeper, times: seq<u32>): (Beeper, seq<Output>)
    decreases |times|
  {
    if times == [] then (b, [])
    else
      var r := Schedule(b, times[0]);
      var rest := Run(r.0, times[1..]);
      (rest.0, r.1 + rest.1)
  }

  function CountOns(out: seq<Output>): nat
    decreases |out|
  {
    if out == [] then 0 else (if out[0] == AnalogWrite(BeepValueOn) then 1 else 0) + CountOns(out[1..])
  }

  lemma CountOnsAppend(a: seq<Output>, c: seq<Output>)
    ensures CountOns(a + c) == CountOns(a) + CountOns(c)
    decreases |a|
  {
    if a != [] {
      assert (a + c)[1..] == a[1..] + c;
      CountOnsAppend(a[1..], c);
    } else {
      assert a + c == c;
    }
  }

  /** Over any run of `schedule` calls, the tones switched on plus those still pending stay constant. */
  lemma {:induction false} RunCountsTones(b: Beeper, times: seq<u32>)
    requires Inv(b)
    ensures var r := Run(b, times); Pending(b) == Pending(r.0) + CountOns(r.1) && Inv(r.0)
    decreases |times|
  {
    if times != [] {
      var r := Schedule(b, times[0]);
      ScheduleKeepsInv(b, times[0]);
      ScheduleCountsTones(b, times[0]);
      RunCountsTones(r.0, times[1..]);
      var rest := Run(r.0, times[1..]);
      CountOnsAppend(r.1, rest.1);
      assert CountOns(r.1) == Ons(r.1);
    }
  }
}

=== FILE: lib_carriage.dfy ===
/**
 The carriage as the `lib/components` rewrite tracks it
 (`lib/components/carriage/carriage.cpp`): its type and needle position
 (set when it crosses a hall sensor), the needle to select ahead of it,
 and the overflow counter that decides when its travel past the work is
 far enough to turn around. Positions are `int16_t`.
 */
module LibCarriage {
  import opened Bytes
  import opened LibTypes
  import LibHallSensor

  datatype Carriage = Carriage(carriageType: CarriageType, position: i16, isWorking: bool,
                               enterSide: MachineSide, carriageOverflow: u8)

  /**
   The constructor and `reset`: no carriage, position 0, idle. The
   overflow counter is not touched (it is armed before it is read).
   */
  function Reset(c: Carriage): (r: Carriage)
    ensures !IsDefined(r) && r.position == 0 && !r.isWorking && r.enterSide == NoSide
    ensures r.carriageOverflow == c.carriageOverflow
  {
    c.(carriageType := NoCarriage, position := 0, isWorking := false, enterSide := NoSide)
  }

  predicate IsDefined(c: Carriage) {
    c.carriageType != NoCarriage
  }

  function SetPosition(c: Carriage, position: i16): (r: Carriage)
    ensures r.position == position && r.(position := c.position) == c
  {
    c.(position := position)
  }

  /** `getExtension`: needles of travel past the last selection before turning is safe. */
  function Extension(c: Carriage): (n: u8)
    ensures c.carriageType == Gartner ==> n == 18
    ensures c.carriageType == Knit270 ==> n == 8
    ensures c.carriageType !in {Gartner, Knit270} ==> n == 12
  {
    match c.carriageType
    case Gartner => 18
    case Lace => 12
    case Knit270 => 8
    case _ => 12
  }

  /** How far ahead of the carriage centre, in its travel direction, the needle to select lies. */
  function Lead(t: CarriageType): int {
    match t
    case Gartner => -8
    case Lace => 4
    case Knit270 => 6
    case _ => 16
  }

  /**
   `getSelectPosition`: the needle to select, on the side the carriage
   comes from. Left travel adds the lead and any other direction subtracts
   it; the result is stored in an `int16_t`.
   */
  function SelectPosition(c: Carriage, direction: Direction): (p: i16)
    ensures p == ToI16(if direction == Left then c.position + Lead(c.carriageType) else c.position - Lead(c.carriageType))
  {
    match c.carriageType
    case Gartner => if direction == Left then ToI16(c.position - 8) else ToI16(c.position + 8)
    case Lace => if direction == Left then ToI16(c.position + 4) else ToI16(c.position - 4)
    case Knit270 => if direction == Left then ToI16(c.position + 6) else ToI16(c.position - 6)
    case _ => if direction == Left then ToI16(c.position + 16) else ToI16(c.position - 16)
  }

  /** Away from the ends of the 16-bit range, the left and right selections sit symmetrically about the carriage. */
  lemma SelectSymmetric(c: Carriage)
    requires -0x8000 + 16 <= c.position < 0x8000 - 16
    ensures SelectPosition(c, Left) as int + SelectPosition(c, Right) as int == 2 * c.position
  {
  }

  /**
   `isCrossing`: the needles travelled since the sensor fired give the
   direction (Right when positive). Only when that is the requested
   direction, and the carriage is not a KH270 carriage, does the carriage
   take the detected type and a position measured from the sensor, moved
   12 needles toward the centre of a G carriage (6 for the KH270 one).
   */
  function IsCrossing(c: Carriage, sensor: LibHallSensor.HallSensor, cfg: LibHallSensor.Config,
                      requested: Direction): (r: (bool, Carriage))
    ensures var offset := ToI16(c.position - sensor.detectedPosition);
      var direction := if offset > 0 then Right else Left;
      r.0 <==> direction == requested && c.carriageType != Knit270
    ensures !r.0 ==> r.1 == c
    ensures r.0 ==> var offset := ToI16(c.position - sensor.detectedPosition);
      var base := ToI16(cfg.position + offset);
      var t := sensor.detectedCarriage;
      r.1 == Reset(c).(carriageType := t,
                       position := if t == Gartner then ToI16(if requested == Left then base + 12 else base - 12)
                                   else if t == Knit270 then ToI16(if requested == Left then base + 6 else base - 6)
                                   else base)
  {
    var offset := ToI16(c.position - sensor.detectedPosition);
    var direction := if offset > 0 then Right else Left;
    if direction == requested && c.carriageType != Knit270 then
      var c1 := Reset(c).(carriageType := sensor.detectedCarriage, position := ToI16(cfg.position + offset));
      var c2 := if c1.carriageType == Gartner then c1.(position := if direction == Left then ToI16(c1.position + 12) else ToI16(c1.position - 12))
                else if c1.carriageType == Knit270 then c1.(position := if direction == Left then ToI16(c1.position + 6) else ToI16(c1.position - 6))
                else c1;
      (true, c2)
    else (false, c)
  }

  /**
   `workFinished`: the line-end counter of `line.cpp` with the carriage's
   extension as the initial count; returns true exactly on the step where
   the counter reaches zero, which also makes the carriage idle.
   */
  function WorkFinished(c: Carriage, side: MachineSide, direction: Direction): (r: (bool, Carriage))
    ensures !c.isWorking ==> !r.0
    ensures !c.isWorking && side == NoSide ==>
      r.1 == c.(isWorking := true, carriageOverflow := Extension(c),
                enterSide := if c.enterSide != NoSide then c.enterSide else if direction == Right then LeftSide else RightSide)
    ensures !c.isWorking && side != NoSide ==> r.1 == c.(enterSide := side)
    ensures c.isWorking ==> r.1.carriageOverflow == Counter(c, side, direction)
    ensures c.isWorking ==> (r.0 <==> r.1.carriageOverflow == 0)
    ensures r.0 ==> !r.1.isWorking && r.1.enterSide == NoSide
    ensures c.isWorking && !r.0 ==> r.1 == c.(carriageOverflow := r.1.carriageOverflow)
    ensures r.1.carriageType == c.carriageType && r.1.position == c.position
  {
    if c.isWorking then
      var n := Counter(c, side, direction);
      if n == 0 then (true, c.(carriageOverflow := 0, isWorking := false, enterSide := NoSide))
      else (false, c.(carriageOverflow := n))
    else if side == NoSide then
      (false, c.(isWorking := true, carriageOverflow := Extension(c),
                 enterSide := if c.enterSide != NoSide then c.enterSide else if direction == Right then LeftSide else RightSide))
    else (false, c.(enterSide := side))
  }

  function Counter(c: Carriage, side: MachineSide, direction: Direction): u8 {
    if c.enterSide == LeftSide && side == RightSide then
      (if direction == Right then ToU8(c.carriageOverflow - 1) else ToU8(c.carriageOverflow + 1))
    else if c.enterSide == RightSide && side == LeftSide then
      (if direction == Left then ToU8(c.carriageOverflow - 1) else ToU8(c.carriageOverflow + 1))
    else c.carriageOverflow
  }

  /** `n` calls of `workFinished` with the same side and direction; true when any call reported the end. */
  function Repeat(c: Carriage, side: MachineSide, direction: Direction, n: nat): (bool, Carriage)
    decreases n
  {
    if n == 0 then (false, c)
    else
      var r := WorkFinished(c, side, direction);
      var rest := Repeat(r.1, side, direction, n - 1);
      (r.0 || rest.0, rest.1)
  }

  /**
   Entering the window from the left and then travelling right past its
   right edge, the work is reported finished after exactly the carriage's
   extension in needles, and not before.
   */
  lemma {:induction false} FinishedAfterExtension(c: Carriage, n: nat)
    requires c.isWorking && c.enterSide == LeftSide && c.carriageOverflow == n >= 1
    ensures Repeat(c, RightSide, Right, n).0
    ensures !Repeat(c, RightSide, Right, n - 1).0
    decreases n
  {
    var r := WorkFinished(c, RightSide, Right);
    if n > 1 {
      FinishedAfterExtension(r.1, n - 1);
    }
  }

  /** Arming from idle gives the extension as the count, so a G carriage needs 18 needles, the others fewer. */
  lemma ArmedWithExtension(c: Carriage, direction: Direction)
    requires !c.isWorking && c.carriageType == Gartner
    ensures var a := WorkFinished(c, NoSide, direction).1;
      a.isWorking && a.carriageOverflow == 18
  {
  }
}

=== FILE: lib_encoder.dfy ===
/**
 The encoder of the `lib/components` rewrite
 (`lib/components/encoder/encoder.cpp`): the interrupt counts in an
 `int16_t` and rings a doorbell; `schedule` publishes the count only when
 the doorbell rang. The atomic blocks are treated as single steps.
 */
module LibEncoder {
  import opened Bytes

  datatype Encoder = Encoder(position: i16, isrPosition: i16, doorbell: bool)

  /** The constructor: both positions 0, doorbell clear. */
  function New(): (e: Encoder)
    ensures e.position == 0 && e.isrPosition == 0 && !e.doorbell
  {
    Encoder(0, 0, false)
  }

  /** `interruptHandler`: with V2 high, count up when V1 is high and down when it is low. */
  function InterruptHandler(e: Encoder, v1: bool, v2: bool): (r: Encoder)
    ensures !v2 ==> r == e
    ensures v2 ==> r.doorbell && r.position == e.position
    ensures v2 ==> r.isrPosition == ToI16(e.isrPosition + (if v1 then 1 else -1))
  {
    if v2 then e.(doorbell := true, isrPosition := ToI16(e.isrPosition + (if v1 then 1 else -1)))
    else e
  }

  /** `setPosition`: both the published and the counting position. */
  function SetPosition(e: Encoder, position: i16): (r: Encoder)
    ensures r.position == position && r.isrPosition == position && r.doorbell == e.doorbell
  {
    e.(position := position, isrPosition := position)
  }

  /** `getPosition`: only the published value, never the running count. */
  function GetPosition(e: Encoder): (r: i16)
    ensures r == e.position
  {
    e.position
  }

  /** `schedule`: publish and clear the doorbell if it rang; otherwise nothing. */
  function Schedule(e: Encoder): (r: Encoder)
    ensures e.doorbell ==> r == Encoder(e.isrPosition, e.isrPosition, false)
    ensures !e.doorbell ==> r == e
  {
    if e.doorbell then e.(doorbell := false, position := e.isrPosition) else e
  }

  /** A rising and a falling edge with V2 high cancel, and the next schedule publishes the start. */
  lemma UpDownCancels(e: Encoder)
    ensures var r := InterruptHandler(InterruptHandler(e, true, true), false, true);
      r.isrPosition == e.isrPosition && GetPosition(Schedule(r)) == e.isrPosition
  {
  }

  /** Between schedules the published position does not move, whatever the interrupts count. */
  lemma PublishedOnlyBySchedule(e: Encoder, v1: bool, v2: bool)
    ensures GetPosition(InterruptHandler(e, v1, v2)) == GetPosition(e)
    ensures GetPosition(Schedule(InterruptHandler(e, v1, v2))) == (if v2 || e.doorbell then InterruptHandler(e, v1, v2).isrPosition else e.position)
  {
  }

  /** Scheduling twice is the same as scheduling once. */
  lemma ScheduleIdempotent(e: Encoder)
    ensures Schedule(Schedule(e)) == Schedule(e)
  {
  }
}

=== FILE: lib_hallsensor.dfy ===
/**
 The carriage detector of the `lib/components` rewrite
 (`lib/components/hallsensor/hallsensor.cpp`). Fed one reading per needle,
 it hunts for the magnets' extrema for three needles past the last new
 one and then classifies the carriage by which poles it saw and in which
 order. Extremum values use 0xFFFF as "none", and positions are the
 encoder's `int16_t` stored into a `uint8_t`.
 */
module LibHallSensor {
  import opened Bytes
  import opened LibTypes

  const NoValue: u16 := 0xFFFF
  const MaxDetNeedles: int := 3

  datatype Config = Config(position: u8, thresholdLow: u16, thresholdHigh: u16)
  datatype Extremum = Extremum(value: u16, position: u8, isFirst: bool)
  datatype Phase = Idle | Hunt

  datatype HallSensor = HallSensor(
    sensorValue: u16, detectedPosition: u8, detectedCarriage: CarriageType,
    state: Phase, minimum: Extremum, maximum: Extremum, needlesToGo: int)

  const NoExtremum := Extremum(NoValue, 0, false)

  /** `_resetDetector`: idle, with neither extremum recorded. */
  function ResetDetector(h: HallSensor): (r: HallSensor)
    ensures r.state == Idle && !IsActive(r)
    ensures r.detectedPosition == h.detectedPosition && r.detectedCarriage == h.detectedCarriage
  {
    h.(state := Idle, minimum := NoExtremum, maximum := NoExtremum)
  }

  /** The constructor: nothing detected yet (position 255), detector reset, first reading taken. */
  function New(reading: u16): (h: HallSensor)
    ensures h.detectedPosition == 255 && h.detectedCarriage == NoCarriage && h.state == Idle && !IsActive(h)
    ensures h.sensorValue == reading
  {
    ResetDetector(HallSensor(reading, 255, NoCarriage, Idle, NoExtremum, NoExtremum, 0))
  }

  /** `isActive`: a pole has been seen in the current hunt. */
  predicate IsActive(h: HallSensor) {
    h.minimum.value != NoValue || h.maximum.value != NoValue
  }

  /**
   `_detectCarriage`: only a north pole is K at its position; only a south
   pole is L at its position; south then north is G half-way between; north
   then south is nothing, and the previous result stands.
   */
  function DetectCarriage(h: HallSensor): (r: (bool, HallSensor))
    ensures h.minimum.value == NoValue ==> r == (true, h.(detectedCarriage := Knit, detectedPosition := h.maximum.position))
    ensures h.minimum.value != NoValue && h.maximum.value == NoValue ==>
      r == (true, h.(detectedCarriage := Lace, detectedPosition := h.minimum.position))
    ensures h.minimum.value != NoValue && h.maximum.value != NoValue && h.minimum.isFirst ==>
      r == (true, h.(detectedCarriage := Gartner, detectedPosition := (h.minimum.position + h.maximum.position) / 2))
    ensures h.minimum.value != NoValue && h.maximum.value != NoValue && !h.minimum.isFirst ==> r == (false, h)
  {
    if h.minimum.value == NoValue then (true, h.(detectedCarriage := Knit, detectedPosition := h.maximum.position))
    else if h.maximum.value == NoValue then (true, h.(detectedCarriage := Lace, detectedPosition := h.minimum.position))
    else if h.minimum.isFirst then
      (true, h.(detectedCarriage := Gartner, detectedPosition := ToU8((h.minimum.position + h.maximum.position) / 2)))
    else (false, h)
  }

  /** One hunt step: record more extreme readings, restarting the count only while the other pole is unseen. */
  function Record(cfg: Config, h: HallSensor, v: u16, pos: u8): (r: HallSensor)
    ensures r.state == h.state && r.sensorValue == h.sensorValue
    ensures r.minimum.isFirst == h.minimum.isFirst && r.maximum.isFirst == h.maximum.isFirst
  {
    var newMin := v < cfg.thresholdLow && (h.minimum.value == NoValue || v < h.minimum.value);
    var h1 := if newMin then
                h.(minimum := h.minimum.(value := v, position := pos),
                   needlesToGo := if h.maximum.value == NoValue then MaxDetNeedles else h.needlesToGo)
              else h;
    var newMax := v > cfg.thresholdHigh && (h1.maximum.value == NoValue || v > h1.maximum.value);
    if newMax then
      h1.(maximum := h1.maximum.(value := v, position := pos),
          needlesToGo := if h1.minimum.value == NoValue then MaxDetNeedles else h1.needlesToGo)
    else h1
  }

  /**
   `isDetected`: read the sensor; when idle, start a hunt only on a reading
   past a threshold; when hunting, record, count down, and classify and
   reset at zero.
   */
  function IsDetected(cfg: Config, h: HallSensor, reading: u16, encoderPosition: i16): (r: (bool, HallSensor))
    ensures h.state == Idle && cfg.thresholdLow <= reading <= cfg.thresholdHigh ==> r == (false, h.(sensorValue := reading))
    ensures h.state == Idle && reading < cfg.thresholdLow ==>
      r == (false, h.(sensorValue := reading, state := Hunt, needlesToGo := MaxDetNeedles,
                      minimum := Extremum(reading, ToU8(encoderPosition), true)))
    ensures h.state == Idle && reading > cfg.thresholdHigh && reading >= cfg.thresholdLow ==>
      r == (false, h.(sensorValue := reading, state := Hunt, needlesToGo := MaxDetNeedles,
                      maximum := Extremum(reading, ToU8(encoderPosition), true)))
    ensures r.0 ==> h.state == Hunt
    ensures h.state == Hunt ==> var h1 := Record(cfg, h.(sensorValue := reading), reading, ToU8(encoderPosition));
      if h1.needlesToGo - 1 == 0 then
        var d := DetectCarriage(h1.(needlesToGo := 0));
        r == (d.0, ResetDetector(d.1))
      else r == (false, h1.(needlesToGo := h1.needlesToGo - 1))
  {
    var h0 := h.(sensorValue := reading);
    var pos := ToU8(encoderPosition);
    match h.state
    case Idle =>
      if reading < cfg.thresholdLow then
        (false, h0.(state := Hunt, needlesToGo := MaxDetNeedles, minimum := Extremum(reading, pos, true)))
      else if reading > cfg.thresholdHigh then
        (false, h0.(state := Hunt, needlesToGo := MaxDetNeedles, maximum := Extremum(reading, pos, true)))
      else (false, h0)
    case Hunt =>
      var h1 := Record(cfg, h0, reading, pos);
      var h2 := h1.(needlesToGo := h1.needlesToGo - 1);
      if h2.needlesToGo == 0 then
        var d := DetectCarriage(h2);
        (d.0, ResetDetector(d.1))
      else (false, h2)
  }

  /**
   The detector's invariant for readings an analog input can give (below
   0xFFFF): it hunts exactly while a pole is recorded, with one to three
   needles to go; when idle both extrema are cleared, and at most one pole
   is marked as seen first.
   */
  predicate Inv(h: HallSensor) {
    && (h.state == Hunt <==> IsActive(h))
    && (h.state == Idle ==> h.minimum == NoExtremum && h.maximum == NoExtremum)
    && !(h.minimum.isFirst && h.maximum.isFirst)
    && (h.state == Hunt ==> 1 <= h.needlesToGo <= MaxDetNeedles)
  }

  lemma IsDetectedKeepsInv(cfg: Config, h: HallSensor, reading: u16, encoderPosition: i16)
    requires Inv(h) && reading < NoValue
    ensures Inv(IsDetected(cfg, h, reading, encoderPosition).1)
  {
  }

  /**
   A north pole alone, followed by three quiet needles, is a K carriage at
   the position where the pole was seen.
   */
  lemma KnitSample(cfg: Config, h: HallSensor, high: u16, quiet: u16, p: i16, q: i16)
    requires Inv(h) && h.state == Idle && cfg.thresholdLow <= cfg.thresholdHigh
    requires high > cfg.thresholdHigh && cfg.thresholdLow <= quiet <= cfg.thresholdHigh
    ensures var h1 := IsDetected(cfg, h, high, p).1;
      var h2 := IsDetected(cfg, h1, quiet, q).1;
      var h3 := IsDetected(cfg, h2, quiet, q).1;
      var r := IsDetected(cfg, h3, quiet, q);
      r.0 && r.1.detectedCarriage == Knit && r.1.detectedPosition == ToU8(p) && r.1.state == Idle
  {
  }

  /** North first, then south, is not a carriage: nothing is detected and the previous result stands. */
  lemma NorthThenSouthIgnored(cfg: Config, h: HallSensor, high: u16, low: u16, p: i16, q: i16)
    requires Inv(h) && h.state == Idle && cfg.thresholdLow <= cfg.thresholdHigh
    requires cfg.thresholdHigh < high < NoValue && low < cfg.thresholdLow
    ensures var h1 := IsDetected(cfg, h, high, p).1;
      var h2 := IsDetected(cfg, h1, low, q).1;
      var h3 := IsDetected(cfg, h2, low, q).1;
      var r := IsDetected(cfg, h3, low, q);
      !r.0 && r.1.detectedCarriage == h.detectedCarriage && r.1.detectedPosition == h.detectedPosition
  {
  }

  /** South then north is the G carriage, half-way between the two poles. */
  lemma SouthThenNorthIsGartner(cfg: Config, h: HallSensor, high: u16, low: u16, p: i16, q: i16)
    requires Inv(h) && h.state == Idle && cfg.thresholdLow <= cfg.thresholdHigh
    requires cfg.thresholdHigh < high < NoValue && low < cfg.thresholdLow
    ensures var h1 := IsDetected(cfg, h, low, p).1;
      var h2 := IsDetected(cfg, h1, high, q).1;
      var h3 := IsDetected(cfg, h2, high, q).1;
      var r := IsDetected(cfg, h3, high, q);
      r.0 && r.1.detectedCarriage == Gartner && r.1.detectedPosition == ToU8((ToU8(p) + ToU8(q)) / 2)
  {
  }
}

=== FILE: lib_knitter.dfy ===
/**
 The knitter of the `lib/components` rewrite
 (`lib/components/knitter/knitter.cpp`): a cooperative `schedule` that
 services the components, turns encoder movement into solenoid settings
 for the current line, and steps a four-state machine (Reset, Init, Ready,
 Operate); plus the handlers the message layer calls for a new
 configuration, a new line and a reset.

 The clock, the two analog hall readings and the belt phase each sensor
 reports are inputs. What the knitter sends (line requests and state
 indications) and what it writes to the solenoid expanders are recorded
 as outputs; the beeper and LEDs are carried as component states.
 */
module LibKnitter {
  import opened Bytes
  import opened LibTypes
  import AyabTypes
  import LibMachine
  import LibCarriage
  import LibEncoder
  import LibHallSensor
  import LibSolenoids
  import LibBeeper
  import LibLed
  import LibLine

  const BeeperInit: u8 := 3
  const BeeperReady: u8 := 2
  const BeeperNextLine: u8 := 1
  const LedSlowOn: u32 := 500
  const LedSlowOff: u32 := 500
  const LedFastOn: u32 := 100
  const LedFastOff: u32 := 100
  const LedFlashDuration: u32 := 200

  datatype State = Reset | Init | Ready | Operate

  /** The job the host configured: needles `startNeedle` to `stopNeedle`, and whether to report every move. */
  datatype Config = Config(startNeedle: u8, stopNeedle: u8, continuousReporting: bool, valid: bool)

  datatype Knitter = Knitter(
    state: State, lastState: State,
    machine: LibMachine.Machine, carriage: LibCarriage.Carriage, encoder: LibEncoder.Encoder,
    hallLeft: LibHallSensor.HallSensor, hallRight: LibHallSensor.HallSensor,
    leftConfig: LibHallSensor.Config, rightConfig: LibHallSensor.Config,
    solenoids: bv16, beeper: LibBeeper.Beeper, ledA: LibLed.Led, ledB: LibLed.Led,
    config: Config, line: LibLine.Line, direction: Direction, beltShift: BeltShift)

  /** One `schedule`'s readings: the clock, the two hall sensors, and the belt phase each sensor reports on detection. */
  datatype Inputs = Inputs(now: u32, hallLeftReading: u16, hallRightReading: u16,
                           leftBeltPhase: bool, rightBeltPhase: bool)

  datatype Out =
    | RequestLine(lineNumber: u8)
    | IndicateState(hallLeft: u16, hallRight: u16, initDone: bool, carriageType: CarriageType,
                    carriagePosition: u8, carriageDirection: Direction, hallActive: Direction, beltShift: BeltShift)
    | Drive(writes: seq<AyabTypes.Event>)

  /** Both solenoid expanders are present on the shield. */
  const Shield := LibSolenoids.Expanders(true, true)

  /** The line's pattern is a 25-byte array. */
  predicate WellFormed(k: Knitter) {
    LibLine.Valid(k.line)
  }

  /** `reset` (and the message layer's reset request): the next `schedule` runs the Reset state. */
  function RequestReset(k: Knitter): (r: Knitter)
    ensures r.state == Reset && r.(state := k.state) == k
  {
    k.(state := Reset)
  }

  /** Sending a message flashes LED B, the transmit indicator. */
  function Transmit(k: Knitter, out: Out, now: u32): (r: (Knitter, seq<Out>))
    ensures r.1 == [out] && r.0 == k.(ledB := r.0.ledB)
  {
    (k.(ledB := LibLed.StartFlash(k.ledB, LedFlashDuration, now).0), [out])
  }

  /** Receiving a message flashes LED A, the receive indicator. */
  function ReceiveIndication(k: Knitter, now: u32): (r: Knitter)
    ensures r == k.(ledA := r.ledA)
  {
    k.(ledA := LibLed.StartFlash(k.ledA, LedFlashDuration, now).0)
  }

  /** `_apiRxIndicateState`: the sensor readings, whether init is done, and the carriage as tracked. */
  function StateReport(k: Knitter): (o: Out)
    ensures o.IndicateState? && o.initDone == (k.state != Init)
    ensures o.hallActive == Left <==> LibHallSensor.IsActive(k.hallLeft)
    ensures o.hallActive == Right <==> !LibHallSensor.IsActive(k.hallLeft) && LibHallSensor.IsActive(k.hallRight)
  {
    var hallActive := if LibHallSensor.IsActive(k.hallLeft) then Left
                      else if LibHallSensor.IsActive(k.hallRight) then Right
                      else Direction.Unknown;
    IndicateState(k.hallLeft.sensorValue, k.hallRight.sensorValue, k.state != Init, k.carriage.carriageType,
                  ToU8(k.carriage.position), k.direction, hallActive, k.beltShift)
  }

  /**
   A sensor fired: when the carriage crossed it toward the centre, take its
   type and position, move the encoder there, derive the belt shift from
   the belt phase and beep. At the left sensor a K carriage is Shifted on a
   high phase and the others Regular; at the right sensor the same holds
   for an L carriage.
   */
  function Crossed(k: Knitter, sensor: LibHallSensor.HallSensor, cfg: LibHallSensor.Config,
                   toward: Direction, phase: bool): (r: Knitter)
    requires toward != Direction.Unknown
    ensures var c := LibCarriage.IsCrossing(k.carriage, sensor, cfg, toward);
      r.carriage == c.1 && (!c.0 ==> r == k.(carriage := c.1))
    ensures var c := LibCarriage.IsCrossing(k.carriage, sensor, cfg, toward);
      c.0 ==> r.encoder == LibEncoder.SetPosition(k.encoder, c.1.position)
              && (r.beltShift == Shifted <==> (phase <==> c.1.carriageType == (if toward == Right then Knit else Lace)))
              && r.beeper == LibBeeper.Beep(k.beeper, BeeperReady)
  {
    var c := LibCarriage.IsCrossing(k.carriage, sensor, cfg, toward);
    if c.0 then
      var special := if toward == Right then Knit else Lace;
      var belt := if c.1.carriageType == special then (if phase then Shifted else Regular)
                  else (if phase then Regular else Shifted);
      k.(carriage := c.1, encoder := LibEncoder.SetPosition(k.encoder, c.1.position), beltShift := belt,
         beeper := LibBeeper.Beep(k.beeper, BeeperReady))
    else k.(carriage := c.1)
  }

  /**
   `_checkHallSensors`: the left sensor is polled first; the right one is
   polled only when the left one detected nothing. A detection at the left
   sensor counts when the carriage moves right, at the right one when it
   moves left.
   */
  function CheckHallSensors(k: Knitter, input: Inputs): (r: Knitter)
    ensures var left := LibHallSensor.IsDetected(k.leftConfig, k.hallLeft, input.hallLeftReading, k.encoder.position);
      r.hallLeft == left.1
      && (left.0 ==> r.hallRight == k.hallRight)
      && (left.0 ==> r == Crossed(k.(hallLeft := left.1), left.1, k.leftConfig, Right, input.leftBeltPhase))
    ensures r.state == k.state && r.line == k.line && r.config == k.config && r.machine == k.machine
    ensures r.solenoids == k.solenoids && r.direction == k.direction
  {
    var left := LibHallSensor.IsDetected(k.leftConfig, k.hallLeft, input.hallLeftReading, k.encoder.position);
    var k1 := k.(hallLeft := left.1);
    if left.0 then Crossed(k1, left.1, k.leftConfig, Right, input.leftBeltPhase)
    else
      var right := LibHallSensor.IsDetected(k.rightConfig, k.hallRight, input.hallRightReading, k.encoder.position);
      var k2 := k1.(hallRight := right.1);
      if right.0 then Crossed(k2, right.1, k.rightConfig, Left, input.rightBeltPhase) else k2
  }

  /** The direction a move from `previous` to `newPosition` implies: right when the 8-bit difference is below 128. */
  function Heading(newPosition: u8, previous: int): (d: Direction)
    ensures d == Right <==> ToU8(newPosition - previous) < 128
    ensures d != Direction.Unknown
  {
    if ToU8(newPosition - previous) < 128 then Right else Left
  }

  /**
   Where the selected needle lies relative to the job: `NoSide` inside
   [start, stop], and otherwise the side it is on. The source passes the
   line a flag for "inside the job"; the line's own handler takes a side,
   and this is the side that flag stands for.
   */
  function SideOf(c: Config, needle: u8): (s: MachineSide)
    ensures s == NoSide <==> c.startNeedle <= needle <= c.stopNeedle
    ensures s == LeftSide <==> needle < c.startNeedle
  {
    if c.startNeedle <= needle <= c.stopNeedle then NoSide
    else if needle < c.startNeedle then LeftSide
    else RightSide
  }

  /** The solenoid for the selected needle, moved to the other half of the bank for a shifted belt and again for an L carriage going left. */
  function Solenoid(k: Knitter, needle: u8): (s: u8)
    ensures s < LibMachine.BankSize(k.machine)
  {
    var s0 := LibMachine.SolenoidToSet(k.machine, needle);
    var s1 := if k.beltShift == Shifted then LibMachine.SolenoidShift(k.machine, s0) else s0;
    if k.carriage.carriageType == Lace && k.direction == Left then LibMachine.SolenoidShift(k.machine, s1) else s1
  }

  /**
   Setting the solenoid for the needle under selection: while a carriage
   is known and the line is not finished, a needle of the job gets the
   line's value and any other needle is released (set to 1); the line is
   told where the carriage is. Otherwise the unshifted solenoid is
   released.
   */
  function Select(k: Knitter, needle: u8): (r: (Knitter, seq<AyabTypes.Event>))
    requires WellFormed(k)
    ensures WellFormed(r.0)
    ensures var active := LibCarriage.IsDefined(k.carriage) && !k.line.finished;
      var inJob := k.config.startNeedle <= needle <= k.config.stopNeedle;
      && (active && inJob ==> r == (k.(solenoids := LibSolenoids.Set(Shield, k.solenoids, Solenoid(k, needle), LibLine.NeedleValue(k.line, needle)).0,
                                       line := LibLine.WorkedOn(k.line, NoSide, k.direction)),
                                    LibSolenoids.Set(Shield, k.solenoids, Solenoid(k, needle), LibLine.NeedleValue(k.line, needle)).1))
      && (active && !inJob ==>
            r.0.solenoids == LibSolenoids.ResetOne(Shield, k.solenoids, Solenoid(k, needle)).0
            && r.0.line == LibLine.WorkedOn(k.line, SideOf(k.config, needle), k.direction))
      && (!active ==> r.0 == k.(solenoids := LibSolenoids.ResetOne(Shield, k.solenoids, LibMachine.SolenoidToSet(k.machine, needle)).0))
    ensures r.0.state == k.state && r.0.config == k.config && r.0.machine == k.machine && r.0.carriage == k.carriage
    ensures r.0.line.number == k.line.number && r.0.line.requested == k.line.requested && r.0.line.isLast == k.line.isLast
  {
    if LibCarriage.IsDefined(k.carriage) && !k.line.finished then
      var s := Solenoid(k, needle);
      if k.config.startNeedle <= needle <= k.config.stopNeedle then
        var w := LibSolenoids.Set(Shield, k.solenoids, s, LibLine.NeedleValue(k.line, needle));
        (k.(solenoids := w.0, line := LibLine.WorkedOn(k.line, NoSide, k.direction)), w.1)
      else
        var w := LibSolenoids.ResetOne(Shield, k.solenoids, s);
        (k.(solenoids := w.0, line := LibLine.WorkedOn(k.line, SideOf(k.config, needle), k.direction)), w.1)
    else
      var w := LibSolenoids.ResetOne(Shield, k.solenoids, LibMachine.SolenoidToSet(k.machine, needle));
      (k.(solenoids := w.0), w.1)
  }

  /**
   `_runMachine`: with a machine type set and the encoder's position (as a
   byte) moved, take the direction from the move, track the carriage,
   poll the sensors, set the solenoid for the needle under selection and,
   when continuous reporting is on, report the state.
   */
  function RunMachine(k: Knitter, input: Inputs): (r: (Knitter, seq<Out>))
    requires WellFormed(k)
    ensures WellFormed(r.0)
    ensures !LibMachine.IsDefined(k.machine) || ToU8(k.encoder.position) == k.carriage.position ==> r == (k, [])
    ensures LibMachine.IsDefined(k.machine) && ToU8(k.encoder.position) != k.carriage.position ==>
      && r.0.direction == Heading(ToU8(k.encoder.position), k.carriage.position)
      && |r.1| >= 1 && r.1[0].Drive?
      && (r.0.config.continuousReporting <==> |r.1| == 2)
    ensures r.0.state == k.state && r.0.config == k.config && r.0.machine == k.machine
    ensures r.0.line.number == k.line.number && r.0.line.requested == k.line.requested && r.0.line.isLast == k.line.isLast
  {
    var newPosition := ToU8(k.encoder.position);
    if !LibMachine.IsDefined(k.machine) || newPosition == k.carriage.position then (k, [])
    else
      var direction := Heading(newPosition, k.carriage.position);
      var k1 := CheckHallSensors(k.(direction := direction, carriage := LibCarriage.SetPosition(k.carriage, newPosition)), input);
      var needle := ToU8(LibCarriage.SelectPosition(k1.carriage, direction));
      var s := Select(k1, needle);
      if s.0.config.continuousReporting then
        var t := Transmit(s.0, StateReport(s.0), input.now);
        (t.0, [Drive(s.1)] + t.1)
      else (s.0, [Drive(s.1)])
  }

  /**
   The Reset state: machine, carriage (at the encoder's position) and
   solenoids reset, both LEDs on, the job invalidated, the machine type
   set by the build (KH910 or KH930) and the two sensors configured; then
   Init.
   */
  function ResetStep(k: Knitter, kh910: bool, now: u32): (r: (Knitter, seq<Out>))
    ensures r.0.state == Init && !r.0.config.valid && !r.0.config.continuousReporting
    ensures r.0.machine.machineType == (if kh910 then Kh910 else Kh930)
    ensures !LibCarriage.IsDefined(r.0.carriage) && r.0.carriage.position == k.encoder.position
    ensures r.0.solenoids == LibSolenoids.ResetState
    ensures r.0.leftConfig == LibMachine.SensorConfig(r.0.machine, Left)
    ensures r.0.rightConfig == LibMachine.SensorConfig(r.0.machine, Right)
    ensures r.0.line == k.line
    ensures r.1 == [Drive(LibSolenoids.Reset(Shield).1)]
  {
    var m := LibMachine.SetType(LibMachine.Reset(), if kh910 then Kh910 else Kh930);
    var sol := LibSolenoids.Reset(Shield);
    var k1 := k.(machine := m,
                 carriage := LibCarriage.SetPosition(LibCarriage.Reset(k.carriage), k.encoder.position),
                 solenoids := sol.0,
                 ledA := LibLed.TurnOn(k.ledA, now).0, ledB := LibLed.TurnOn(k.ledB, now).0,
                 config := k.config.(valid := false, continuousReporting := false),
                 state := Init,
                 leftConfig := LibMachine.SensorConfig(m, Left), rightConfig := LibMachine.SensorConfig(m, Right));
    (k1, [Drive(sol.1)])
  }

  /**
   The state machine step of `schedule`. `isStateChange` is whether the
   state differs from the one of the previous step; it starts the LED
   pattern and beep of Init and Ready, and switches both LEDs off on
   entering Operate.
   */
  function Fsm(k: Knitter, kh910: bool, now: u32): (r: (Knitter, seq<Out>))
    requires WellFormed(k)
    ensures WellFormed(r.0) && r.0.lastState == k.state
    ensures k.state == Reset ==> r == ResetStep(k.(lastState := k.state), kh910, now)
    ensures k.state == Init ==>
      (r.0.state == Ready <==> LibMachine.IsDefined(k.machine) && LibCarriage.IsDefined(k.carriage))
      && (r.0.state != Ready ==> r.0.state == Init && r.1 == [])
      && (r.0.state == Ready ==> !r.0.config.valid && |r.1| == 1 && r.1[0].IndicateState? && r.1[0].initDone)
    ensures k.state == Ready ==>
      var b := if k.lastState != Ready then LibBeeper.Beep(k.beeper, BeeperReady) else k.beeper;
      (r.0.state == Operate <==> k.config.valid && !LibBeeper.Busy(b))
      && (r.0.state == Operate ==> r.0.line == LibLine.Reset(k.line))
      && (r.0.state != Operate ==> r.0.state == Ready && r.0.line == k.line)
      && r.1 == []
    ensures k.state == Operate ==>
      && (r.0.state == Reset <==> k.line.finished && k.line.isLast)
      && (r.0.state != Reset ==> r.0.state == Operate)
      && (k.line.finished && !k.line.requested ==> r.1 == [RequestLine(LibLine.NextLineNumber(k.line))] && r.0.line == k.line.(requested := true))
      && (!(k.line.finished && !k.line.requested) ==> r.1 == [] && r.0.line == k.line)
    ensures k.state != Reset ==> r.0.machine == k.machine && r.0.carriage == k.carriage
    ensures r.0.config.valid ==> r.0.config == k.config && r.0.machine == k.machine
  {
    var change := k.state != k.lastState;
    var k0 := k.(lastState := k.state);
    match k.state
    case Reset => ResetStep(k0, kh910, now)
    case Init =>
      var k1 := if change then k0.(ledA := LibLed.StartBlink(k0.ledA, LedSlowOn, LedSlowOff, now).0,
                                   beeper := LibBeeper.Beep(k0.beeper, BeeperInit))
                else k0;
      if LibMachine.IsDefined(k1.machine) && LibCarriage.IsDefined(k1.carriage) then
        var k2 := k1.(state := Ready);
        var t := Transmit(k2, StateReport(k2), now);
        (t.0.(config := t.0.config.(valid := false)), t.1)
      else (k1, [])
    case Ready =>
      var k1 := if change then k0.(ledA := LibLed.StartBlink(k0.ledA, LedFastOn, LedFastOff, now).0,
                                   beeper := LibBeeper.Beep(k0.beeper, BeeperReady))
                else k0;
      if k1.config.valid && !LibBeeper.Busy(k1.beeper) then (k1.(state := Operate, line := LibLine.Reset(k1.line)), [])
      else (k1, [])
    case Operate =>
      var k1 := if change then k0.(ledA := LibLed.TurnOff(k0.ledA, now).0, ledB := LibLed.TurnOff(k0.ledB, now).0)
                else k0;
      var k2 := if k1.line.finished && k1.line.isLast then k1.(state := Reset) else k1;
      if k2.line.finished && !k2.line.requested then
        var t := Transmit(k2, RequestLine(LibLine.NextLineNumber(k2.line)), now);
        (t.0.(line := t.0.line.(requested := true)), t.1)
      else (k2, [])
  }

  /**
   `schedule`: first `API::schedule`, which only polls the serial framing
   for a packet (framing is outside this model; a received packet is
   handled by `Api.RxMessageHandler`), then the components' own schedules
   (beeper, encoder, both LEDs), then `_runMachine`, then the state
   machine. `kh910` is the build's machine choice.
   */
  function Schedule(k: Knitter, input: Inputs, kh910: bool): (r: (Knitter, seq<Out>))
    requires WellFormed(k)
    ensures WellFormed(r.0)
    ensures var k1 := Serviced(k, input.now);
      var m := RunMachine(k1, input);
      var f := Fsm(m.0, kh910, input.now);
      r == (f.0, m.1 + f.1)
  {
    var k1 := Serviced(k, input.now);
    var m := RunMachine(k1, input);
    var f := Fsm(m.0, kh910, input.now);
    (f.0, m.1 + f.1)
  }

  /** The component schedules that run before the knitter's own work. */
  function Serviced(k: Knitter, now: u32): (r: Knitter)
    ensures r.state == k.state && r.line == k.line && r.config == k.config && r.carriage == k.carriage
    ensures r.encoder == LibEncoder.Schedule(k.encoder) && r.beeper == LibBeeper.Schedule(k.beeper, now).0
  {
    k.(beeper := LibBeeper.Schedule(k.beeper, now).0, encoder := LibEncoder.Schedule(k.encoder),
       ledA := LibLed.Schedule(k.ledA, now).0, ledB := LibLed.Schedule(k.ledB, now).0)
  }

  /**
   `_apiRxSetConfig`: the job is invalidated first; only in Ready is the
   new job stored, and it is valid exactly when it is a non-empty range
   ending on the bed.
   */
  function SetConfig(k: Knitter, startNeedle: u8, stopNeedle: u8, continuousReporting: bool): (r: (bool, Knitter))
    ensures r.0 == r.1.config.valid
    ensures r.0 <==> k.state == Ready && stopNeedle < LibMachine.NumberOfNeedles(k.machine) && startNeedle < stopNeedle
    ensures k.state == Ready ==> r.1.config.startNeedle == startNeedle && r.1.config.stopNeedle == stopNeedle
                                 && r.1.config.continuousReporting == continuousReporting
    ensures k.state != Ready ==> r.1 == k.(config := k.config.(valid := false))
    ensures r.1 == k.(config := r.1.config)
  {
    if k.state == Ready then
      var ok := stopNeedle < LibMachine.NumberOfNeedles(k.machine) && startNeedle < stopNeedle;
      (ok, k.(config := Config(startNeedle, stopNeedle, continuousReporting, ok)))
    else (false, k.(config := k.config.(valid := false)))
  }

  /**
   `_apiRxSetLine`: only while operating. An accepted line beeps once; a
   rejected one asks again for the line the knitter is waiting for.
   */
  function SetLine(k: Knitter, lineNumber: u8, pattern: seq<bv8>, isLastLine: bool, now: u32): (r: (bool, Knitter, seq<Out>))
    requires WellFormed(k) && |pattern| >= LibLine.PatternLen
    ensures WellFormed(r.1)
    ensures r.0 <==> k.state == Operate && lineNumber == LibLine.NextLineNumber(k.line)
    ensures k.state != Operate ==> r == (false, k, [])
    ensures r.0 ==> r.1 == k.(line := LibLine.SetPattern(k.line, lineNumber, pattern, isLastLine).1,
                              beeper := LibBeeper.Beep(k.beeper, BeeperNextLine)) && r.2 == []
    ensures k.state == Operate && !r.0 ==> r.1.line == k.line && r.2 == [RequestLine(LibLine.NextLineNumber(k.line))]
  {
    if k.state == Operate then
      var p := LibLine.SetPattern(k.line, lineNumber, pattern, isLastLine);
      if p.0 then (true, k.(line := p.1, beeper := LibBeeper.Beep(k.beeper, BeeperNextLine)), [])
      else
        var t := Transmit(k, RequestLine(LibLine.NextLineNumber(k.line)), now);
        (false, t.0, t.1)
    else (false, k, [])
  }

  /** A valid job always lies on the bed of the configured machine. */
  predicate JobOnBed(k: Knitter) {
    k.config.valid ==> k.config.startNeedle < k.config.stopNeedle < LibMachine.NumberOfNeedles(k.machine)
  }

  /** Neither the host's handlers nor `schedule` can make a job valid that does not fit the machine. */
  lemma JobStaysOnBed(k: Knitter, input: Inputs, kh910: bool, start: u8, stop: u8, cont: bool,
                      n: u8, pattern: seq<bv8>, last: bool)
    requires WellFormed(k) && JobOnBed(k) && |pattern| >= LibLine.PatternLen
    ensures JobOnBed(Schedule(k, input, kh910).0)
    ensures JobOnBed(SetConfig(k, start, stop, cont).1)
    ensures JobOnBed(SetLine(k, n, pattern, last, input.now).1)
    ensures JobOnBed(RequestReset(k))
  {
    var k1 := Serviced(k, input.now);
    assert JobOnBed(k1);
    var m := RunMachine(k1, input);
    assert JobOnBed(m.0);
    var f := Fsm(m.0, kh910, input.now);
    assert JobOnBed(f.0);
  }

  /**
   The line handshake: a finished line that is not the last, with no
   request pending, makes the next step ask for the following line; when
   that line arrives it is accepted, and the knitter works on it with no
   request pending.
   */
  lemma LineHandshake(k: Knitter, kh910: bool, now: u32, pattern: seq<bv8>, last: bool)
    requires WellFormed(k) && |pattern| >= LibLine.PatternLen
    requires k.state == Operate && k.line.finished && !k.line.isLast && !k.line.requested
    ensures var f := Fsm(k, kh910, now);
      var n := LibLine.NextLineNumber(k.line);
      f.1 == [RequestLine(n)] && f.0.state == Operate && f.0.line.requested
      && var s := SetLine(f.0, n, pattern, last, now);
      s.0 && !s.1.line.finished && !s.1.line.requested && s.1.line.number == n && s.1.line.isLast == last
  {
  }

  /** A reset request restarts the machine: the next state machine step lands in Init with no valid job and every solenoid released. */
  lemma ResetRestarts(k: Knitter, kh910: bool, now: u32)
    requires WellFormed(k)
    ensures var f := Fsm(RequestReset(k), kh910, now).0;
      f.state == Init && !f.config.valid && f.solenoids == LibSolenoids.ResetState && LibMachine.IsDefined(f.machine)
  {
  }

  /** One needle of travel is read as its direction, including across the byte wrap. */
  lemma HeadingOfOneNeedle(p: u8)
    ensures Heading(ToU8(p + 1), p) == Right
    ensures Heading(ToU8(p - 1), p) == Left
  {
  }
}

=== FILE: lib_led.dfy ===
/**
 A status LED of the `lib/components` rewrite
 (`lib/components/led/led.cpp`): solid on or off, blinking with separate
 on and off times, or flashing once and then returning to the previous
 mode. Times are unsigned 32-bit milliseconds; the clock is a parameter,
 and every pin write is recorded.
 */
module LibLed {
  import opened Bytes

  datatype Level = Off | On
  datatype Mode = Solid | Blink | Flash

  /** `lasttime` is the clock at the last pin write, moved forward when a flash is extended. */
  datatype Led = Led(state: Level, mode: Mode, savedMode: Mode, offValue: u8, onValue: u8,
                     timeOff: u32, timeOn: u32, flashOn: u32, lasttime: u32)

  datatype Output = DigitalWrite(value: u8)

  /** `_write`: drive the pin to the level's value and restamp the time. */
  function Write(l: Led, now: u32): (r: (Led, seq<Output>))
    ensures r.0 == l.(lasttime := now)
    ensures r.1 == [DigitalWrite(if l.state == Off then l.offValue else l.onValue)]
  {
    (l.(lasttime := now), [DigitalWrite(if l.state == Off then l.offValue else l.onValue)])
  }

  /**
   The constructor: switched off, solid. Blink times, flash time and saved
   mode are not set by the source and are written before they are read, so
   the model starts them at zero and `Solid`.
   */
  function New(offValue: u8, onValue: u8, now: u32): (r: (Led, seq<Output>))
    ensures r.0.state == Off && r.0.mode == Solid && r.0.lasttime == now
    ensures r.1 == [DigitalWrite(offValue)]
  {
    TurnOff(Led(Off, Solid, Solid, offValue, onValue, 0, 0, 0, 0), now)
  }

  function TurnOff(l: Led, now: u32): (r: (Led, seq<Output>))
    ensures r.0 == l.(mode := Solid, state := Off, lasttime := now) && r.1 == [DigitalWrite(l.offValue)]
  {
    Write(l.(mode := Solid, state := Off), now)
  }

  function TurnOn(l: Led, now: u32): (r: (Led, seq<Output>))
    ensures r.0 == l.(mode := Solid, state := On, lasttime := now) && r.1 == [DigitalWrite(l.onValue)]
  {
    Write(l.(mode := Solid, state := On), now)
  }

  function Flip(v: Level): Level {
    if v == On then Off else On
  }

  function Toggle(l: Led, now: u32): (r: (Led, seq<Output>))
    ensures r.0.state != l.state && r.0.mode == l.mode && r.0.lasttime == now
    ensures r.0 == l.(state := r.0.state, lasttime := now)
    ensures r.1 == [DigitalWrite(if l.state == On then l.offValue else l.onValue)]
  {
    Write(l.(state := Flip(l.state)), now)
  }

  /** `blink(timeOff, timeOn)`: store the times, enter blink mode and switch at once. */
  function StartBlink(l: Led, timeOff: u32, timeOn: u32, now: u32): (r: (Led, seq<Output>))
    ensures r.0.mode == Blink && r.0.timeOff == timeOff && r.0.timeOn == timeOn
    ensures r.0.state != l.state && r.0.lasttime == now && |r.1| == 1
  {
    Toggle(l.(timeOff := timeOff, timeOn := timeOn, mode := Blink), now)
  }

  /** `flash(timeOn)`: a flash already under way is extended by `timeOn`; otherwise the mode is saved and the LED switches. */
  function StartFlash(l: Led, timeOn: u32, now: u32): (r: (Led, seq<Output>))
    ensures l.mode == Flash ==> r == (l.(flashOn := timeOn, lasttime := ToU32(l.lasttime + timeOn)), [])
    ensures l.mode != Flash ==>
      r.0 == l.(flashOn := timeOn, savedMode := l.mode, mode := Flash, state := Flip(l.state), lasttime := now) && |r.1| == 1
  {
    if l.mode == Flash then (l.(flashOn := timeOn, lasttime := ToU32(l.lasttime + timeOn)), [])
    else Toggle(l.(flashOn := timeOn, savedMode := l.mode, mode := Flash), now)
  }

  /** `schedule` at time `now`: switch once the current phase's time has elapsed (unsigned 32-bit difference). */
  function Schedule(l: Led, now: u32): (r: (Led, seq<Output>))
    ensures l.mode == Solid ==> r == (l, [])
    ensures l.mode == Blink ==>
      var due := if l.state == On then l.timeOn else l.timeOff;
      r == if Elapsed(now, l.lasttime) >= due then Toggle(l, now) else (l, [])
    ensures l.mode == Flash ==>
      r == if Elapsed(now, l.lasttime) >= l.flashOn then Toggle(l.(mode := l.savedMode), now) else (l, [])
  {
    var elapsed := Elapsed(now, l.lasttime);
    match l.mode
    case Blink =>
      if l.state == On then (if elapsed >= l.timeOn then Toggle(l, now) else (l, []))
      else (if elapsed >= l.timeOff then Toggle(l, now) else (l, []))
    case Flash =>
      if elapsed >= l.flashOn then Toggle(l.(mode := l.savedMode), now) else (l, [])
    case Solid => (l, [])
  }

  /**
   A flash from a solid LED, once its time is up, leaves the LED as it was
   (same level, solid again) with the pin written twice: away and back.
   */
  lemma FlashReturns(l: Led, timeOn: u32, t0: u32, t1: u32)
    requires l.mode == Solid && Elapsed(t1, t0) >= timeOn
    ensures var f := StartFlash(l, timeOn, t0);
      var s := Schedule(f.0, t1);
      s.0.state == l.state && s.0.mode == Solid && s.0.lasttime == t1
      && f.1 + s.1 == [DigitalWrite(if l.state == On then l.offValue else l.onValue),
                       DigitalWrite(if l.state == On then l.onValue else l.offValue)]
  {
  }

  /** Flashing a blinking LED hands back to blinking with the blink times intact. */
  lemma FlashKeepsBlink(l: Led, timeOn: u32, t0: u32, t1: u32)
    requires l.mode == Blink && Elapsed(t1, t0) >= timeOn
    ensures var s := Schedule(StartFlash(l, timeOn, t0).0, t1).0;
      s.mode == Blink && s.state == l.state && s.timeOn == l.timeOn && s.timeOff == l.timeOff
  {
  }

  /** A blinking LED before its time is up is not touched. */
  lemma BlinkWaits(l: Led, now: u32)
    requires l.mode == Blink && Elapsed(now, l.lasttime) < (if l.state == On then l.timeOn else l.timeOff)
    ensures Schedule(l, now) == (l, [])
  {
  }
}

=== FILE: lib_line.dfy ===
/**
 The line being knitted in the `lib/components` rewrite
 (`lib/components/knitter/line.cpp`): its 25-byte pattern, its number, the
 request and finish flags the knitter's state machine reads, and the
 overflow counter that marks the line finished once the carriage has
 travelled far enough past the last active needle.
 */
module LibLine {
  import opened Bytes
  import opened LibTypes

  const CarriageOverflow: u8 := 11
  const PatternLen: nat := 25

  datatype Line = Line(pattern: seq<bv8>, number: u8, isLast: bool, isWorking: bool,
                       enterSide: MachineSide, carriageOverflow: u8, requested: bool, finished: bool)

  predicate Valid(l: Line) {
    |l.pattern| == PatternLen
  }

  /** `getNextLineNumber`: the line number after this one, in 8 bits. */
  function NextLineNumber(l: Line): (n: u8)
    ensures n == if l.number == 255 then 0 else l.number + 1
  {
    ToU8(l.number + 1)
  }

  /**
   `reset`: every needle unselected, next line 0, finished and not
   requested. The overflow counter is not touched.
   */
  function Reset(l: Line): (r: Line)
    ensures Valid(r) && forall i :: 0 <= i < PatternLen ==> r.pattern[i] == 0xFF
    ensures NextLineNumber(r) == 0 && !r.isLast && !r.isWorking && r.enterSide == NoSide
    ensures !r.requested && r.finished && r.carriageOverflow == l.carriageOverflow
  {
    Line(seq(PatternLen, _ => 0xFF), 0xFF, false, false, NoSide, l.carriageOverflow, false, true)
  }

  /**
   `setPattern`: only the next line is accepted; it copies the first 25
   bytes of `line`, advances the number to the accepted one, records
   whether it is the last, and clears the flags. A rejected line changes
   nothing.
   */
  function SetPattern(l: Line, number: u8, line: seq<bv8>, isLast: bool): (r: (bool, Line))
    requires |line| >= PatternLen
    ensures r.0 <==> number == NextLineNumber(l)
    ensures !r.0 ==> r.1 == l
    ensures r.0 ==> r.1 == l.(pattern := line[..PatternLen], number := number, isLast := isLast,
                                isWorking := false, requested := false, finished := false)
    ensures r.0 ==> Valid(r.1)
  {
    if number == NextLineNumber(l) then
      (true, l.(pattern := line[..PatternLen], number := ToU8(l.number + 1), isLast := isLast,
                isWorking := false, requested := false, finished := false))
    else (false, l)
  }

  function ByteIndex(position: i16): u8 { ToU8(CDiv(position, 8)) }
  function BitIndex(position: i16): u8 { ToU8(CRem(position, 8)) }

  /**
   The positions `getNeedleValue` is defined for. A negative position that
   is not a multiple of 8 gives a bit index of 249 to 255, and shifting 1
   that far is undefined in C, unless the byte index is out of the
   pattern and the shift never happens.
   */
  predicate Defined(position: i16) {
    BitIndex(position) < 8 || ByteIndex(position) >= PatternLen
  }

  /**
   `getNeedleValue`: true (needle not selected) unless the position's byte
   is in the pattern and its bit, least significant first, is clear. The
   quotient and remainder truncate toward zero and are then stored in
   bytes.
   */
  function NeedleValue(l: Line, position: i16): (v: bool)
    requires Valid(l) && Defined(position)
    ensures ByteIndex(position) >= PatternLen ==> v
    ensures ByteIndex(position) < PatternLen ==> (v <==> !BitRead(l.pattern[ByteIndex(position)], BitIndex(position)))
  {
    var byteIndex := ByteIndex(position);
    var bitIndex := BitIndex(position);
    if byteIndex < PatternLen then
      l.pattern[byteIndex] & ((1 as bv8) << (bitIndex as bv8)) == 0
    else true
  }

  /** On the bed (needles 0 to 199) the value is the complement of the needle's bit. */
  lemma NeedleValueOnBed(l: Line, position: i16)
    requires Valid(l) && 0 <= position < 8 * PatternLen
    ensures Defined(position)
    ensures NeedleValue(l, position) <==> !BitRead(l.pattern[position / 8], position % 8)
  {
  }

  /** Past the pattern, up to the point where the byte index wraps, no needle is selected. */
  lemma NeedleValueOffBed(l: Line, position: i16)
    requires Valid(l) && 8 * PatternLen <= position < 2048
    ensures Defined(position) && NeedleValue(l, position)
  {
  }

  /** The line after a reset is 0, and its pattern is the one `setPattern` was given. */
  lemma FirstLineAccepted(l: Line, line: seq<bv8>, isLast: bool, position: i16)
    requires |line| >= PatternLen && 0 <= position < 8 * PatternLen
    ensures var r := SetPattern(Reset(l), 0, line, isLast);
      r.0 && NextLineNumber(r.1) == 1 && !r.1.finished
      && (NeedleValue(r.1, position) <==> !BitRead(line[position / 8], position % 8))
  {
    var r := SetPattern(Reset(l), 0, line, isLast);
    NeedleValueOnBed(r.1, position);
  }

  /**
   `workedOn`: while idle, reaching the active window (side `NoSide`) arms
   the overflow counter and starts work, taking the enter side from the
   direction when none was recorded; any other side is recorded as the
   enter side. While working, being on the side opposite the enter side
   counts down when travelling away from the enter side and up otherwise,
   and the line is finished when the counter reaches zero.
   */
  function WorkedOn(l: Line, side: MachineSide, direction: Direction): (r: Line)
    ensures !l.isWorking && side == NoSide ==>
      r == l.(isWorking := true, carriageOverflow := CarriageOverflow,
              enterSide := if l.enterSide != NoSide then l.enterSide else if direction == Right then LeftSide else RightSide)
    ensures !l.isWorking && side != NoSide ==> r == l.(enterSide := side)
    ensures l.isWorking ==> r.carriageOverflow == Counter(l, side, direction)
    ensures l.isWorking ==> (r.finished <==> l.finished || r.carriageOverflow == 0)
    ensures l.isWorking ==> (r.isWorking <==> r.carriageOverflow != 0)
    ensures r.pattern == l.pattern && r.number == l.number && r.requested == l.requested
  {
    if l.isWorking then
      var c := Counter(l, side, direction);
      if c == 0 then l.(carriageOverflow := 0, finished := true, isWorking := false, enterSide := NoSide)
      else l.(carriageOverflow := c)
    else if side == NoSide then
      l.(isWorking := true, carriageOverflow := CarriageOverflow,
         enterSide := if l.enterSide != NoSide then l.enterSide else if direction == Right then LeftSide else RightSide)
    else l.(enterSide := side)
  }

  /** The counter after one step of work: down when leaving on the far side, up when turning back there. */
  function Counter(l: Line, side: MachineSide, direction: Direction): u8 {
    if l.enterSide == LeftSide && side == RightSide then
      (if direction == Right then ToU8(l.carriageOverflow - 1) else ToU8(l.carriageOverflow + 1))
    else if l.enterSide == RightSide && side == LeftSide then
      (if direction == Left then ToU8(l.carriageOverflow - 1) else ToU8(l.carriageOverflow + 1))
    else l.carriageOverflow
  }

  /** `n` calls of `workedOn` with the same side and direction. */
  function Repeat(l: Line, side: MachineSide, direction: Direction, n: nat): Line
    decreases n
  {
    if n == 0 then l else Repeat(WorkedOn(l, side, direction), side, direction, n - 1)
  }

  /**
   A line entered from the left finishes after exactly as many needles
   past the right edge, travelling right, as its counter holds, and not
   one sooner.
   */
  lemma {:induction false} FinishesAfterOverflow(l: Line, n: nat)
    requires l.isWorking && l.enterSide == LeftSide && !l.finished && l.carriageOverflow == n >= 1
    ensures Repeat(l, RightSide, Right, n).finished
    ensures forall k :: 0 <= k < n ==> !Repeat(l, RightSide, Right, k).finished
    decreases n
  {
    var l1 := WorkedOn(l, RightSide, Right);
    if n > 1 {
      FinishesAfterOverflow(l1, n - 1);
      forall k | 0 <= k < n ensures !Repeat(l, RightSide, Right, k).finished {
        if k > 0 {
          assert Repeat(l, RightSide, Right, k) == Repeat(l1, RightSide, Right, k - 1);
        }
      }
    }
    assert Repeat(l, RightSide, Right, n) == Repeat(l1, RightSide, Right, n - 1);
  }
}

=== FILE: lib_machine.dfy ===
/**
 Machine geometry of the `lib/components` rewrite
 (`lib/components/machine/machine.cpp`): needle count, where the two hall
 sensors sit and how they are tuned, and the mapping from a needle to its
 solenoid.
 */
module LibMachine {
  import opened Bytes
  import opened LibTypes
  import LibHallSensor

  datatype Machine = Machine(machineType: MachineType)

  /** The constructor and `reset`: no machine. */
  function Reset(): (m: Machine)
    ensures !IsDefined(m)
  {
    Machine(NoMachine)
  }

  function SetType(m: Machine, t: MachineType): (r: Machine)
    ensures r.machineType == t && (IsDefined(r) <==> t != NoMachine)
  {
    Machine(t)
  }

  predicate IsDefined(m: Machine) {
    m.machineType != NoMachine
  }

  function NumberOfNeedles(m: Machine): (n: u8)
    ensures n == if m.machineType == Kh270 then 112 else 200
  {
    match m.machineType
    case Kh270 => 112
    case _ => 200
  }

  /** Solenoids per bank: 12 on the KH270, 16 on every other type. */
  function BankSize(m: Machine): (n: u8)
    ensures n == 12 || n == 16
  {
    if m.machineType == Kh270 then 12 else 16
  }

  /**
   `getSensorConfig`: the sensor for the given side. Both sides return a
   pointer to a static object, so the returned value is the object's new
   contents; a second call for the same side overwrites the first.
   */
  function SensorConfig(m: Machine, direction: Direction): (c: LibHallSensor.Config)
    ensures direction == Left ==> c.position == 0
    ensures direction != Left ==> c.position == NumberOfNeedles(m) - 1
    ensures m.machineType == Kh910 && direction == Right ==> c.thresholdLow == 100 && c.thresholdHigh == 1024
    ensures !(m.machineType == Kh910 && direction == Right) ==> c.thresholdLow == 200 && c.thresholdHigh == 600
    ensures c.thresholdLow < c.thresholdHigh
  {
    var position: u8 := if direction == Left then 0 else ToU8(NumberOfNeedles(m) - 1);
    if m.machineType == Kh910 && direction == Right then LibHallSensor.Config(position, 100, 1024)
    else LibHallSensor.Config(position, 200, 600)
  }

  /** `solenoidToSet`: the needle's place in the solenoid bank. */
  function SolenoidToSet(m: Machine, needle: u8): (s: u8)
    ensures s < BankSize(m) && (needle - s) % BankSize(m) == 0
  {
    needle % BankSize(m)
  }

  /** `solenoidShift`: move to the other half of the bank. */
  function SolenoidShift(m: Machine, solenoid: u8): (s: u8)
    ensures s < BankSize(m)
    ensures (s - solenoid - BankSize(m) / 2) % BankSize(m) == 0
  {
    (solenoid + BankSize(m) / 2) % BankSize(m)
  }

  /** Shifting twice returns any solenoid of the bank to itself. */
  lemma ShiftTwiceRestores(m: Machine, solenoid: u8)
    requires solenoid < BankSize(m)
    ensures SolenoidShift(m, SolenoidShift(m, solenoid)) == solenoid
  {
  }

  /** The selected solenoid always has a driver output: every bank fits in the 16-bit solenoid word. */
  lemma SolenoidFitsWord(m: Machine, needle: u8, shifted: bool)
    ensures var s := SolenoidToSet(m, needle); (if shifted then SolenoidShift(m, s) else s) < 16
  {
  }
}

=== FILE: lib_solenoids.dfy ===
/**
 The solenoid driver of the `lib/components` rewrite
 (`lib/components/solenoids/solenoids.cpp`): a 16-bit state word, reset to
 all ones, pushed byte by byte to up to two expanders after every change.
 An expander given as a null pointer is skipped; `Expanders` says which
 are present.
 */
module LibSolenoids {
  import opened Bytes
  import opened AyabTypes

  const ResetState: bv16 := 0xFFFF

  datatype Expanders = Expanders(low: bool, high: bool)

  /** `_updateDevices`: the low byte to expander 0 and the high byte to expander 1, when present. */
  function UpdateDevices(x: Expanders, states: bv16): (r: seq<Event>)
    ensures x.low && x.high ==> r == WriteWord(states)
    ensures !x.low ==> forall k :: 0 <= k < |r| ==> r[k] == ExpanderWrite(HighBank, HighByte(states))
    ensures !x.high ==> forall k :: 0 <= k < |r| ==> r[k] == ExpanderWrite(LowBank, LowByte(states))
  {
    (if x.low then [ExpanderWrite(LowBank, LowByte(states))] else [])
    + (if x.high then [ExpanderWrite(HighBank, HighByte(states))] else [])
  }

  /** `set(states)`: replace every bit. */
  function SetAll(x: Expanders, states: bv16): (r: (bv16, seq<Event>))
    ensures r.0 == states && r.1 == UpdateDevices(x, states)
  {
    (states, UpdateDevices(x, states))
  }

  /** `reset()` and the constructor: every bit set. */
  function Reset(x: Expanders): (r: (bv16, seq<Event>))
    ensures r.0 == ResetState && r.1 == UpdateDevices(x, ResetState)
  {
    SetAll(x, ResetState)
  }

  /** `set(solenoid, state)`: one bit; the shift is undefined from 16 on, so only 0-15 are modelled. */
  function Set(x: Expanders, s: bv16, i: u8, on: bool): (r: (bv16, seq<Event>))
    requires i < 16
    ensures IsSet(r.0, Byte(i)) == on
    ensures forall j: bv8 :: j < 16 && j != Byte(i) ==> IsSet(r.0, j) == IsSet(s, j)
    ensures r.1 == UpdateDevices(x, r.0)
  {
    SetBitEffect(s, Byte(i), on);
    var s' := SetBit(s, Byte(i), on);
    (s', UpdateDevices(x, s'))
  }

  /** `reset(solenoid)`: that one bit back to its reset value, 1. */
  function ResetOne(x: Expanders, s: bv16, i: u8): (r: (bv16, seq<Event>))
    requires i < 16
    ensures IsSet(r.0, Byte(i))
    ensures forall j: bv8 :: j < 16 && j != Byte(i) ==> IsSet(r.0, j) == IsSet(s, j)
  {
    Set(x, s, i, true)
  }

  /** With both expanders present, they hold the state word after every mutation, whatever they held before. */
  lemma ExpandersFollowState(hw: bv16, s: bv16, i: u8, on: bool, states: bv16)
    requires i < 16
    ensures var x := Expanders(true, true);
      && Latch(hw, Set(x, s, i, on).1) == Set(x, s, i, on).0
      && Latch(hw, SetAll(x, states).1) == states
      && Latch(hw, Reset(x).1) == ResetState
  {
    var x := Expanders(true, true);
    LatchWriteWord(hw, Set(x, s, i, on).0);
    LatchWriteWord(hw, states);
    LatchWriteWord(hw, ResetState);
  }

  /** Resetting one solenoid after setting it the other way restores the word, if that bit was set. */
  lemma ResetUndoesClear(x: Expanders, s: bv16, i: u8)
    requires i < 16 && IsSet(s, Byte(i))
    ensures ResetOne(x, Set(x, s, i, false).0, i).0 == s
  {
    var b := Byte(i);
    SetBitRestore(s, b);
    var t := Set(x, s, i, false).0;
    assert t == SetBit(s, b, false);
    assert ResetOne(x, t, i).0 == SetBit(t, b, true);
  }
}

=== FILE: lib_types.dfy ===
/**
 Enumerations of the `lib/components` rewrite (`lib/api/api.h`). The
 carriage type also has `Knit270`, which `carriage.cpp` uses although the
 header's enumeration does not list it; the header's `Gartner` is the
 `Garter` of `carriage.cpp`. The machine side, used by `line.cpp` and
 `carriage.cpp`, is declared in no header of the rewrite; its members are
 the ones the `.cpp` files use.
 */
module LibTypes {
  datatype MachineType = Kh910 | Kh930 | Kh270 | NoMachine
  datatype CarriageType = NoCarriage | Knit | Lace | Gartner | Knit270
  datatype BeltShift = Unknown | Regular | Shifted
  datatype Direction = Unknown | Left | Right
  datatype MachineSide = NoSide | LeftSide | RightSide
}

=== FILE: line_flow.dfy ===
/**
 How a line the host sends reaches the solenoids in both generations of
 `src/ayab`: the protocol layer writes the complemented pattern into its
 static line buffer, and the knitter, which was handed a pointer to that
 buffer when the job started, reads the buffer at its next step.
 */
module LineFlow {
  import opened Bytes
  import opened AyabTypes
  import Com
  import OpKnit
  import SerialEncoding
  import Knitter

  /**
   A requested line that the host confirms is accepted, and at the next
   knitting step the solenoid of a placed pixel gets that pixel's bit of the
   line as the protocol layer stored it (the complement of the host's byte).
   */
  lemma ConfirmedLineIsKnitted(crcOn: bool, line: bv8, pattern: seq<bv8>, last: bool, lineBuffer: seq<bv8>,
                               ans: Com.Answers, g: Geometry, m: MachineType, rd: Readings, k: OpKnit.Job, stray: bool)
    requires Com.ValidBuffers(lineBuffer, |pattern|) && ValidGeometry(g)
    requires k.lineBuffer == HostLineBuffer && k.lineRequested && k.currentLineNumber == Val(line)
    requires !k.firstRun && rd.position != k.oldPosition
    requires var p := OpKnit.CalculatePixelAndSolenoid(g, m, rd, k.pixel, k.solenoid); p.ok && p.pixel / 8 < |pattern|
    ensures var e := Com.OnPacketReceived(crcOn, Com.EncodeCnfLine(line, pattern, last), lineBuffer, |pattern|, ans);
      var a := OpKnit.SetNextLine(k, Val(e.calls[0].line));
      var r := OpKnit.DoKnitting(g, m, rd, a.1, e.lineBuffer, stray);
      var p := OpKnit.CalculatePixelAndSolenoid(g, m, rd, k.pixel, k.solenoid);
      && a.0
      && SetSolenoid(p.solenoid, BitRead(!pattern[p.pixel / 8], p.pixel % 8)) in r.1
  {
    var e := Com.OnPacketReceived(crcOn, Com.EncodeCnfLine(line, pattern, last), lineBuffer, |pattern|, ans);
    Com.CnfLineRoundTrip(crcOn, line, pattern, last, lineBuffer, ans);
    var p := OpKnit.CalculatePixelAndSolenoid(g, m, rd, k.pixel, k.solenoid);
    assert e.lineBuffer[p.pixel / 8] == !pattern[p.pixel / 8];
    AcceptedThenKnitted(g, m, rd, k, Val(line), e.lineBuffer, stray);
  }

  /** Accepting the requested line changes nothing the next step reads, so that step knits from the live buffer. */
  lemma AcceptedThenKnitted(g: Geometry, m: MachineType, rd: Readings, k: OpKnit.Job, line: u8,
                            lineBuffer: seq<bv8>, stray: bool)
    requires ValidGeometry(g) && k.lineBuffer == HostLineBuffer && k.lineRequested && k.currentLineNumber == line
    requires !k.firstRun && rd.position != k.oldPosition
    requires var p := OpKnit.CalculatePixelAndSolenoid(g, m, rd, k.pixel, k.solenoid); p.ok && p.pixel / 8 < |lineBuffer|
    ensures var a := OpKnit.SetNextLine(k, line);
      var p := OpKnit.CalculatePixelAndSolenoid(g, m, rd, k.pixel, k.solenoid);
      && a.0
      && SetSolenoid(p.solenoid, BitRead(lineBuffer[p.pixel / 8], p.pixel % 8)) in OpKnit.DoKnitting(g, m, rd, a.1, lineBuffer, stray).1
  {
    var a := OpKnit.SetNextLine(k, line);
    assert a.1 == k.(lineRequested := false);
    OpKnit.KnitsLiveBuffer(g, m, rd, a.1, lineBuffer, stray);
  }

  /**
   The older layer: a requested line that the host confirms is accepted,
   and at the next step the solenoid of a pixel placed inside the window
   gets that pixel's bit of the line as the serial layer stored it.
   */
  lemma ConfirmedLineIsKnittedOlder(crcOn: bool, line: bv8, pattern: seq<bv8>, last: bool, lineBuffer: seq<bv8>,
                                    ans: SerialEncoding.Answers, endRight: u8, rd: Readings, s: Knitter.Sensors,
                                    k: Knitter.State, stray: bool)
    requires |pattern| == SerialEncoding.LineBufferLen
    requires k.lineBuffer == HostLineBuffer && k.lineRequested && k.currentLineNumber == Val(line)
    requires !k.firstRun && rd.position != k.oldPosition
    requires var p := Knitter.CalculatePixelAndSolenoid(endRight, rd, k.pixel, k.solenoid);
      p.ok && Knitter.InWindow(k, p.pixel) && p.pixel / 8 < |pattern|
    ensures var e := SerialEncoding.OnPacketReceived(crcOn, SerialEncoding.EncodeCnfLine(line, pattern, last), lineBuffer, ans);
      var a := Knitter.SetNextLine(k, Val(e.calls[0].line));
      var r := Knitter.StateOperate(endRight, rd, s, a.1, e.lineBuffer, stray);
      var p := Knitter.CalculatePixelAndSolenoid(endRight, rd, k.pixel, k.solenoid);
      && a.0
      && SetSolenoid(p.solenoid, BitRead(!pattern[p.pixel / 8], p.pixel % 8)) in r.1
  {
    var e := SerialEncoding.OnPacketReceived(crcOn, SerialEncoding.EncodeCnfLine(line, pattern, last), lineBuffer, ans);
    SerialEncoding.CnfLineRoundTrip(crcOn, line, pattern, last, lineBuffer, ans);
    var p := Knitter.CalculatePixelAndSolenoid(endRight, rd, k.pixel, k.solenoid);
    assert |e.lineBuffer| == SerialEncoding.LineBufferLen;
    assert e.lineBuffer[p.pixel / 8] == !pattern[p.pixel / 8];
    AcceptedThenKnittedOlder(endRight, rd, s, k, Val(line), e.lineBuffer, stray);
  }

  /** The older layer's acceptance likewise leaves the next step to knit from the live buffer. */
  lemma AcceptedThenKnittedOlder(endRight: u8, rd: Readings, s: Knitter.Sensors, k: Knitter.State, line: u8,
                                 lineBuffer: seq<bv8>, stray: bool)
    requires k.lineBuffer == HostLineBuffer && k.lineRequested && k.currentLineNumber == line
    requires !k.firstRun && rd.position != k.oldPosition
    requires var p := Knitter.CalculatePixelAndSolenoid(endRight, rd, k.pixel, k.solenoid);
      p.ok && Knitter.InWindow(k, p.pixel) && p.pixel / 8 < |lineBuffer|
    ensures var a := Knitter.SetNextLine(k, line);
      var p := Knitter.CalculatePixelAndSolenoid(endRight, rd, k.pixel, k.solenoid);
      && a.0
      && SetSolenoid(p.solenoid, BitRead(lineBuffer[p.pixel / 8], p.pixel % 8)) in Knitter.StateOperate(endRight, rd, s, a.1, lineBuffer, stray).1
  {
    var a := Knitter.SetNextLine(k, line);
    assert a.1 == k.(lineRequested := false);
    Knitter.KnitsLiveBuffer(endRight, rd, s, a.1, lineBuffer, stray);
  }
}

=== FILE: machine.dfy ===
/**
 The machine description of `src/ayab` (`src/ayab/machine.cpp` and the
 start-offset table of `src/ayab/machine.h`).
 */
module Machine {
  import opened Bytes
  import opened AyabTypes

  /** The machine type; a new description has none. */
  datatype Machine = Machine(machineType: MachineType)

  function New(): (mc: Machine)
    ensures mc.machineType == NoMachine
  {
    Machine(NoMachine)
  }

  function SetMachineType(mc: Machine, m: MachineType): (mc': Machine)
    ensures mc'.machineType == m
  {
    Machine(m)
  }

  function GetMachineType(mc: Machine): MachineType { mc.machineType }

  /** 114 needles on the KH270, 200 on every other type, including none. */
  function NumNeedles(mc: Machine): (n: u8)
    ensures n == (if mc.machineType == Kh270 then 114 else 200)
  {
    if mc.machineType == Kh270 then 114 else 200
  }

  /** One bit per needle: 15 bytes on the KH270, 25 otherwise. */
  function LenLineBuffer(mc: Machine): (n: u8)
    ensures n == (if mc.machineType == Kh270 then 15 else 25)
  {
    if mc.machineType == Kh270 then 15 else 25
  }

  function EndOfLineOffsetL(mc: Machine): (n: u8)
    ensures n == 12
  {
    12
  }

  function EndOfLineOffsetR(mc: Machine): (n: u8)
    ensures n == 12
  {
    12
  }

  /** The table `m_startOffsetLUT`, indexed by direction and carriage. */
  function StartOffsetLUT(direction: Direction, carriage: Carriage): (r: u8)
    ensures direction == NoDirection || carriage == NoCarriage ==> r == 0
    ensures direction == Left && carriage in {Knit, Lace} ==> r == 40
    ensures direction == Left && carriage == Garter ==> r == 8
    ensures direction == Right && carriage in {Knit, Lace} ==> r == 16
    ensures direction == Right && carriage == Garter ==> r == 32
  {
    match direction
    case NoDirection => 0
    case Left => (match carriage case NoCarriage => 0 case Knit => 40 case Lace => 40 case Garter => 8)
    case Right => (match carriage case NoCarriage => 0 case Knit => 16 case Lace => 16 case Garter => 32)
  }

  /** Setting a type and reading it back gives that type. */
  lemma MachineTypeRoundTrip(mc: Machine, m: MachineType)
    ensures GetMachineType(SetMachineType(mc, m)) == m
    ensures GetMachineType(New()) == NoMachine
  {
  }

  /** The line buffer always holds one bit for each needle of the machine. */
  lemma LineBufferCoversNeedles(mc: Machine)
    ensures LenLineBuffer(mc) * 8 >= NumNeedles(mc)
    ensures (LenLineBuffer(mc) - 1) * 8 < NumNeedles(mc)
  {
  }

  /** Going left the carriage needs the larger offset, except for the garter carriage, where it is the other way round. */
  lemma OffsetsMirror(carriage: Carriage)
    requires carriage != NoCarriage
    ensures carriage == Garter <==> StartOffsetLUT(Left, carriage) < StartOffsetLUT(Right, carriage)
  {
  }
}

=== FILE: op_error.dfy ===
/**
 The error state of the Op-state design (`src/ayab/opError.cpp`): it
 flashes the two LEDs in opposite phases and reports the error every 500 ms
 of the 32-bit millisecond clock, whose reading is an input.
 */
module OpError {
  import opened Bytes
  import opened AyabTypes
  import OpFsm

  const FlashDelay: u32 := 500

  datatype ErrorState = ErrorState(flash: bool, flashTime: u32, error: bv8)

  /** `begin`: LED phase off, flash timer started now, error cleared, success. */
  function Begin(s: ErrorState, now: u32): (r: (ErrorState, bv8))
    ensures r.0 == ErrorState(false, now, Success) && r.1 == Success
  {
    (ErrorState(false, now, Success), Success)
  }

  /** `update`: once 500 ms have elapsed, flash both LEDs, toggle the phase, restart the timer and report. */
  function Update(s: ErrorState, now: u32): (r: (ErrorState, seq<Event>))
    ensures Elapsed(now, s.flashTime) < FlashDelay <==> r == (s, [])
    ensures Elapsed(now, s.flashTime) >= FlashDelay ==>
      && r.0 == ErrorState(!s.flash, now, s.error)
      && r.1 == [Led(LedA, s.flash), Led(LedB, !s.flash), IndState(s.error)]
  {
    if Elapsed(now, s.flashTime) >= FlashDelay then
      (ErrorState(!s.flash, now, s.error), [Led(LedA, s.flash), Led(LedB, !s.flash), IndState(s.error)])
    else (s, [])
  }

  /** `end` turns both LEDs off and re-initialises the knitting state. */
  function End(): (r: seq<Event>)
    ensures r == [Led(LedA, false), Led(LedB, false), Action(OpKnitInit)]
  {
    [Led(LedA, false), Led(LedB, false), Action(OpKnitInit)]
  }

  /**
   The error state flashes exactly like the error handler of the older
   enumerated state machine whenever that one is not leaving the state.
   */
  lemma SameFlashAsOpFsm(s: ErrorState, o: OpFsm.Op, now: u32)
    requires o.flash == s.flash && o.flashTime == s.flashTime && o.error == s.error && o.next != OpFsm.Init
    ensures var r := OpFsm.StateError(o, now);
      r.1 == Update(s, now).1 && r.0.flash == Update(s, now).0.flash && r.0.flashTime == Update(s, now).0.flashTime
  {
  }

  /** A run of updates, flashing whenever the delay has elapsed. */
  function Run(s: ErrorState, times: seq<u32>): (r: (ErrorState, seq<Event>))
    decreases |times|
  {
    if times == [] then (s, [])
    else
      var u := Update(s, times[0]);
      var rest := Run(u.0, times[1..]);
      (rest.0, u.1 + rest.1)
  }

  /** Every flash reports the error; the error is never changed by flashing. */
  lemma {:induction false} RunKeepsError(s: ErrorState, times: seq<u32>)
    ensures Run(s, times).0.error == s.error
    ensures forall e | e in Run(s, times).1 :: e.IndState? ==> e.error == s.error
    decreases |times|
  {
    if times != [] {
      var u := Update(s, times[0]);
      RunKeepsError(u.0, times[1..]);
    }
  }

  /** Within 500 ms of `begin`, nothing is flashed or reported. */
  lemma QuietAfterBegin(s: ErrorState, t0: u32, now: u32)
    requires Elapsed(now, t0) < FlashDelay
    ensures Update(Begin(s, t0).0, now).1 == []
  {
  }
}

=== FILE: op_fsm.dfy ===
/**
 The enumerated state machine of the older `src/ayab` layer
 (`src/ayab/op.cpp`). Unlike the controller, `update` dispatches on the
 current state and then always copies the next state over the current one.
 The knitter's `isReady` answer and the clock are inputs.
 */
module OpFsm {
  import opened Bytes
  import opened AyabTypes

  /** `OpState` of `src/ayab/op.h`; `Invalid` stands for any other stored byte. */
  datatype OpState = WaitForMachine | Init | Ready | Knit | Test | Error | Invalid(code: u8)

  const FlashDelay: u32 := 500

  datatype Op = Op(cache: Readings, current: OpState, next: OpState, flash: bool, flashTime: u32, error: bv8)

  /** `init`: waiting for a machine, LED phase off, flash timer started now, no error. */
  function Start(o: Op, now: u32): (o': Op)
    ensures o'.current == WaitForMachine && o'.next == WaitForMachine
    ensures !o'.flash && o'.flashTime == now && o'.error == Success
    ensures o'.cache == o.cache
  {
    o.(current := WaitForMachine, next := WaitForMachine, flash := false, flashTime := now, error := Success)
  }

  function SetState(o: Op, s: OpState): (o': Op)
    ensures o'.next == s && o' == o.(next := s)
  {
    o.(next := s)
  }

  function GetState(o: Op): OpState { o.current }

  /** The handler of the error state: leave quietly, or flash and report every 500 ms. */
  function StateError(o: Op, now: u32): (r: (Op, seq<Event>))
    ensures o.next == Init ==> r == (o, [Led(LedA, false), Led(LedB, false), Action(KnitterInit)])
    ensures o.next != Init && Elapsed(now, o.flashTime) < FlashDelay ==> r == (o, [])
    ensures o.next != Init && Elapsed(now, o.flashTime) >= FlashDelay ==>
      && r.0 == o.(flash := !o.flash, flashTime := now)
      && r.1 == [Led(LedA, o.flash), Led(LedB, !o.flash), IndState(o.error)]
  {
    if o.next == Init then (o, [Led(LedA, false), Led(LedB, false), Action(KnitterInit)])
    else if Elapsed(now, o.flashTime) >= FlashDelay then
      (o.(flash := !o.flash, flashTime := now), [Led(LedA, o.flash), Led(LedB, !o.flash), IndState(o.error)])
    else (o, [])
  }

  /** The state handlers; only `init` and `error` change anything but the LEDs. */
  function Dispatch(o: Op, now: u32, knitterReady: bool): (r: (Op, seq<Event>))
  {
    match o.current
    case WaitForMachine => (o, [Led(LedA, false)])
    case Init => (if knitterReady then SetState(o, Ready) else o, [Led(LedA, false)])
    case Ready => (o, [Led(LedA, false)])
    case Knit => (o, [Led(LedA, true), Action(KnitterKnit)])
    case Test => (o, [])
    case Error => StateError(o, now)
    case Invalid(_) => (o, [])
  }

  /** `update`: cache the encoders, run the handler of the current state, then commit the next state. */
  function Update(o: Op, readings: Readings, now: u32, knitterReady: bool): (r: (Op, seq<Event>))
    ensures r.0.cache == readings && r.0.current == r.0.next && r.0.error == o.error
    ensures o.current == Init && knitterReady ==> r.0.current == Ready
    ensures !(o.current == Init && knitterReady) ==> r.0.current == o.next
  {
    var d := Dispatch(o.(cache := readings), now, knitterReady);
    (d.0.(current := d.0.next), d.1)
  }

  /** Only the `init` handler requests a state: every other state moves to whatever was already requested. */
  lemma OnlyInitRequestsReady(o: Op, readings: Readings, now: u32, knitterReady: bool)
    requires o.current != Init
    ensures Update(o, readings, now, knitterReady).0.current == o.next
  {
  }

  /** In `init`, the machine goes to `ready` exactly when the knitter reports ready, otherwise to the pending state. */
  lemma InitGoesReadyIff(o: Op, readings: Readings, now: u32, knitterReady: bool)
    requires o.current == Init && o.next == Init
    ensures Update(o, readings, now, knitterReady).0.current == Ready <==> knitterReady
  {
  }

  /** An unknown state value makes no output but still commits the pending state. */
  lemma InvalidStateOnlyCommits(o: Op, code: u8, readings: Readings, now: u32, knitterReady: bool)
    requires o.current == Invalid(code)
    ensures Update(o, readings, now, knitterReady) == (o.(cache := readings, current := o.next), [])
  {
  }

  /**
   The flash period is measured in 32-bit unsigned time, so a clock that
   wrapped past zero since the last flash still flashes: 256 ms before the
   wrap to 256 ms after it is 512 ms.
   */
  lemma FlashAcrossClockWrap(o: Op)
    requires o.current == Error && o.next == Error && o.flashTime == 0xFFFF_FF00
    ensures Update(o, o.cache, 0x100, false).1 == [Led(LedA, o.flash), Led(LedB, !o.flash), IndState(o.error)]
  {
    assert Elapsed(0x100, 0xFFFF_FF00) == 0x200;
  }

  /** Two flashes in a row light the green LED in opposite phases, and the yellow LED is always its opposite. */
  lemma FlashAlternates(o: Op, t1: u32, t2: u32)
    requires o.current == Error && o.next == Error
    requires Elapsed(t1, o.flashTime) >= FlashDelay
    ensures var r1 := Update(o, o.cache, t1, false);
      && r1.0.flashTime == t1
      && (Elapsed(t2, t1) >= FlashDelay ==>
            var r2 := Update(r1.0, o.cache, t2, false);
            r1.1[0] == Led(LedA, o.flash) && r2.1[0] == Led(LedA, !o.flash) && r2.1[1] == Led(LedB, o.flash))
  {
  }
}

=== FILE: op_idle.dfy ===
/**
 The idle state of the Op-state design (`src/ayab/opIdle.cpp`): it waits
 for the host's init request and ignores everything else. The request id
 comes from a message-id enumeration that is not part of this model, so it
 is a parameter.
 */
module OpIdle {
  import opened Bytes
  import opened AyabTypes

  /** `begin` turns the green LED off and succeeds. */
  function Begin(): (r: (bv8, seq<Event>))
    ensures r.0 == Success && r.1 == [Led(LedA, false)]
  {
    (Success, [Led(LedA, false)])
  }

  /** `com`: only the init request is passed on, whole, to its handler. */
  function Com(reqInit: bv8, packet: seq<bv8>): (r: seq<Event>)
    requires |packet| >= 1
    ensures |r| <= 1
    ensures r != [] <==> packet[0] == reqInit
    ensures forall e | e in r :: e == Forward(HReqInit, packet)
  {
    if packet[0] == reqInit then [Forward(HReqInit, packet)] else []
  }

  /** Whatever the host sends while idle, no handler other than the init handler is reached. */
  lemma IdleIgnoresOtherMessages(reqInit: bv8, packets: seq<seq<bv8>>)
    requires forall i :: 0 <= i < |packets| ==> |packets[i]| >= 1 && packets[i][0] != reqInit
    ensures forall i :: 0 <= i < |packets| ==> Com(reqInit, packets[i]) == []
  {
  }
}

=== FILE: op_init.dfy ===
/**
 The init state of the Op-state design (`src/ayab/opInit.cpp`): it watches
 the cached encoder readings until the carriage has passed a hall sensor
 far enough, then sets all solenoids, reports success and requests the
 ready state. The debug-button variant compiled with `DBG_NOMACHINE` is not
 part of this model.
 */
module OpInit {
  import opened Bytes
  import opened AyabTypes

  /** The last hall sensor seen; kept across updates. */
  datatype InitState = InitState(lastHall: Direction)

  function State(): OpId { AyabTypes.OpInit }

  /** `init` forgets the last hall sensor. */
  function Init(): (s: InitState)
    ensures s.lastHall == NoDirection
  {
    InitState(NoDirection)
  }

  /** `begin` sets up the encoders for the machine, arms the interrupt and turns the green LED off. */
  function Begin(): (r: seq<Event>)
    ensures r == [Action(EncodersInit), Action(SetUpInterrupt), Led(LedA, false)]
  {
    [Action(EncodersInit), Action(SetUpInterrupt), Led(LedA, false)]
  }

  /** The carriage moves right after the left sensor and is past the garter slop. */
  predicate PassedLeft(g: Geometry, m: MachineType, direction: Direction, lastHall: Direction, position: u8) {
    direction == Right && lastHall == Left && position > g.endLeftPlusOffset(m) + g.garterSlop
  }

  /** The carriage moves left after the right sensor and is past the garter slop (compared as `int`, so it may be negative). */
  predicate PassedRight(g: Geometry, m: MachineType, direction: Direction, lastHall: Direction, position: u8) {
    direction == Left && lastHall == Right && position < g.endRightMinusOffset(m) - g.garterSlop
  }

  /** The hall sensor to remember after a reading: a reading with no sensor keeps the old one. */
  function Remember(lastHall: Direction, hallActive: Direction): (h: Direction)
    ensures hallActive != NoDirection ==> h == hallActive
    ensures hallActive == NoDirection ==> h == lastHall
  {
    if hallActive != NoDirection then hallActive else lastHall
  }

  datatype Outcome = Outcome(state: InitState, events: seq<Event>, request: Option<OpId>)

  /** `update` with the controller's cached readings. */
  function Update(g: Geometry, m: MachineType, s: InitState, r: Readings): (o: Outcome)
    ensures o.state.lastHall == Remember(s.lastHall, r.hallActive)
    ensures o.request.Some? <==>
      PassedLeft(g, m, r.direction, o.state.lastHall, r.position) || PassedRight(g, m, r.direction, o.state.lastHall, r.position)
    ensures o.request.Some? ==> o.request.value == OpReady && o.events == [SetSolenoids(g.solenoidsBitmask), IndState(Success)]
    ensures o.request.None? ==> o.events == []
  {
    var s' := InitState(Remember(s.lastHall, r.hallActive));
    if PassedLeft(g, m, r.direction, s'.lastHall, r.position) || PassedRight(g, m, r.direction, s'.lastHall, r.position) then
      Outcome(s', [SetSolenoids(g.solenoidsBitmask), IndState(Success)], Some(OpReady))
    else Outcome(s', [], None)
  }

  /** Updates over a run of readings, stopping at the first that requests the ready state. */
  function Run(g: Geometry, m: MachineType, s: InitState, rs: seq<Readings>): (o: Outcome)
    decreases |rs|
  {
    if rs == [] then Outcome(s, [], None)
    else
      var o := Update(g, m, s, rs[0]);
      if o.request.Some? then o else Run(g, m, o.state, rs[1..])
  }

  /** The last hall sensor reported in a run of readings, or `h` if none was. */
  function LastSeen(h: Direction, rs: seq<Readings>): Direction
    decreases |rs|
  {
    if rs == [] then h else LastSeen(Remember(h, rs[0].hallActive), rs[1..])
  }

  /**
   The garter carriage passes the sensor with two magnets, so the decision
   may come after the sensor has gone quiet: over a run that does not reach
   ready, the remembered sensor is the last one any reading reported.
   */
  lemma {:induction false} LastHallIsSticky(g: Geometry, m: MachineType, s: InitState, rs: seq<Readings>)
    requires Run(g, m, s, rs).request.None?
    ensures Run(g, m, s, rs).state.lastHall == LastSeen(s.lastHall, rs)
    ensures Run(g, m, s, rs).events == []
    decreases |rs|
  {
    if rs != [] {
      var o := Update(g, m, s, rs[0]);
      LastHallIsSticky(g, m, o.state, rs[1..]);
    }
  }

  /**
   Seeing the left sensor and then moving right past the slop with no
   sensor active reaches ready, as in a garter pass.
   */
  lemma GarterPassReachesReady(g: Geometry, m: MachineType, s: InitState, atSensor: Readings, beyond: Readings)
    requires atSensor.hallActive == Left && atSensor.direction == NoDirection
    requires beyond.hallActive == NoDirection && beyond.direction == Right
    requires beyond.position > g.endLeftPlusOffset(m) + g.garterSlop
    ensures Run(g, m, s, [atSensor, beyond]).request == Some(OpReady)
  {
    assert [atSensor, beyond][1..] == [beyond];
    assert [beyond][1..] == [];
  }
}

=== FILE: op_knit.dfy ===
/**
 The knitting state of the Op-state design (`src/ayab/opKnit.cpp`): job
 set-up, the line request handshake with the host, and the choice of pixel
 and solenoid from the carriage position.

 Every arithmetic result the source stores in a `uint8_t` is wrapped with
 `ToU8`; comparisons and `%` happen on promoted `int` values, with C's
 truncating remainder (`CRem`). The machine's per-type constants are a
 `Geometry`, the driver's cached readings a `Readings`, and the pattern
 pointer a `Pointer` to the host line buffer, whose current contents each
 knitting step reads. The debug-button variant
 compiled with `DBG_NOMACHINE` is not part of this model.
 */
module OpKnit {
  import opened Bytes
  import opened AyabTypes
  import OpInit

  datatype Job = Job(
    startNeedle: u8, stopNeedle: u8, lineBuffer: Pointer, continuous: bool,
    lineRequested: bool, currentLineNumber: u8, lastLineFlag: bool,
    oldPosition: u8, firstRun: bool, workedOnLine: bool, lastHall: Direction,
    solenoid: u8, pixel: u8)

  /** `init`: both LEDs on, solenoids initialised, every job field cleared. */
  function Init(k: Job): (r: (Job, seq<Event>))
    ensures r.0.lineBuffer == Null && !r.0.lineRequested && !r.0.lastLineFlag && r.0.firstRun && !r.0.workedOnLine
    ensures r.0.startNeedle == 0 && r.0.stopNeedle == 0 && r.0.currentLineNumber == 0 && r.0.oldPosition == 0
    ensures r.0.lastHall == NoDirection && r.0.pixel == 0 && r.0.solenoid == k.solenoid
    ensures r.1 == [Led(LedA, true), Led(LedB, true), Action(SolenoidsInit)]
  {
    (Job(0, 0, Null, false, false, 0, false, 0, true, false, NoDirection, k.solenoid, 0),
     [Led(LedA, true), Led(LedB, true), Action(SolenoidsInit)])
  }

  /** `begin` refuses to knit without a machine type and otherwise lights the green LED. */
  function Begin(m: MachineType): (r: (bv8, seq<Event>))
    ensures r.0 == ErrNoMachineType <==> m == NoMachine
    ensures r.0 == Success <==> m != NoMachine
    ensures r.1 == (if m == NoMachine then [] else [Led(LedA, true)])
  {
    if m == NoMachine then (ErrNoMachineType, []) else (Success, [Led(LedA, true)])
  }

  /** `com`: a line confirmation goes to its handler, anything else to the "unrecognized" handler. */
  function Com(cnfLine: bv8, packet: seq<bv8>): (r: seq<Event>)
    requires |packet| >= 1
    ensures |r| == 1
    ensures r[0].Forward? && (r[0].handler == HCnfLine <==> packet[0] == cnfLine)
    ensures r[0].handler == HCnfLine ==> r[0].packet == packet
  {
    if packet[0] == cnfLine then [Forward(HCnfLine, packet)] else [Forward(HUnrecognized, [])]
  }

  /** `end`: end-of-work beep, back to ready, all solenoids to the bitmask, line beep. */
  function End(g: Geometry): (r: seq<Event>)
    ensures SetState(OpReady) in r && SetSolenoids(g.solenoidsBitmask) in r
    ensures r[0] == Beep(BeepEndWork) && |r| == 4
  {
    [Beep(BeepEndWork), SetState(OpReady), SetSolenoids(g.solenoidsBitmask), Beep(BeepFinishedLine)]
  }

  /**
   `startKnitting`: the checks come in a fixed order, and a job is recorded
   only when all pass.
   */
  function StartKnitting(g: Geometry, m: MachineType, state: OpId, k: Job,
                         start: u8, stop: u8, pattern: Pointer, continuous: bool): (r: (bv8, Job, seq<Event>))
    ensures state != OpReady ==> r.0 == ErrWrongMachineState
    ensures state == OpReady && pattern == Null ==> r.0 == ErrNullPointerArgument
    ensures state == OpReady && pattern != Null && (start >= stop || stop >= g.numNeedles(m)) ==> r.0 == ErrNeedleValueInvalid
    ensures r.0 != Success ==> r.1 == k && r.2 == []
    ensures r.0 == Success <==> state == OpReady && pattern != Null && start < stop < g.numNeedles(m)
    ensures r.0 == Success ==>
      && r.1 == k.(startNeedle := start, stopNeedle := stop, lineBuffer := pattern, continuous := continuous,
                   currentLineNumber := 0xFF, lineRequested := false, lastLineFlag := false)
      && r.2 == [SetState(OpKnit), Beep(BeepReady)]
  {
    if state != OpReady then (ErrWrongMachineState, k, [])
    else if pattern == Null then (ErrNullPointerArgument, k, [])
    else if start >= stop || stop >= g.numNeedles(m) then (ErrNeedleValueInvalid, k, [])
    else
      (Success,
       k.(startNeedle := start, stopNeedle := stop, lineBuffer := pattern, continuous := continuous,
          currentLineNumber := 0xFF, lineRequested := false, lastLineFlag := false),
       [SetState(OpKnit), Beep(BeepReady)])
  }

  /** `reqLine`: ask the host for a line and remember that one is pending. */
  function RequestLine(k: Job, n: u8): (r: (Job, seq<Event>))
    ensures r.0 == k.(lineRequested := true) && r.1 == [ReqLine(n)]
  {
    (k.(lineRequested := true), [ReqLine(n)])
  }

  /**
   `setNextLine`: a line is accepted only while one is pending and only if
   it is the one requested; a wrong number asks for the right one again.
   */
  function SetNextLine(k: Job, line: u8): (r: (bool, Job, seq<Event>))
    ensures r.0 <==> k.lineRequested && line == k.currentLineNumber
    ensures r.0 ==> r.1 == k.(lineRequested := false) && r.2 == [Beep(BeepFinishedLine)]
    ensures k.lineRequested && line != k.currentLineNumber ==> r.1 == k && r.2 == [ReqLine(k.currentLineNumber)]
    ensures !k.lineRequested ==> r.1 == k && r.2 == []
  {
    if k.lineRequested then
      if line == k.currentLineNumber then (true, k.(lineRequested := false), [Beep(BeepFinishedLine)])
      else var q := RequestLine(k, k.currentLineNumber); (false, q.0, q.1)
    else (false, k, [])
  }

  function SetLastLine(k: Job): (k': Job)
    ensures k'.lastLineFlag && k' == k.(lastLineFlag := true)
  {
    k.(lastLineFlag := true)
  }

  /** `getStartOffset`: the table entry, or 0 when direction, carriage or machine is unknown. */
  function GetStartOffset(g: Geometry, m: MachineType, carriage: Carriage, direction: Direction): (r: u8)
    ensures direction == NoDirection || carriage == NoCarriage || m == NoMachine ==> r == 0
    ensures direction != NoDirection && carriage != NoCarriage && m != NoMachine ==> r == g.startOffset(m, direction, carriage)
  {
    if direction == NoDirection || carriage == NoCarriage || m == NoMachine then 0
    else g.startOffset(m, direction, carriage)
  }

  /** The pixel and solenoid after `calculatePixelAndSolenoid`, and whether it succeeded. */
  datatype Placement = Placement(ok: bool, pixel: u8, solenoid: u8)

  /** The solenoid for a position, before the KH270 shift; `previous` when the belt shift gives none. */
  function SolenoidFor(g: Geometry, m: MachineType, direction: Direction, beltShift: BeltShift, position: u8, previous: u8): u8
    requires ValidGeometry(g) && direction != NoDirection
  {
    var n := g.solenoidsNum(m) as int;
    var half := g.halfSolenoidsNum(m) as int;
    if direction == Right then
      if beltShift == Regular || m == Kh270 then ToU8(position % n)
      else if beltShift == Shifted then ToU8(CRem(position - half, n))
      else previous
    else
      if beltShift == Regular || m == Kh270 then ToU8((position + half) % n)
      else if beltShift == Shifted then ToU8(position % n)
      else previous
  }

  /** The right-moving case: the offset is the one for the left side, and the lace carriage sets pixels half a bank further. */
  function PlaceRight(g: Geometry, m: MachineType, rd: Readings, pixel: u8, solenoid: u8): (p: Placement)
    requires ValidGeometry(g) && rd.direction == Right
    ensures var offset := GetStartOffset(g, m, rd.carriage, Left);
      && (p.ok <==> rd.position >= offset)
      && (p.ok ==> p.pixel == ToU8(rd.position - offset + (if rd.carriage == Lace then g.halfSolenoidsNum(m) else 0)))
  {
    var offset := GetStartOffset(g, m, rd.carriage, Left);
    if rd.position >= offset then
      var px := ToU8(rd.position - offset);
      var px' := if rd.carriage == Lace then ToU8Add(rd.position - offset, g.halfSolenoidsNum(m)); ToU8(px + g.halfSolenoidsNum(m)) else px;
      var sol := SolenoidFor(g, m, Right, rd.beltShift, rd.position, solenoid);
      Placement(true, px', if m == Kh270 then ToU8(sol + 3) else sol)
    else Placement(false, pixel, solenoid)
  }

  /** The left-moving case: the offset is the one for the right side, and the lace carriage sets pixels a bank earlier. */
  function PlaceLeft(g: Geometry, m: MachineType, rd: Readings, pixel: u8, solenoid: u8): (p: Placement)
    requires ValidGeometry(g) && rd.direction == Left
    ensures var offset := GetStartOffset(g, m, rd.carriage, Right);
      && (p.ok <==> rd.position <= g.endRight(m) - offset)
      && (p.ok ==> p.pixel == ToU8(rd.position - offset - (if rd.carriage == Lace then g.solenoidsNum(m) else 0)))
  {
    var offset := GetStartOffset(g, m, rd.carriage, Right);
    if rd.position <= g.endRight(m) - offset then
      var px := ToU8(rd.position - offset);
      var px' := if rd.carriage == Lace then ToU8Add(rd.position - offset, -(g.solenoidsNum(m) as int)); ToU8(px - g.solenoidsNum(m)) else px;
      var sol := SolenoidFor(g, m, Left, rd.beltShift, rd.position, solenoid);
      Placement(true, px', if m == Kh270 then ToU8(sol + 3) else sol)
    else Placement(false, pixel, solenoid)
  }

  /** `calculatePixelAndSolenoid` on the cached readings. */
  function CalculatePixelAndSolenoid(g: Geometry, m: MachineType, rd: Readings, pixel: u8, solenoid: u8): (p: Placement)
    requires ValidGeometry(g)
    ensures rd.direction == NoDirection ==> !p.ok
    ensures rd.direction == Right ==> (p.ok <==> rd.position >= GetStartOffset(g, m, rd.carriage, Left))
    ensures rd.direction == Left ==> (p.ok <==> rd.position <= g.endRight(m) - GetStartOffset(g, m, rd.carriage, Right))
    ensures p.ok && rd.direction == Right ==>
      p.pixel == ToU8(rd.position - GetStartOffset(g, m, rd.carriage, Left) + (if rd.carriage == Lace then g.halfSolenoidsNum(m) else 0))
    ensures p.ok && rd.direction == Left ==>
      p.pixel == ToU8(rd.position - GetStartOffset(g, m, rd.carriage, Right) - (if rd.carriage == Lace then g.solenoidsNum(m) else 0))
    ensures p.ok ==> p.solenoid == ToU8(SolenoidFor(g, m, rd.direction, rd.beltShift, rd.position, solenoid) + (if m == Kh270 then 3 else 0))
    ensures !p.ok ==> p.pixel == pixel && p.solenoid == solenoid
  {
    match rd.direction
    case NoDirection => Placement(false, pixel, solenoid)
    case Right => PlaceRight(g, m, rd, pixel, solenoid)
    case Left => PlaceLeft(g, m, rd, pixel, solenoid)
  }

  /** `isReady` keeps its own last hall sensor and decides exactly like the init state. */
  function IsReady(g: Geometry, m: MachineType, rd: Readings, k: Job): (r: (bool, Job, seq<Event>))
    ensures var o := OpInit.Update(g, m, OpInit.InitState(k.lastHall), rd);
      && r.0 == o.request.Some? && r.1 == k.(lastHall := o.state.lastHall) && r.2 == o.events
  {
    var h := OpInit.Remember(k.lastHall, rd.hallActive);
    if OpInit.PassedLeft(g, m, rd.direction, h, rd.position) || OpInit.PassedRight(g, m, rd.direction, h, rd.position) then
      (true, k.(lastHall := h), [SetSolenoids(g.solenoidsBitmask), IndState(Success)])
    else (false, k.(lastHall := h), [])
  }

  /** `encodePosition`: on a new position, recompute the placement and report. */
  function EncodePosition(g: Geometry, m: MachineType, rd: Readings, k: Job): (r: (Job, seq<Event>))
    requires ValidGeometry(g)
    ensures rd.position == k.oldPosition ==> r == (k, [])
    ensures rd.position != k.oldPosition ==>
      var p := CalculatePixelAndSolenoid(g, m, rd, k.pixel, k.solenoid);
      r == (k.(oldPosition := rd.position, pixel := p.pixel, solenoid := p.solenoid), [IndState(UnspecifiedFailure)])
  {
    if rd.position == k.oldPosition then (k, [])
    else
      var p := CalculatePixelAndSolenoid(g, m, rd, k.pixel, k.solenoid);
      (k.(oldPosition := rd.position, pixel := p.pixel, solenoid := p.solenoid), [IndState(UnspecifiedFailure)])
  }

  /**
   The pattern bit for a pixel: bit `pixel & 7` of byte `pixel >> 3` of the
   buffer the pointer refers to, read as it is now. A byte past the end of
   the host's buffer, or a null pointer, is memory the model does not see;
   its bit is the input `stray`.
   */
  function PixelValue(pattern: Pointer, lineBuffer: seq<bv8>, pixel: u8, stray: bool): bool {
    var i := pixel / 8;
    if pattern == HostLineBuffer && i < |lineBuffer| then BitRead(lineBuffer[i], pixel % 8) else stray
  }

  /** The pixel is left of the line's left end or right of its right end, in `int`. */
  predicate OutsideLine(g: Geometry, m: MachineType, k: Job, pixel: u8) {
    pixel < k.startNeedle - g.endOfLineOffsetL(m) || pixel > k.stopNeedle + g.endOfLineOffsetR(m)
  }

  /** The first update of a job: start delay, line beep, and a request for the first line. */
  function FirstRun(k: Job): (r: (Job, seq<Event>))
    ensures !r.0.firstRun
    ensures k.firstRun ==>
      && r.0.currentLineNumber == ToU8(k.currentLineNumber + 1) && r.0.lineRequested
      && r.1 == [Action(StartDelay), Beep(BeepFinishedLine), ReqLine(ToU8(k.currentLineNumber + 1))]
    ensures !k.firstRun ==> r == (k, [])
  {
    if k.firstRun then
      var n := ToU8(k.currentLineNumber + 1);
      var q := RequestLine(k.(firstRun := false, currentLineNumber := n), n);
      (q.0, [Action(StartDelay), Beep(BeepFinishedLine)] + q.1)
    else (k, [])
  }

  /** What happens after a needle has been set: finish the line when the carriage has left it. */
  function FinishLine(g: Geometry, m: MachineType, k: Job): (r: (Job, seq<Event>))
    ensures !(OutsideLine(g, m, k, k.pixel) && k.workedOnLine) ==> r == (k, [])
    ensures OutsideLine(g, m, k, k.pixel) && k.workedOnLine ==> !r.0.workedOnLine
    ensures OutsideLine(g, m, k, k.pixel) && k.workedOnLine && !k.lineRequested && !k.lastLineFlag ==>
      && r.0 == k.(workedOnLine := false, currentLineNumber := ToU8(k.currentLineNumber + 1), lineRequested := true)
      && r.1 == [ReqLine(ToU8(k.currentLineNumber + 1))]
    ensures OutsideLine(g, m, k, k.pixel) && k.workedOnLine && k.lastLineFlag ==> r == (k.(workedOnLine := false), End(g))
    ensures OutsideLine(g, m, k, k.pixel) && k.workedOnLine && k.lineRequested && !k.lastLineFlag ==> r == (k.(workedOnLine := false), [])
  {
    if OutsideLine(g, m, k, k.pixel) && k.workedOnLine then
      var k1 := k.(workedOnLine := false);
      if !k.lineRequested && !k.lastLineFlag then
        var n := ToU8(k.currentLineNumber + 1);
        RequestLine(k1.(currentLineNumber := n), n)
      else if k.lastLineFlag then (k1, End(g))
      else (k1, [])
    else (k, [])
  }

  /**
   `doKnitting` on the cached readings. `lineBuffer` is the host line buffer
   as the protocol layer has last written it; `stray` is the bit read for a
   pixel past it.
   */
  function DoKnitting(g: Geometry, m: MachineType, rd: Readings, k: Job, lineBuffer: seq<bv8>, stray: bool): (r: (Job, seq<Event>))
    requires ValidGeometry(g)
    ensures !r.0.firstRun
    ensures rd.position == FirstRun(k).0.oldPosition ==> r == FirstRun(k)
    ensures r.0.startNeedle == k.startNeedle && r.0.stopNeedle == k.stopNeedle && r.0.lineBuffer == k.lineBuffer
    ensures r.0.lastLineFlag == k.lastLineFlag
  {
    var f := FirstRun(k);
    var k0 := f.0;
    if rd.position == k0.oldPosition then f
    else
      var k1 := k0.(oldPosition := rd.position);
      var ev1 := f.1 + (if k1.continuous then [IndState(Success)] else []);
      var p := CalculatePixelAndSolenoid(g, m, rd, k1.pixel, k1.solenoid);
      if !p.ok then (k1, ev1)
      else
        var k2 := k1.(pixel := p.pixel, solenoid := p.solenoid,
                      workedOnLine := k1.workedOnLine || (k1.startNeedle <= p.pixel <= k1.stopNeedle));
        var ev2 := ev1 + [SetSolenoid(p.solenoid, PixelValue(k2.lineBuffer, lineBuffer, p.pixel, stray))];
        var e := FinishLine(g, m, k2);
        (e.0, ev2 + e.1)
  }

  /** A line request is never repeated while one is pending: no further `reqLine` until the host answers. */
  lemma {:induction false} NoRequestWhilePending(g: Geometry, m: MachineType, rd: Readings, k: Job, lineBuffer: seq<bv8>, stray: bool)
    requires ValidGeometry(g) && k.lineRequested && !k.firstRun
    ensures forall e | e in DoKnitting(g, m, rd, k, lineBuffer, stray).1 :: !e.ReqLine?
    ensures DoKnitting(g, m, rd, k, lineBuffer, stray).0.lineRequested
  {
    var k1 := k.(oldPosition := rd.position);
    if rd.position != k.oldPosition {
      var p := CalculatePixelAndSolenoid(g, m, rd, k1.pixel, k1.solenoid);
      if p.ok {
        var k2 := k1.(pixel := p.pixel, solenoid := p.solenoid,
                      workedOnLine := k1.workedOnLine || (k1.startNeedle <= p.pixel <= k1.stopNeedle));
        var e := FinishLine(g, m, k2);
        assert forall x | x in End(g) :: !x.ReqLine?;
        assert forall x | x in e.1 :: !x.ReqLine?;
      }
    }
  }

  /**
   Leaving the line window after having worked on the line asks for the next
   line when none is pending and this was not the last line.
   */
  lemma LeavingLineRequestsNext(g: Geometry, m: MachineType, rd: Readings, k: Job, lineBuffer: seq<bv8>, stray: bool)
    requires ValidGeometry(g) && !k.firstRun && rd.position != k.oldPosition
    requires k.workedOnLine && !k.lineRequested && !k.lastLineFlag
    requires var p := CalculatePixelAndSolenoid(g, m, rd, k.pixel, k.solenoid); p.ok && OutsideLine(g, m, k, p.pixel)
    ensures var r := DoKnitting(g, m, rd, k, lineBuffer, stray);
      && r.1 != [] && r.1[|r.1| - 1] == ReqLine(ToU8(k.currentLineNumber + 1))
      && r.0.lineRequested && r.0.currentLineNumber == ToU8(k.currentLineNumber + 1) && !r.0.workedOnLine
  {
  }

  /** Leaving the line window after working on the last line ends the job. */
  lemma LeavingLastLineEnds(g: Geometry, m: MachineType, rd: Readings, k: Job, lineBuffer: seq<bv8>, stray: bool)
    requires ValidGeometry(g) && !k.firstRun && rd.position != k.oldPosition
    requires k.workedOnLine && k.lastLineFlag
    requires var p := CalculatePixelAndSolenoid(g, m, rd, k.pixel, k.solenoid); p.ok && OutsideLine(g, m, k, p.pixel)
    ensures var r := DoKnitting(g, m, rd, k, lineBuffer, stray);
      && |r.1| >= 4 && r.1[|r.1| - 4..] == End(g) && SetState(OpReady) in r.1
  {
  }

  /**
   A step that places a pixel between the start and stop needles marks the
   line as worked on; nothing else about the line handshake changes.
   */
  lemma PlacedInWindowMarksWorked(g: Geometry, m: MachineType, rd: Readings, k: Job, lineBuffer: seq<bv8>, stray: bool)
    requires ValidGeometry(g) && !k.firstRun && rd.position != k.oldPosition
    requires var p := CalculatePixelAndSolenoid(g, m, rd, k.pixel, k.solenoid); p.ok && k.startNeedle <= p.pixel <= k.stopNeedle
    ensures var r := DoKnitting(g, m, rd, k, lineBuffer, stray);
      && r.0.workedOnLine && r.0.lineRequested == k.lineRequested && r.0.currentLineNumber == k.currentLineNumber
  {
  }

  /**
   A step that places no pixel, or places one outside the start and stop
   needles but not yet past the line's end offsets, leaves the worked flag
   as it was.
   */
  lemma PlacedOutsideKeepsFlag(g: Geometry, m: MachineType, rd: Readings, k: Job, lineBuffer: seq<bv8>, stray: bool)
    requires ValidGeometry(g) && !k.firstRun && rd.position != k.oldPosition
    ensures var p := CalculatePixelAndSolenoid(g, m, rd, k.pixel, k.solenoid);
      var r := DoKnitting(g, m, rd, k, lineBuffer, stray);
      (!p.ok || (!(k.startNeedle <= p.pixel <= k.stopNeedle) && !OutsideLine(g, m, k, p.pixel))) ==>
        r.0.workedOnLine == k.workedOnLine
  {
  }

  /**
   The line handshake is reached from knitting: a step that places a pixel
   of the line, followed by a step past the line's end, requests the next
   line when none is pending and this is not the last line.
   */
  lemma KnittedLineIsFollowedByRequest(g: Geometry, m: MachineType, rd1: Readings, rd2: Readings, k: Job,
                                       lineBuffer: seq<bv8>, stray: bool)
    requires ValidGeometry(g) && !k.firstRun && !k.lineRequested && !k.lastLineFlag
    requires rd1.position != k.oldPosition
    requires var p := CalculatePixelAndSolenoid(g, m, rd1, k.pixel, k.solenoid); p.ok && k.startNeedle <= p.pixel <= k.stopNeedle
    requires var k1 := DoKnitting(g, m, rd1, k, lineBuffer, stray).0;
      var p := CalculatePixelAndSolenoid(g, m, rd2, k1.pixel, k1.solenoid);
      rd2.position != k1.oldPosition && p.ok && OutsideLine(g, m, k, p.pixel)
    ensures var k1 := DoKnitting(g, m, rd1, k, lineBuffer, stray).0;
      var r := DoKnitting(g, m, rd2, k1, lineBuffer, stray);
      && r.1 != [] && r.1[|r.1| - 1] == ReqLine(ToU8(k.currentLineNumber + 1))
      && r.0.lineRequested && r.0.currentLineNumber == ToU8(k.currentLineNumber + 1)
  {
    var k1 := DoKnitting(g, m, rd1, k, lineBuffer, stray).0;
    PlacedInWindowMarksWorked(g, m, rd1, k, lineBuffer, stray);
    LeavingLineRequestsNext(g, m, rd2, k1, lineBuffer, stray);
  }

  /**
   The job holds a pointer to the host line buffer, not a copy: a step that
   places a pixel drives its solenoid with that pixel's bit of the buffer as
   it is at this step, whatever the buffer held when the job started.
   */
  lemma KnitsLiveBuffer(g: Geometry, m: MachineType, rd: Readings, k: Job, lineBuffer: seq<bv8>, stray: bool)
    requires ValidGeometry(g) && !k.firstRun && rd.position != k.oldPosition && k.lineBuffer == HostLineBuffer
    requires var p := CalculatePixelAndSolenoid(g, m, rd, k.pixel, k.solenoid); p.ok && p.pixel / 8 < |lineBuffer|
    ensures var p := CalculatePixelAndSolenoid(g, m, rd, k.pixel, k.solenoid);
      var r := DoKnitting(g, m, rd, k, lineBuffer, stray);
      var i := if k.continuous then 1 else 0;
      i < |r.1| && r.1[i] == SetSolenoid(p.solenoid, BitRead(lineBuffer[p.pixel / 8], p.pixel % 8))
  {
  }

  /** The handshake: the line number requested is the one accepted next, and nothing is then pending. */
  lemma RequestThenAccept(k: Job, n: u8)
    ensures var q := RequestLine(k.(currentLineNumber := n), n);
      var a := SetNextLine(q.0, n);
      a.0 && !a.1.lineRequested && a.1.currentLineNumber == n
  {
  }

  /** A start that succeeds leaves the job's first line number one below 0, so the first request is line 0. */
  lemma FirstLineIsZero(g: Geometry, m: MachineType, k: Job, start: u8, stop: u8, continuous: bool)
    requires start < stop < g.numNeedles(m) && k.firstRun
    ensures var s := StartKnitting(g, m, OpReady, k, start, stop, HostLineBuffer, continuous);
      s.0 == Success && FirstRun(s.1).1[2] == ReqLine(0)
  {
  }

  /** The KH910 samples of the firmware's tests: 16 solenoids, half 8, and the start offsets they use. */
  lemma Kh910Samples(g: Geometry, pixel: u8, solenoid: u8)
    requires ValidGeometry(g) && g.solenoidsNum(Kh910) == 16 && g.halfSolenoidsNum(Kh910) == 8
    requires g.startOffset(Kh910, Left, Lace) == 40 && g.startOffset(Kh910, Right, Lace) == 16
    requires g.startOffset(Kh910, Right, Garter) == 56 && g.endRight(Kh910) >= 156
    ensures CalculatePixelAndSolenoid(g, Kh910, Readings(Unknown, Lace, Right, NoDirection, 39), pixel, solenoid).ok == false
    ensures CalculatePixelAndSolenoid(g, Kh910, Readings(Regular, Lace, Right, NoDirection, 100), pixel, solenoid) == Placement(true, 68, 4)
    ensures CalculatePixelAndSolenoid(g, Kh910, Readings(Shifted, Lace, Right, NoDirection, 100), pixel, solenoid) == Placement(true, 68, 12)
    ensures CalculatePixelAndSolenoid(g, Kh910, Readings(Regular, Lace, Left, NoDirection, 100), pixel, solenoid) == Placement(true, 68, 12)
    ensures CalculatePixelAndSolenoid(g, Kh910, Readings(Shifted, Garter, Left, NoDirection, 100), pixel, solenoid) == Placement(true, 44, 4)
    ensures CalculatePixelAndSolenoid(g, Kh910, Readings(Unknown, Garter, Left, NoDirection, 100), pixel, solenoid) == Placement(true, 44, solenoid)
  {
  }

  /** The KH270 samples: 12 solenoids shifted over by 3, and a pixel that wraps below 0 in `uint8_t`. */
  lemma Kh270Samples(g: Geometry, pixel: u8, solenoid: u8)
    requires ValidGeometry(g) && g.solenoidsNum(Kh270) == 12 && g.halfSolenoidsNum(Kh270) == 6
    requires g.startOffset(Kh270, Right, Carriage.Knit) == 16 && g.startOffset(Kh270, Left, Carriage.Knit) == 28 && g.endRight(Kh270) == 140
    ensures CalculatePixelAndSolenoid(g, Kh270, Readings(Unknown, Carriage.Knit, Left, NoDirection, 0), pixel, solenoid) == Placement(true, 240, 9)
    ensures CalculatePixelAndSolenoid(g, Kh270, Readings(Unknown, Carriage.Knit, Right, NoDirection, 140), pixel, solenoid) == Placement(true, 112, 11)
  {
  }

  /**
   Without a carriage the start offset is 0, so a right-moving shifted belt
   at a position below half the solenoids gives a negative C remainder that
   wraps to a solenoid number above 15.
   */
  lemma ShiftedSolenoidWrapsNearZero(g: Geometry, pixel: u8, solenoid: u8)
    requires ValidGeometry(g) && g.solenoidsNum(Kh910) == 16 && g.halfSolenoidsNum(Kh910) == 8
    ensures CalculatePixelAndSolenoid(g, Kh910, Readings(Shifted, NoCarriage, Right, NoDirection, 3), pixel, solenoid) == Placement(true, 3, 251)
  {
    assert CRem(3 - 8, 16) == -5;
  }

  /** A known belt shift away from the wrap-around corner picks a solenoid of the bank. */
  lemma SolenoidForInBank(g: Geometry, m: MachineType, direction: Direction, beltShift: BeltShift, position: u8, previous: u8)
    requires ValidGeometry(g) && m != Kh270 && direction != NoDirection && beltShift != Unknown
    requires direction == Right && beltShift == Shifted ==> position >= g.halfSolenoidsNum(m)
    ensures SolenoidFor(g, m, direction, beltShift, position, previous) < g.solenoidsNum(m)
  {
    var n := g.solenoidsNum(m) as int;
    var half := g.halfSolenoidsNum(m) as int;
    var v := if direction == Right then
               (if beltShift == Regular then position % n else CRem(position - half, n))
             else
               (if beltShift == Regular then (position + half) % n else position % n);
    assert 0 <= v < n;
    ToU8Small(v);
  }

  /** Away from that corner, every solenoid chosen by a known belt shift is a valid solenoid number. */
  lemma SolenoidInBank(g: Geometry, m: MachineType, rd: Readings, pixel: u8, solenoid: u8)
    requires ValidGeometry(g) && m != Kh270 && rd.beltShift != Unknown
    requires rd.direction == Right && rd.beltShift == Shifted ==> rd.position >= g.halfSolenoidsNum(m)
    ensures var p := CalculatePixelAndSolenoid(g, m, rd, pixel, solenoid);
      p.ok ==> p.solenoid < g.solenoidsNum(m)
  {
    if rd.direction != NoDirection {
      var sol := SolenoidFor(g, m, rd.direction, rd.beltShift, rd.position, solenoid);
      SolenoidForInBank(g, m, rd.direction, rd.beltShift, rd.position, solenoid);
      ToU8Small(sol as int);
    }
  }
}

=== FILE: op_ready.dfy ===
/**
 The ready state of the Op-state design (`src/ayab/opReady.cpp`): it takes
 the start and test requests and ignores everything else. The two request
 ids are parameters; they label two `case`s of one `switch`, so they differ.
 */
module OpReady {
  import opened Bytes
  import opened AyabTypes
  import OpIdle

  function State(): OpId { OpReady }

  /** `begin` only turns the green LED off. */
  function Begin(): (r: seq<Event>)
    ensures r == [Led(LedA, false)]
  {
    [Led(LedA, false)]
  }

  /** `com`: a start request goes, with its bytes, to the start handler; a test request to the test handler, which takes no arguments. */
  function Com(reqStart: bv8, reqTest: bv8, packet: seq<bv8>): (r: seq<Event>)
    requires reqStart != reqTest && |packet| >= 1
    ensures packet[0] == reqStart ==> r == [Forward(HReqStart, packet)]
    ensures packet[0] == reqTest ==> r == [Forward(HReqTest, [])]
    ensures packet[0] != reqStart && packet[0] != reqTest ==> r == []
  {
    if packet[0] == reqStart then [Forward(HReqStart, packet)]
    else if packet[0] == reqTest then [Forward(HReqTest, [])]
    else []
  }

  /** Ready and idle accept disjoint requests: a message is never acted on by both. */
  lemma ReadyAndIdleDisjoint(reqInit: bv8, reqStart: bv8, reqTest: bv8, packet: seq<bv8>)
    requires reqStart != reqTest && reqInit != reqStart && reqInit != reqTest && |packet| >= 1
    ensures Com(reqStart, reqTest, packet) == [] || OpIdle.Com(reqInit, packet) == []
  {
  }
}

=== FILE: op_test.dfy ===
/**
 The hardware-test state of the Op-state design (`src/ayab/opTest.cpp`).
 The commands are those of `TestCommands`; the message ids are the `_msgid`
 values of `src/ayab/com.h`, which the file names without that suffix.
 */
module OpTest {
  import opened Bytes
  import opened AyabTypes
  import opened TestCommands
  import Com

  /** The welcome text, the firmware and interface versions, and the command list. */
  function Welcome(title: string): (r: seq<Event>)
    ensures |r| == 4 + |HelpCmd()| && r[0] == TestText(title) && r[4..] == HelpCmd()
  {
    [TestText(title), Reading("Firmware v", Com.FwVersionMaj as int), Reading(".", Com.FwVersionMin as int),
     Reading(" API v", Com.ApiVersion as int)] + HelpCmd()
  }

  /**
   `begin`: request the test state, greet, detach the encoder interrupt,
   attach the beeping `encoderAChange` handler in its place (the firmware
   build; the unit-test build leaves it detached) and start with both
   automatic modes off.
   */
  function Begin(now: u32): (r: (TestState, seq<Event>, bv8))
    ensures r.0 == SetUp(now) && !Enabled(r.0) && r.2 == Success
    ensures |r.1| >= 3 && r.1[0] == SetState(OpTest)
    ensures r.1[|r.1| - 2..] == [Action(DetachInterrupt), Action(AttachEncoderABeep)]
  {
    (SetUp(now), [SetState(OpTest)] + Welcome("AYAB Hardware OpTest, ") + [Action(DetachInterrupt), Action(AttachEncoderABeep)], Success)
  }

  /**
   `update`: only while enabled; it then tracks the position and runs a
   timer event once `TEST_LOOP_DELAY` has elapsed on the 32-bit clock.
   */
  function Update(s: TestState, now: u32, p: Pins): (r: (TestState, seq<Event>))
    ensures !Enabled(s) ==> r == (s, [])
    ensures Enabled(s) && Elapsed(now, s.lastTime) < TestLoopDelay ==> r == (s, [Action(EncodePosition)])
    ensures Enabled(s) && Elapsed(now, s.lastTime) >= TestLoopDelay ==>
      var t := HandleTimerEvent(s.(lastTime := now), p);
      r == (t.0, [Action(EncodePosition)] + t.1)
  {
    if !Enabled(s) then (s, [])
    else if Elapsed(now, s.lastTime) >= TestLoopDelay then
      var t := HandleTimerEvent(s.(lastTime := now), p);
      (t.0, [Action(EncodePosition)] + t.1)
    else (s, [Action(EncodePosition)])
  }

  /** `end`: both automatic modes off, back to init, knitting state re-initialised, encoder interrupt re-armed. */
  function End(s: TestState): (r: (TestState, seq<Event>))
    ensures !Enabled(r.0) && r.0 == StopCmd(s)
    ensures r.1 == [SetState(OpInit), Action(OpKnitInit), Action(SetUpInterrupt)]
  {
    (StopCmd(s), [SetState(OpInit), Action(OpKnitInit), Action(SetUpInterrupt)])
  }

  /** `com`: dispatch on the message id; an unknown id goes to the "unrecognized" handler. */
  function Receive(s: TestState, packet: seq<bv8>, p: Pins): (r: (TestState, seq<Event>))
    requires |packet| >= 1
    ensures packet[0] == Com.QuitCmd ==> r == End(s)
    ensures packet[0] == Com.StopCmd ==> r == (StopCmd(s), [])
    ensures packet[0] == Com.SetSingleCmd ==> r == (s, SetSingleCmd(packet))
    ensures packet[0] == Com.SetAllCmd ==> r == (s, SetAllCmd(packet))
    ensures !Com.IsTesterCommand(packet[0]) ==> r == (s, [Forward(HUnrecognized, [])])
    ensures packet[0] !in {Com.AutoReadCmd, Com.AutoTestCmd, Com.StopCmd, Com.QuitCmd} ==> r.0 == s
  {
    var id := packet[0];
    if id == Com.HelpCmd then (s, HelpCmd())
    else if id == Com.SendCmd then (s, SendCmd([0x31, 0x32, 0x33]))
    else if id == Com.BeepCmd then (s, BeepCmd())
    else if id == Com.SetSingleCmd then (s, SetSingleCmd(packet))
    else if id == Com.SetAllCmd then (s, SetAllCmd(packet))
    else if id == Com.ReadEolSensorsCmd then (s, ReadEolSensorsCmd(p))
    else if id == Com.ReadEncodersCmd then (s, ReadEncodersCmd(p))
    else if id == Com.AutoReadCmd then AutoReadCmd(s)
    else if id == Com.AutoTestCmd then AutoTestCmd(s)
    else if id == Com.StopCmd then (StopCmd(s), [])
    else if id == Com.QuitCmd then End(s)
    else (s, [Forward(HUnrecognized, [])])
  }

  /** After `begin`, updates stay silent until an automatic mode is switched on; they do not even track the position. */
  lemma SilentAfterBegin(t0: u32, now: u32, p: Pins)
    ensures Update(Begin(t0).0, now, p) == (Begin(t0).0, [])
  {
  }

  /** `stop` makes every later update silent, whatever the clock says. */
  lemma StopSilences(s: TestState, now: u32, p: Pins)
    ensures var s' := Receive(s, [Com.StopCmd], p).0; Update(s', now, p) == (s', [])
  {
  }

  /** Switching the automatic test on makes the next update past the delay write a solenoid pattern. */
  lemma AutoTestWrites(s: TestState, now: u32, p: Pins)
    requires Elapsed(now, s.lastTime) >= TestLoopDelay
    ensures var s' := Receive(s, [Com.AutoTestCmd], p).0;
      SetSolenoids(if s.timerEventOdd then 0x5555 else 0xAAAA) in Update(s', now, p).1
  {
  }
}

=== FILE: proto_encoders.dfy ===
/**
 The position encoder of the root-level prototype (`encoders.cpp`): no
 clamping, a wrapping byte position, reset to 0 at the left sensor and to
 201 at the right. The filter thresholds are those of the root
 `settings.h`; the phase-shift enumeration is its `Phaseshift_t`.
 */
module ProtoEncoders {
  import opened Bytes
  import opened AyabTypes

  const FilterLMin: u16 := 10
  const FilterLMax: u16 := 460
  const FilterRMin: u16 := 10
  const FilterRMax: u16 := 460

  datatype Phase = NoPhase | Regular | Goofy

  datatype Encoders = Encoders(direction: Direction, phase: Phase, position: u8)

  /** The constructor: no direction, no phase, position 0xFF. */
  function New(): (e: Encoders)
    ensures e.direction == NoDirection && e.phase == NoPhase && e.position == 0xFF
  {
    Encoders(NoDirection, NoPhase, 0xFF)
  }

  /**
   `encA_rising`: direction from line B; moving right, the left sensor
   resets the position to 0 and reads the phase from line C, otherwise the
   position counts up, wrapping at 256.
   */
  function Rising(e: Encoders, b: bool, c: bool, hallLeft: u16): (r: Encoders)
    ensures r.direction == (if b then Right else Left)
    ensures !b ==> r == e.(direction := Left)
    ensures b && (hallLeft < FilterLMin || hallLeft > FilterLMax) ==>
      r == e.(direction := Right, phase := if c then Goofy else Phase.Regular, position := 0)
    ensures b && FilterLMin <= hallLeft <= FilterLMax ==> r == e.(direction := Right, position := ToU8(e.position + 1))
  {
    var dir := if b then Right else Left;
    if dir == Right then
      if hallLeft < FilterLMin || hallLeft > FilterLMax then e.(direction := dir, phase := if c then Goofy else Phase.Regular, position := 0)
      else e.(direction := dir, position := ToU8(e.position + 1))
    else e.(direction := dir)
  }

  /**
   `encA_falling`: moving left, the right sensor resets the position to 201
   and reads the phase from line C, otherwise the position counts down,
   wrapping below 0.
   */
  function Falling(e: Encoders, c: bool, hallRight: u16): (r: Encoders)
    ensures e.direction != Left ==> r == e
    ensures e.direction == Left && (hallRight < FilterRMin || hallRight > FilterRMax) ==>
      r == e.(phase := if c then Phase.Regular else Goofy, position := 201)
    ensures e.direction == Left && FilterRMin <= hallRight <= FilterRMax ==> r == e.(position := ToU8(e.position - 1))
  {
    if e.direction == Left then
      if hallRight < FilterRMin || hallRight > FilterRMax then e.(phase := if c then Phase.Regular else Goofy, position := 201)
      else e.(position := ToU8(e.position - 1))
    else e
  }

  /** `n` rising edges moving right with the left sensor quiet. */
  function RiseRight(e: Encoders, n: nat, c: bool, hallLeft: u16): Encoders
    requires FilterLMin <= hallLeft <= FilterLMax
    decreases n
  {
    if n == 0 then e else RiseRight(Rising(e, true, c, hallLeft), n - 1, c, hallLeft)
  }

  /** After the left reset, the position counts the rising edges moving right, modulo 256. */
  lemma {:induction false} PositionCountsEdges(e: Encoders, n: nat, c: bool, hallLeft: u16)
    requires FilterLMin <= hallLeft <= FilterLMax
    ensures RiseRight(e, n, c, hallLeft).position == ToU8(e.position + n)
    ensures RiseRight(e, n, c, hallLeft).direction == (if n == 0 then e.direction else Right)
    decreases n
  {
    if n > 0 {
      var e' := Rising(e, true, c, hallLeft);
      PositionCountsEdges(e', n - 1, c, hallLeft);
      ToU8Add(e.position + 1, n - 1);
    }
  }

  /** A step right and a step left away from the sensors return to the same position. */
  lemma StepBackRestores(e: Encoders, c: bool, hall: u16)
    requires FilterLMin <= hall <= FilterLMax && FilterRMin <= hall <= FilterRMax
    ensures Falling(Rising(e, false, c, hall), c, hall).position == ToU8(e.position - 1)
    ensures Falling(Rising(e, true, c, hall), c, hall).position == ToU8(e.position + 1)
  {
  }
}

=== FILE: proto_hallsensor.dfy ===
/**
 The carriage detector of the root-level prototype (`hallsensor.cpp`). It
 hunts like the later rewrite but remembers the direction the hunt began
 in and abandons the hunt when the direction changes, reports activity by
 its state rather than by the extrema, keeps extremum positions as 16-bit
 values (0xFFFF when cleared), and takes north-then-south as the G
 carriage.
 */
module ProtoHallSensor {
  import opened Bytes
  import opened AyabTypes

  const NoValue: u16 := 0xFFFF
  const MaxDetNeedles: int := 3

  datatype Extremum = Extremum(value: u16, position: u16, isFirst: bool)
  datatype Phase = Idle | Hunt

  /** `position` is the public member `_detectCarriage` writes; before any detection it holds `position0`. */
  datatype HallSensor = HallSensor(
    sensorValue: u16, thresholdLow: u16, thresholdHigh: u16,
    carriage: Carriage, position: u8,
    state: Phase, minimum: Extremum, maximum: Extremum, direction: Direction, needlesToGo: int)

  const NoExtremum := Extremum(NoValue, NoValue, false)

  /** `_init`: idle, with both extrema cleared. */
  function Init(h: HallSensor): (r: HallSensor)
    ensures r.state == Idle && !IsActive(r) && r.minimum.value == NoValue && r.maximum.value == NoValue
    ensures r.carriage == h.carriage && r.position == h.position && r.direction == h.direction
  {
    h.(state := Idle, minimum := NoExtremum, maximum := NoExtremum)
  }

  /**
   The constructor: the first reading, no carriage, detector idle. The
   thresholds and the public position are whatever they held before
   (`setThresholds` is called afterwards).
   */
  function New(reading: u16, position0: u8, thresholdLow: u16, thresholdHigh: u16): (h: HallSensor)
    ensures h.sensorValue == reading && h.carriage == NoCarriage && h.state == Idle && Inv(h)
  {
    Init(HallSensor(reading, thresholdLow, thresholdHigh, NoCarriage, position0, Idle, NoExtremum, NoExtremum, NoDirection, 0))
  }

  function SetThresholds(h: HallSensor, low: u16, high: u16): (r: HallSensor)
    ensures r.thresholdLow == low && r.thresholdHigh == high
    ensures r.(thresholdLow := h.thresholdLow, thresholdHigh := h.thresholdHigh) == h
  {
    h.(thresholdLow := low, thresholdHigh := high)
  }

  /** `isActive`: a hunt is under way. */
  predicate IsActive(h: HallSensor) {
    h.state != Idle
  }

  /**
   `_detectCarriage`: only north is K, only south is L, north first is G
   half-way between the two poles, and south first is nothing.
   */
  function DetectCarriage(h: HallSensor): (r: (bool, HallSensor))
    ensures h.minimum.value == NoValue ==> r == (true, h.(carriage := Knit, position := ToU8(h.maximum.position)))
    ensures h.minimum.value != NoValue && h.maximum.value == NoValue ==>
      r == (true, h.(carriage := Lace, position := ToU8(h.minimum.position)))
    ensures h.minimum.value != NoValue && h.maximum.value != NoValue && h.maximum.isFirst ==>
      r == (true, h.(carriage := Garter, position := ToU8((h.minimum.position + h.maximum.position) / 2)))
    ensures h.minimum.value != NoValue && h.maximum.value != NoValue && !h.maximum.isFirst ==> r == (false, h)
  {
    if h.minimum.value == NoValue then (true, h.(carriage := Knit, position := ToU8(h.maximum.position)))
    else if h.maximum.value == NoValue then (true, h.(carriage := Lace, position := ToU8(h.minimum.position)))
    else if h.maximum.isFirst then
      (true, h.(carriage := Garter, position := ToU8((h.minimum.position + h.maximum.position) / 2)))
    else (false, h)
  }

  /** Recording of more extreme readings during a hunt. */
  function Record(h: HallSensor, v: u16, pos: u8): (r: HallSensor)
    ensures r.state == h.state && r.direction == h.direction
    ensures r.minimum.isFirst == h.minimum.isFirst && r.maximum.isFirst == h.maximum.isFirst
  {
    var newMin := v < h.thresholdLow && (h.minimum.value == NoValue || v < h.minimum.value);
    var h1 := if newMin then
                h.(minimum := h.minimum.(value := v, position := pos),
                   needlesToGo := if h.maximum.value == NoValue then MaxDetNeedles else h.needlesToGo)
              else h;
    var newMax := v > h1.thresholdHigh && (h1.maximum.value == NoValue || v > h1.maximum.value);
    if newMax then
      h1.(maximum := h1.maximum.(value := v, position := pos),
          needlesToGo := if h1.minimum.value == NoValue then MaxDetNeedles else h1.needlesToGo)
    else h1
  }

  /** `isDetected`, given the reading `analogRead` returns and the caller's position and direction. */
  function IsDetected(h: HallSensor, reading: u16, position: u8, direction: Direction): (r: (bool, HallSensor))
    ensures h.state == Idle && h.thresholdLow <= reading <= h.thresholdHigh ==>
      !r.0 && r.1.state == Idle && r.1.minimum == h.minimum && r.1.maximum == h.maximum
    ensures h.state == Idle && reading < h.thresholdLow ==>
      r == (false, h.(sensorValue := reading, state := Hunt, direction := direction, needlesToGo := MaxDetNeedles,
                      minimum := Extremum(reading, position, true)))
    ensures h.state == Idle && h.thresholdLow <= reading && reading > h.thresholdHigh ==>
      r == (false, h.(sensorValue := reading, state := Hunt, direction := direction, needlesToGo := MaxDetNeedles,
                      maximum := Extremum(reading, position, true)))
    ensures h.state == Hunt && direction != h.direction ==> r == (false, Init(h.(sensorValue := reading)))
    ensures r.0 ==> h.state == Hunt && direction == h.direction
    ensures r.1.carriage != h.carriage ==> r.0
  {
    var h0 := h.(sensorValue := reading);
    match h.state
    case Idle =>
      if reading < h.thresholdLow then
        (false, h0.(state := Hunt, direction := direction, needlesToGo := MaxDetNeedles,
                    minimum := Extremum(reading, position, true)))
      else if reading > h.thresholdHigh then
        (false, h0.(state := Hunt, direction := direction, needlesToGo := MaxDetNeedles,
                    maximum := Extremum(reading, position, true)))
      else (false, h0.(direction := direction, needlesToGo := MaxDetNeedles))
    case Hunt =>
      if h.direction != direction then (false, Init(h0))
      else
        var h1 := Record(h0, reading, position);
        var h2 := h1.(needlesToGo := h1.needlesToGo - 1);
        if h2.needlesToGo == 0 then
          var d := DetectCarriage(h2);
          (d.0, Init(d.1))
        else (false, h2)
  }

  /**
   The detector's invariant for readings below 0xFFFF: idle means both
   extrema cleared; a hunt has a recorded pole and one to three needles to
   go; a recorded pole sits at a byte position; at most one pole is first.
   */
  predicate Inv(h: HallSensor) {
    && (h.state == Idle ==> h.minimum == NoExtremum && h.maximum == NoExtremum)
    && (h.state == Hunt ==> (h.minimum.value != NoValue || h.maximum.value != NoValue) && 1 <= h.needlesToGo <= MaxDetNeedles)
    && (h.minimum.value != NoValue ==> h.minimum.position < 256)
    && (h.maximum.value != NoValue ==> h.maximum.position < 256)
    && !(h.minimum.isFirst && h.maximum.isFirst)
  }

  lemma IsDetectedKeepsInv(h: HallSensor, reading: u16, position: u8, direction: Direction)
    requires Inv(h) && reading < NoValue
    ensures Inv(IsDetected(h, reading, position, direction).1)
  {
  }

  /** North then south in one direction is a G carriage, half-way between the two poles. */
  lemma NorthThenSouthIsGarter(h: HallSensor, high: u16, low: u16, p: u8, q: u8, d: Direction)
    requires Inv(h) && h.state == Idle && h.thresholdLow <= h.thresholdHigh
    requires h.thresholdHigh < high < NoValue && low < h.thresholdLow
    ensures var h1 := IsDetected(h, high, p, d).1;
      var h2 := IsDetected(h1, low, q, d).1;
      var h3 := IsDetected(h2, low, q, d).1;
      var r := IsDetected(h3, low, q, d);
      r.0 && r.1.carriage == Garter && r.1.position == ToU8((p + q) / 2) && r.1.state == Idle
  {
  }

  /** South then north, the rewrite's G pattern, is not a carriage here. */
  lemma SouthThenNorthIgnored(h: HallSensor, high: u16, low: u16, p: u8, q: u8, d: Direction)
    requires Inv(h) && h.state == Idle && h.thresholdLow <= h.thresholdHigh
    requires h.thresholdHigh < high < NoValue && low < h.thresholdLow
    ensures var h1 := IsDetected(h, low, p, d).1;
      var h2 := IsDetected(h1, high, q, d).1;
      var h3 := IsDetected(h2, high, q, d).1;
      var r := IsDetected(h3, high, q, d);
      !r.0 && r.1.carriage == h.carriage && r.1.position == h.position && r.1.state == Idle
  {
  }
}

=== FILE: proto_knitter.dfy ===
/**
 The pixel and solenoid selection of the root-level prototype
 (`knitter.cpp`, `Knitter::knit`). `NEEDLE_OFFSET` is defined in a header
 that is not part of this model and is the parameter `needleOffset`; the
 solenoid word is driven through the change-tested prototype driver.

 `KnitAsWritten` is `knit` as the prototype is written: it reads the
 pattern bit at index `m_solenoidToSet`, a number from 0 to 15, from a
 single byte, where Arduino's `bitRead` gives 0 for every index from 8 on,
 so bits 8-15 of the solenoid word are never set; and it drives the
 prototype driver whose `setSolenoid` never reaches the expanders. `Knit`
 reads bit `pixel % 8` of byte `pixel / 8`, as the later generations do,
 and drives the corrected driver.
 */
module ProtoKnitter {
  import opened Bytes
  import opened AyabTypes
  import ProtoSolenoids

  datatype Knitter = Knitter(currentLine: seq<bv8>, oldPosition: u8, pixel: u8, solenoid: u8, solenoids: bv16)

  /** Arduino `bitRead` of a byte at any index: past bit 7 the byte has only zeros. */
  predicate BitReadWide(value: bv8, bit: u8) {
    bit < 8 && BitRead(value, bit)
  }

  /** The byte of the line that holds a pixel, or `stray` when the index runs past the line. */
  function LineByte(line: seq<bv8>, pixel: u8, stray: bv8): bv8 {
    if pixel / 8 < |line| then line[pixel / 8] else stray
  }

  /** The solenoid for a position; `previous` when the phase is neither regular nor shifted. */
  function SolenoidFor(direction: Direction, phase: BeltShift, position: u8, previous: u8): (r: u8)
    ensures phase != Unknown && direction == Right ==> r == (if phase == Regular then position % 16 else ToU8(CRem(position - 8, 16)))
    ensures phase != Unknown && direction == Left ==> r == (if phase == Regular then (position + 8) % 16 else position % 16)
  {
    match (direction, phase)
    case (Right, Regular) => position % 16
    case (Right, Shifted) => ToU8(CRem(position - 8, 16))
    case (Left, Regular) => (position + 8) % 16
    case (Left, Shifted) => position % 16
    case _ => previous
  }

  /**
   The pixel and solenoid `knit` goes on to write, or `None` where it
   returns early; with no direction the previous ones are reused.
   */
  function Select(needleOffset: u8, k: Knitter, position: u8, direction: Direction, phase: BeltShift): (r: Option<(u8, u8)>)
    ensures direction == Right ==> (r.Some? <==> position > needleOffset)
    ensures direction == Left ==> (r.Some? <==> position < 200 - needleOffset)
    ensures direction == NoDirection ==> r == Some((k.pixel, k.solenoid))
    ensures r.Some? && direction == Right ==> r.value.0 == position - needleOffset
    ensures r.Some? && direction == Left ==> r.value.0 == position + needleOffset
    ensures r.Some? ==> r.value.1 == SolenoidFor(direction, phase, position, k.solenoid)
  {
    match direction
    case Right => if position > needleOffset then Some((ToU8(position - needleOffset), SolenoidFor(direction, phase, position, k.solenoid))) else None
    case Left => if position < 200 - needleOffset then Some((ToU8(position + needleOffset), SolenoidFor(direction, phase, position, k.solenoid))) else None
    case NoDirection => Some((k.pixel, k.solenoid))
  }

  /** At the end-of-line positions the solenoid word becomes 0 and the position is not recorded. */
  predicate AtLineEnd(position: u8) {
    position == 0 || position == 201
  }

  /**
   The steps shared by both readings of `knit`, given the bit each reads
   from the pattern byte and whether one solenoid is set through the
   driver as written or the corrected one.
   */
  function Step(k: Knitter, position: u8, sel: Option<(u8, u8)>, value: bool, asWritten: bool): (r: (Knitter, seq<Event>))
  {
    if position == k.oldPosition then (k, [])
    else if AtLineEnd(position) then
      var s := ProtoSolenoids.SetSolenoids(k.solenoids, 0);
      (k.(solenoids := s.0), s.1)
    else if sel.None? then (k, [])
    else
      var s := if asWritten then ProtoSolenoids.SetSolenoidAsWritten(k.solenoids, sel.value.1, value)
               else ProtoSolenoids.SetSolenoid(k.solenoids, sel.value.1, value);
      (k.(pixel := sel.value.0, solenoid := sel.value.1, solenoids := s.0, oldPosition := position), s.1)
  }

  /**
   `knit` as written: the pattern bit is taken at the solenoid's index, and
   the expanders are written only where the word is set whole, at the line
   ends; a single solenoid changes the word but not the expanders.
   */
  function KnitAsWritten(needleOffset: u8, k: Knitter, position: u8, direction: Direction, phase: BeltShift, stray: bv8): (r: (Knitter, seq<Event>))
    ensures position == k.oldPosition ==> r == (k, [])
    ensures var sel := Select(needleOffset, k, position, direction, phase);
      position != k.oldPosition && !AtLineEnd(position) && sel.Some? && sel.value.1 <= 15 ==>
        IsSet(r.0.solenoids, Byte(sel.value.1)) == BitReadWide(LineByte(k.currentLine, sel.value.0, stray), sel.value.1)
    ensures r.1 != [] ==> position != k.oldPosition && AtLineEnd(position) && r.1 == WriteWord(0)
    ensures !AtLineEnd(position) ==> Latch(k.solenoids, r.1) == k.solenoids
  {
    var sel := Select(needleOffset, k, position, direction, phase);
    var value := sel.Some? && BitReadWide(LineByte(k.currentLine, sel.value.0, stray), sel.value.1);
    Step(k, position, sel, value, true)
  }

  /** However the pattern is set, the as-written reading never sets bits 8-15 of the solenoid word. */
  lemma AsWrittenUpperBitsNeverSet(needleOffset: u8, k: Knitter, position: u8, direction: Direction, phase: BeltShift, stray: bv8)
    requires position != k.oldPosition && !AtLineEnd(position)
    requires var sel := Select(needleOffset, k, position, direction, phase); sel.Some? && 8 <= sel.value.1 <= 15
    ensures var sel := Select(needleOffset, k, position, direction, phase);
      !IsSet(KnitAsWritten(needleOffset, k, position, direction, phase, stray).0.solenoids, Byte(sel.value.1))
  {
  }

  /**
   `knit` reading bit `pixel % 8`: on a new position away from the line
   ends it records the position, the pixel and the solenoid, and gives
   that solenoid the pattern bit of that pixel.
   */
  function Knit(needleOffset: u8, k: Knitter, position: u8, direction: Direction, phase: BeltShift, stray: bv8): (r: (Knitter, seq<Event>))
    ensures position == k.oldPosition ==> r == (k, [])
    ensures position != k.oldPosition && AtLineEnd(position) ==>
      r.0 == k.(solenoids := 0) && Latch(k.solenoids, r.1) == 0
    ensures var sel := Select(needleOffset, k, position, direction, phase);
      position != k.oldPosition && !AtLineEnd(position) && sel.None? ==> r == (k, [])
    ensures var sel := Select(needleOffset, k, position, direction, phase);
      position != k.oldPosition && !AtLineEnd(position) && sel.Some? ==>
        && r.0.oldPosition == position && r.0.pixel == sel.value.0 && r.0.solenoid == sel.value.1
        && Latch(k.solenoids, r.1) == r.0.solenoids
        && (sel.value.1 <= 15 ==> IsSet(r.0.solenoids, Byte(sel.value.1)) == BitRead(LineByte(k.currentLine, sel.value.0, stray), sel.value.0 % 8))
  {
    var sel := Select(needleOffset, k, position, direction, phase);
    var value := sel.Some? && BitRead(LineByte(k.currentLine, sel.value.0, stray), sel.value.0 % 8);
    LatchWriteWord(k.solenoids, 0);
    if sel.Some? then ProtoSolenoids.ExpandersFollowState(k.solenoids, sel.value.1, value); Step(k, position, sel, value, false)
    else Step(k, position, sel, value, false)
  }

  /**
   With the needle offset at 40 and a full pattern line, position 56 moving
   right on a regular belt selects pixel 16 and solenoid 8: the pattern bit
   is 1, the as-written reading leaves bit 8 of the word clear, the
   corrected one sets it.
   */
  lemma UpperBankSample()
    ensures var k := Knitter(seq(25, _ => 0xFF), 0, 0, 0, 0);
      && Select(40, k, 56, Right, Regular) == Some((16, 8))
      && !IsSet(KnitAsWritten(40, k, 56, Right, Regular, 0).0.solenoids, 8)
      && IsSet(Knit(40, k, 56, Right, Regular, 0).0.solenoids, 8)
  {
    var k := Knitter(seq(25, _ => 0xFF), 0, 0, 0, 0);
    assert LineByte(k.currentLine, 16, 0) == 0xFF;
    assert BitRead(0xFF, 0);
  }

  /** The line ends set the word to 0 each time they are reported, since the position is not recorded there. */
  lemma LineEndRepeats(needleOffset: u8, k: Knitter, position: u8, direction: Direction, phase: BeltShift, stray: bv8)
    requires AtLineEnd(position) && position != k.oldPosition
    ensures var r := Knit(needleOffset, k, position, direction, phase, stray);
      r.0.oldPosition == k.oldPosition && Knit(needleOffset, r.0, position, direction, phase, stray).0 == r.0
  {
  }
}

=== FILE: proto_serial.dfy ===
/**
 The protocol handler of the root-level prototype (`serial_encoding.cpp`).
 It reads fixed offsets without looking at the packet size and never checks
 the checksum byte. The message ids and version numbers come from a header
 that is not part of this model, so they are the parameter `Ids`.
 */
module ProtoSerial {
  import opened Bytes

  /** Message ids and version bytes defined outside the prototype's sources. */
  datatype Ids = Ids(reqStart: bv8, cnfStart: bv8, cnfLine: bv8, reqInfo: bv8, cnfInfo: bv8,
                     reqTest: bv8, cnfTest: bv8, apiVersion: bv8, fwMaj: bv8, fwMin: bv8)

  /** The four request ids label distinct `case`s of one `switch`, so they differ. */
  predicate ValidIds(ids: Ids) {
    && ids.reqStart != ids.cnfLine && ids.reqStart != ids.reqInfo && ids.reqStart != ids.reqTest
    && ids.cnfLine != ids.reqInfo && ids.cnfLine != ids.reqTest && ids.reqInfo != ids.reqTest
  }

  datatype Call =
    | StartOperation(start: bv8, stop: bv8, continuous: bool)
    | SetNextLine(line: bv8)
    | SetLastLine
    | StartTest

  datatype Answers = Answers(started: bool, accepted: bool, tested: bool)

  datatype Effect = Effect(lineBuffer: seq<bv8>, calls: seq<Call>, sent: seq<seq<bv8>>)

  function Flag(b: bool): bv8 { if b then 1 else 0 }

  /** A packet the prototype can read without running past its end. */
  predicate Readable(ids: Ids, packet: seq<bv8>) {
    && |packet| >= 1
    && (packet[0] == ids.reqStart ==> |packet| >= 4)
    && (packet[0] == ids.cnfLine ==> |packet| >= 29)
  }

  function HReqStart(ids: Ids, packet: seq<bv8>, ans: Answers): (e: Effect)
    requires |packet| >= 4
    ensures e.lineBuffer == seq(25, _ => 0xFF)
    ensures e.calls == [StartOperation(packet[1], packet[2], packet[3] != 0)]
    ensures e.sent == [[ids.cnfStart, Flag(ans.started)]]
  {
    Effect(seq(25, _ => 0xFF), [StartOperation(packet[1], packet[2], packet[3] != 0)], [[ids.cnfStart, Flag(ans.started)]])
  }

  /** Line confirmation: byte 28 is read as a checksum and then ignored. */
  function HCnfLine(packet: seq<bv8>, ans: Answers): (e: Effect)
    requires |packet| >= 29
    ensures |e.lineBuffer| == 25 && forall i :: 0 <= i < 25 ==> e.lineBuffer[i] == !packet[i + 2]
    ensures e.calls == [SetNextLine(packet[1])] + (if ans.accepted && BitRead(packet[27], 0) then [SetLastLine] else [])
    ensures e.sent == []
  {
    var stored := seq(25, i requires 0 <= i < 25 => !packet[i + 2]);
    if ans.accepted && BitRead(packet[27], 0) then Effect(stored, [SetNextLine(packet[1]), SetLastLine], [])
    else Effect(stored, [SetNextLine(packet[1])], [])
  }

  function OnPacketReceived(ids: Ids, packet: seq<bv8>, lineBuffer: seq<bv8>, ans: Answers): (e: Effect)
    requires ValidIds(ids) && Readable(ids, packet)
    ensures packet[0] !in {ids.reqStart, ids.cnfLine, ids.reqInfo, ids.reqTest} ==> e == Effect(lineBuffer, [], [])
    ensures packet[0] == ids.reqInfo ==> e == Effect(lineBuffer, [], [[ids.cnfInfo, ids.apiVersion, ids.fwMaj, ids.fwMin]])
    ensures packet[0] == ids.reqTest ==> e == Effect(lineBuffer, [StartTest], [[ids.cnfTest, Flag(ans.tested)]])
  {
    var id := packet[0];
    if id == ids.reqStart then HReqStart(ids, packet, ans)
    else if id == ids.cnfLine then HCnfLine(packet, ans)
    else if id == ids.reqInfo then Effect(lineBuffer, [], [[ids.cnfInfo, ids.apiVersion, ids.fwMaj, ids.fwMin]])
    else if id == ids.reqTest then Effect(lineBuffer, [StartTest], [[ids.cnfTest, Flag(ans.tested)]])
    else Effect(lineBuffer, [], [])
  }

  /** The checksum byte has no influence: two line packets that differ only there have the same effect. */
  lemma ChecksumIgnored(ids: Ids, p: seq<bv8>, q: seq<bv8>, lineBuffer: seq<bv8>, ans: Answers)
    requires ValidIds(ids) && Readable(ids, p) && Readable(ids, q) && p[0] == ids.cnfLine
    requires |p| == |q| && forall i :: 0 <= i < |p| && i != 28 ==> p[i] == q[i]
    ensures OnPacketReceived(ids, p, lineBuffer, ans) == OnPacketReceived(ids, q, lineBuffer, ans)
  {
    assert q[0] == p[0] && q[1] == p[1] && q[27] == p[27];
    var e := OnPacketReceived(ids, p, lineBuffer, ans);
    var f := OnPacketReceived(ids, q, lineBuffer, ans);
    assert e.lineBuffer == f.lineBuffer by {
      forall i | 0 <= i < 25 ensures e.lineBuffer[i] == f.lineBuffer[i] {
        assert p[i + 2] == q[i + 2];
      }
    }
  }
}

=== FILE: proto_solenoids.dfy ===
/**
 The solenoid driver of the root-level prototype (`solenoids.cpp`): a
 16-bit state word starting at 0 and written to the two expanders by
 `setSolenoids` only when it changes.

 `SetSolenoidAsWritten` is `setSolenoid` as the file has it: the bit is
 changed in the state word before `setSolenoids` compares against that same
 word, so the change test always fails and the expanders are never written.
 `SetSolenoid` passes the new word to `setSolenoids` with the state still
 unchanged, which is what the change test is there for.
 */
module ProtoSolenoids {
  import opened Bytes
  import opened AyabTypes

  /** The constructor: all bits clear. */
  function New(): (s: bv16)
    ensures forall j: bv8 :: j < 16 ==> !IsSet(s, j)
  {
    0
  }

  /** `setSolenoids`: store and write out a new word, or do nothing when it is the current one. */
  function SetSolenoids(s: bv16, w: bv16): (r: (bv16, seq<Event>))
    ensures r.0 == w
    ensures r.1 == (if w != s then WriteWord(w) else [])
  {
    if w != s then (w, WriteWord(w)) else (s, [])
  }

  /** `resetSolenoids`: every bit set. */
  function ResetSolenoids(s: bv16): (r: (bv16, seq<Event>))
    ensures r.0 == 0xFFFF && Latch(s, r.1) == 0xFFFF
  {
    LatchWriteWord(s, 0xFFFF);
    SetSolenoids(s, 0xFFFF)
  }

  /** `setSolenoid` as written: the state changes but nothing reaches the expanders. */
  function SetSolenoidAsWritten(s: bv16, i: u8, on: bool): (r: (bv16, seq<Event>))
    ensures i > 15 ==> r.0 == s
    ensures i <= 15 ==> IsSet(r.0, Byte(i)) == on
    ensures r.1 == []
  {
    if i <= 15 then
      SetBitEffect(s, Byte(i), on);
      var s' := SetBit(s, Byte(i), on);
      SetSolenoids(s', s')
    else (s, [])
  }

  /** Switching solenoid 0 on from the initial state leaves the expanders at 0 while the state says 1. */
  lemma AsWrittenLosesWrite()
    ensures SetSolenoidAsWritten(New(), 0, true) == (1, [])
    ensures Latch(New(), SetSolenoidAsWritten(New(), 0, true).1) == 0
  {
  }

  /** `setSolenoid` with the change test applied to the state before the bit changes. */
  function SetSolenoid(s: bv16, i: u8, on: bool): (r: (bv16, seq<Event>))
    ensures i > 15 ==> r == (s, [])
    ensures i <= 15 ==>
      && IsSet(r.0, Byte(i)) == on
      && (forall j: bv8 :: j < 16 && j != Byte(i) ==> IsSet(r.0, j) == IsSet(s, j))
    ensures r.1 == (if r.0 != s then WriteWord(r.0) else [])
  {
    if i <= 15 then
      SetBitEffect(s, Byte(i), on);
      SetSolenoids(s, SetBit(s, Byte(i), on))
    else (s, [])
  }

  /** With the correction, the expanders hold the state word after every call. */
  lemma ExpandersFollowState(s: bv16, i: u8, on: bool)
    ensures Latch(s, SetSolenoid(s, i, on).1) == SetSolenoid(s, i, on).0
  {
    var r := SetSolenoid(s, i, on);
    if r.0 != s { LatchWriteWord(s, r.0); }
  }
}

=== FILE: proto_solenoids_wire.dfy ===
/**
 The Wire-library solenoid driver of the root-level prototype
 (`Solenoids.cpp`): like `solenoids.cpp` but without an index check or a
 change test; every call writes both expanders.
 */
module ProtoSolenoidsWire {
  import opened Bytes
  import opened AyabTypes

  /** The constructor: all bits clear. */
  function New(): (s: bv16)
    ensures forall j: bv8 :: j < 16 ==> !IsSet(s, j)
  {
    0
  }

  /** `setSolenoid(uint16)`: store the word and write it out unconditionally. */
  function SetWord(s: bv16, w: bv16): (r: (bv16, seq<Event>))
    ensures r.0 == w && |r.1| == 2
    ensures forall hw: bv16 {:trigger Latch(hw, r.1)} :: Latch(hw, r.1) == w
  {
    LatchWriteWordAll(w);
    (w, WriteWord(w))
  }

  /** `setSolenoid(byte, bool)`: change one bit, then write the whole word. */
  function SetSolenoid(s: bv16, i: u8, on: bool): (r: (bv16, seq<Event>))
    requires i < 16
    ensures IsSet(r.0, Byte(i)) == on
    ensures forall j: bv8 :: j < 16 && j != Byte(i) ==> IsSet(r.0, j) == IsSet(s, j)
    ensures forall hw: bv16 {:trigger Latch(hw, r.1)} :: Latch(hw, r.1) == r.0
  {
    SetBitEffect(s, Byte(i), on);
    SetWord(s, SetBit(s, Byte(i), on))
  }

  /** Unlike the change-tested driver, a repeated call writes again. */
  lemma RepeatStillWrites(s: bv16, i: u8, on: bool)
    requires i < 16
    ensures var t := SetSolenoid(s, i, on).0; SetSolenoid(t, i, on).0 == t && |SetSolenoid(t, i, on).1| == 2
  {
    SetBitIdempotent(s, Byte(i), on);
  }
}

=== FILE: serial_encoding.dfy ===
/**
 The host protocol handler of the older `src/ayab` layer
 (`src/ayab/serial_encoding.cpp`, API version 5): four request types, a
 fixed 25-byte line buffer and, when built with CRC support (`crcOn`), a
 checksum over the first 28 bytes of a line confirmation.
 */
module SerialEncoding {
  import opened Bytes
  import Crc8

  const FwVersionMaj: bv8 := 0
  const FwVersionMin: bv8 := 95
  const ApiVersion: bv8 := 5
  const LineBufferLen: nat := 25

  const ReqStart: bv8 := 0x01
  const CnfStart: bv8 := 0xC1
  const ReqLine: bv8 := 0x82
  const CnfLine: bv8 := 0x42
  const ReqInfo: bv8 := 0x03
  const CnfInfo: bv8 := 0xC3
  const ReqTest: bv8 := 0x04
  const CnfTest: bv8 := 0xC4
  const IndState: bv8 := 0x84
  const Debug: bv8 := 0xFF

  /** Calls into the knitter of this generation. */
  datatype Call =
    | StartOperation(start: bv8, stop: bv8, continuous: bool)
    | SetNextLine(line: bv8)
    | SetLastLine
    | StartTest

  /** What the knitter returns from `startOperation`, `setNextLine` and `startTest`. */
  datatype Answers = Answers(started: bool, accepted: bool, tested: bool)

  datatype Effect = Effect(lineBuffer: seq<bv8>, calls: seq<Call>, sent: seq<seq<bv8>>)

  function Flag(b: bool): bv8 { if b then 1 else 0 }

  /** The complement of the 25 pattern bytes that follow the line number. */
  function Complemented(packet: seq<bv8>): (r: seq<bv8>)
    requires |packet| >= LineBufferLen + 2
    ensures |r| == LineBufferLen
    ensures forall i :: 0 <= i < LineBufferLen ==> r[i] == !packet[i + 2]
  {
    seq(LineBufferLen, i requires 0 <= i < LineBufferLen => !packet[i + 2])
  }

  /** Start request: first needle, last needle, continuous reporting. */
  function HReqStart(packet: seq<bv8>, lineBuffer: seq<bv8>, ans: Answers): (e: Effect)
    ensures |packet| < 4 ==> e == Effect(lineBuffer, [], [])
    ensures |packet| >= 4 ==>
      && e.lineBuffer == seq(LineBufferLen, _ => 0xFF)
      && e.calls == [StartOperation(packet[1], packet[2], packet[3] != 0)]
      && e.sent == [[CnfStart, Flag(ans.started)]]
  {
    if |packet| < 4 then Effect(lineBuffer, [], [])
    else
      Effect(seq(LineBufferLen, _ => 0xFF),
             [StartOperation(packet[1], packet[2], packet[3] != 0)],
             [[CnfStart, Flag(ans.started)]])
  }

  /** Line confirmation: 29 bytes, the pattern at 2..26, flags at 27, checksum at 28. */
  function HCnfLine(crcOn: bool, packet: seq<bv8>, lineBuffer: seq<bv8>, ans: Answers): (e: Effect)
    ensures |packet| < 29 ==> e == Effect(lineBuffer, [], [])
    ensures |packet| >= 29 ==>
      && e.lineBuffer == Complemented(packet)
      && e.sent == []
      && (crcOn && packet[28] != Crc8.Crc(packet[..28]) ==> e.calls == [])
      && (!crcOn || packet[28] == Crc8.Crc(packet[..28]) ==>
            e.calls == [SetNextLine(packet[1])] + (if ans.accepted && BitRead(packet[27], 0) then [SetLastLine] else []))
  {
    if |packet| < 29 then Effect(lineBuffer, [], [])
    else
      var stored := Complemented(packet);
      if crcOn && packet[28] != Crc8.Crc(packet[..28]) then Effect(stored, [], [])
      else if ans.accepted && BitRead(packet[27], 0) then Effect(stored, [SetNextLine(packet[1]), SetLastLine], [])
      else Effect(stored, [SetNextLine(packet[1])], [])
  }

  function HReqInfo(lineBuffer: seq<bv8>): (e: Effect)
    ensures e == Effect(lineBuffer, [], [[CnfInfo, ApiVersion, FwVersionMaj, FwVersionMin]])
  {
    Effect(lineBuffer, [], [[CnfInfo, ApiVersion, FwVersionMaj, FwVersionMin]])
  }

  function HReqTest(lineBuffer: seq<bv8>, ans: Answers): (e: Effect)
    ensures e == Effect(lineBuffer, [StartTest], [[CnfTest, Flag(ans.tested)]])
  {
    Effect(lineBuffer, [StartTest], [[CnfTest, Flag(ans.tested)]])
  }

  /** The packet callback: only the four request ids have any effect. */
  function OnPacketReceived(crcOn: bool, packet: seq<bv8>, lineBuffer: seq<bv8>, ans: Answers): (e: Effect)
    requires |packet| >= 1
    ensures packet[0] !in {ReqStart, CnfLine, ReqInfo, ReqTest} ==> e == Effect(lineBuffer, [], [])
    ensures e.calls != [] ==> packet[0] in {ReqStart, CnfLine, ReqTest}
    ensures e.sent != [] ==> packet[0] in {ReqStart, ReqInfo, ReqTest}
  {
    var id := packet[0];
    if id == ReqStart then HReqStart(packet, lineBuffer, ans)
    else if id == CnfLine then HCnfLine(crcOn, packet, lineBuffer, ans)
    else if id == ReqInfo then HReqInfo(lineBuffer)
    else if id == ReqTest then HReqTest(lineBuffer, ans)
    else Effect(lineBuffer, [], [])
  }

  /** The line confirmation as the host of this generation sends it. */
  function EncodeCnfLine(line: bv8, pattern: seq<bv8>, last: bool): (p: seq<bv8>)
    requires |pattern| == LineBufferLen
    ensures |p| == 29 && p[0] == CnfLine
  {
    var body := [CnfLine, line] + pattern + [Flag(last)];
    body + [Crc8.Crc(body)]
  }

  /**
   Every line the host encodes is passed on with its number, leaves the
   complemented pattern in the line buffer, and is marked last exactly when
   the knitter accepted it and the host flagged it.
   */
  lemma CnfLineRoundTrip(crcOn: bool, line: bv8, pattern: seq<bv8>, last: bool, lineBuffer: seq<bv8>, ans: Answers)
    requires |pattern| == LineBufferLen
    ensures var e := OnPacketReceived(crcOn, EncodeCnfLine(line, pattern, last), lineBuffer, ans);
      && (forall i :: 0 <= i < LineBufferLen ==> !e.lineBuffer[i] == pattern[i])
      && e.calls == [SetNextLine(line)] + (if ans.accepted && last then [SetLastLine] else [])
  {
    var p := EncodeCnfLine(line, pattern, last);
    var body := [CnfLine, line] + pattern + [Flag(last)];
    assert p == body + [Crc8.Crc(body)];
    assert p[..28] == body;
    assert p[1] == line && p[27] == Flag(last);
    assert BitRead(Flag(last), 0) == last;
    var e := HCnfLine(crcOn, p, lineBuffer, ans);
    assert OnPacketReceived(crcOn, p, lineBuffer, ans) == e;
    forall i | 0 <= i < LineBufferLen
      ensures !e.lineBuffer[i] == pattern[i]
    {
      assert e.lineBuffer[i] == !p[i + 2];
      assert p[i + 2] == body[i + 2] == pattern[i];
    }
  }

  /**
   With CRC support on, changing any one of the first 28 bytes of a valid
   line confirmation without fixing the checksum stops it from reaching the
   knitter, provided the change alters the checksum.
   */
  lemma CorruptLineIgnored(p: seq<bv8>, lineBuffer: seq<bv8>, ans: Answers)
    requires |p| >= 29 && p[0] == CnfLine && p[28] != Crc8.Crc(p[..28])
    ensures OnPacketReceived(true, p, lineBuffer, ans).calls == []
  {
  }
}

=== FILE: solenoids.dfy ===
/**
 The solenoid driver of `src/ayab` (`src/ayab/solenoids.cpp`): a 16-bit
 shadow word, one bit per solenoid (solenoid 0 is the least significant),
 pushed to two I/O expanders only when it changes. The buffer size is the
 16 bits of that word.
 */
module Solenoids {
  import opened Bytes
  import opened AyabTypes

  const SolenoidBufferSize: nat := 16

  /** `init`: all solenoids on, and the expanders told so. */
  function Init(): (r: (bv16, seq<Event>))
    ensures r.0 == 0xFFFF && Latch(0, r.1) == 0xFFFF
  {
    LatchWriteWord(0, 0xFFFF);
    (0xFFFF, WriteWord(0xFFFF))
  }

  /** `setSolenoid`: an index past the buffer is ignored; otherwise one bit changes, written out only if it did. */
  function SetSolenoid(s: bv16, i: u8, on: bool): (r: (bv16, seq<Event>))
    ensures i >= SolenoidBufferSize ==> r == (s, [])
    ensures i < SolenoidBufferSize ==>
      && IsSet(r.0, Byte(i)) == on
      && (forall j: bv8 :: j < 16 && j != Byte(i) ==> IsSet(r.0, j) == IsSet(s, j))
    ensures r.1 == (if r.0 != s then WriteWord(r.0) else [])
  {
    if i >= SolenoidBufferSize then (s, [])
    else
      var b := Byte(i);
      SetBitEffect(s, b, on);
      var s' := SetBit(s, b, on);
      (s', if s' != s then WriteWord(s') else [])
  }

  /** `setSolenoids`: replace the whole word, written out only if it changed. */
  function SetSolenoids(s: bv16, w: bv16): (r: (bv16, seq<Event>))
    ensures r.0 == w
    ensures r.1 == (if w != s then WriteWord(w) else [])
  {
    if w != s then (w, WriteWord(w)) else (s, [])
  }

  /** When the expanders hold the shadow word, they still do after either call. */
  lemma ExpandersFollowState(s: bv16, i: u8, on: bool, w: bv16)
    ensures Latch(s, SetSolenoid(s, i, on).1) == SetSolenoid(s, i, on).0
    ensures Latch(s, SetSolenoids(s, w).1) == w
  {
    var r := SetSolenoid(s, i, on);
    if r.0 != s { LatchWriteWord(s, r.0); }
    if w != s { LatchWriteWord(s, w); }
  }

  /** Repeating a call writes nothing and changes nothing. */
  lemma RepeatIsQuiet(s: bv16, i: u8, on: bool, w: bv16)
    ensures var t := SetSolenoid(s, i, on).0; SetSolenoid(t, i, on) == (t, [])
    ensures SetSolenoids(SetSolenoids(s, w).0, w) == (w, [])
  {
    if i < SolenoidBufferSize {
      SetBitIdempotent(s, Byte(i), on);
    }
  }
}

=== FILE: test_commands.dfy ===
/**
 The hardware-test commands. `src/ayab/opTest.cpp`, `src/ayab/tester.cpp`
 and `src/ayab/test.cpp` carry the same bodies for them, so they are
 modelled once here; the three files differ only in how test mode is
 entered, driven and left, which their own modules model.

 Text sent with the test-result message id is a `TestText` event; a number
 formatted into a text is a `Reading` with its label. Pin reads are the
 input `Pins`.
 */
module TestCommands {
  import opened Bytes
  import opened AyabTypes

  const TestLoopDelay: u32 := 500

  datatype TestState = TestState(autoReadOn: bool, autoTestOn: bool, lastTime: u32, timerEventOdd: bool)

  /** The digital encoder pins and the analog end-of-line sensors, as read when a command runs. */
  datatype Pins = Pins(encA: bool, encB: bool, encC: bool, eolL: u16, eolR: u16)

  /** Test mode is busy while it reads sensors or cycles solenoids on its own. */
  predicate Enabled(s: TestState) { s.autoReadOn || s.autoTestOn }

  /** The part of entering test mode common to all three: both automatic modes off, timer started, parity even. */
  function SetUp(now: u32): (s: TestState)
    ensures !Enabled(s) && s.lastTime == now && !s.timerEventOdd
  {
    TestState(false, false, now, false)
  }

  const HelpTexts: seq<string> := [
    "The following commands are available:\n", "setSingle [0..15] [1/0]\n", "setAll [0..FFFF]\n",
    "readEOLsensors\n", "readEncoders\n", "beep\n", "autoRead\n", "autoTest\n", "send\n", "stop\n",
    "quit\n", "help\n"]

  function Texts(ts: seq<string>): (r: seq<Event>)
    ensures |r| == |ts| && forall i :: 0 <= i < |ts| ==> r[i] == TestText(ts[i])
  {
    seq(|ts|, i requires 0 <= i < |ts| => TestText(ts[i]))
  }

  function HelpCmd(): (r: seq<Event>)
    ensures |r| == 12 && r[0] == TestText("The following commands are available:\n")
  {
    Texts(HelpTexts)
  }

  /** `sendCmd` sends a fixed three-byte packet between two texts; the packet differs between the files. */
  function SendCmd(payload: seq<bv8>): (r: seq<Event>)
    ensures r == [TestText("Called send\n"), Send(payload), TestText("\n")]
  {
    [TestText("Called send\n"), Send(payload), TestText("\n")]
  }

  function BeepCmd(): (r: seq<Event>)
    ensures r == [TestText("Called beep\n"), Beep(BeepReady)]
  {
    [TestText("Called beep\n"), Beep(BeepReady)]
  }

  /**
   `encoderAChange`, the interrupt handler each test mode attaches to encoder
   A in the firmware build: it makes the beep of the `beep` command, without
   the command's text.
   */
  function EncoderAChange(): (r: seq<Event>)
    ensures |r| == 1 && r == BeepCmd()[1..] && r[0].Beep?
  {
    [Beep(BeepReady)]
  }

  /**
   `setSingleCmd`: at least three bytes, a solenoid index of at most 15 and
   a value of at most 1, else an error text and no solenoid change.
   */
  function SetSingleCmd(packet: seq<bv8>): (r: seq<Event>)
    ensures |r| == 2 && r[0] == TestText("Called setSingle\n")
    ensures r[1].SetSolenoid? <==> |packet| >= 3 && packet[1] <= 15 && packet[2] <= 1
    ensures r[1].SetSolenoid? ==> r[1] == SetSolenoid(packet[1] as int, packet[2] == 1)
  {
    var head := [TestText("Called setSingle\n")];
    if |packet| < 3 then head + [TestText("Error: invalid arguments\n")]
    else if packet[1] > 15 then head + [Reading("Error: invalid solenoid index ", packet[1] as int)]
    else if packet[2] > 1 then head + [Reading("Error: invalid solenoid value ", packet[2] as int)]
    else head + [SetSolenoid(packet[1] as int, packet[2] == 1)]
  }

  /**
   `setAllCmd`: at least three bytes; byte 1 is the high byte and byte 2 the
   low byte of all 16 solenoids. `(buffer[1] << 8) + buffer[2]` is at most
   0xFFFF, so storing it into a `uint16_t` loses nothing.
   */
  function SetAllCmd(packet: seq<bv8>): (r: seq<Event>)
    ensures |packet| < 3 ==> r == [TestText("Called setAll\n"), TestText("Error: invalid arguments\n")]
    ensures |packet| >= 3 ==> r == [TestText("Called setAll\n"), SetSolenoids(Word(packet[1], packet[2]))]
  {
    if |packet| < 3 then [TestText("Called setAll\n"), TestText("Error: invalid arguments\n")]
    else [TestText("Called setAll\n"), SetSolenoids(Word(packet[1], packet[2]))]
  }

  function HighLow(b: bool): string { if b then "HIGH" else "LOW" }

  function ReadEncoders(p: Pins): (r: seq<Event>)
    ensures |r| == 6
  {
    [TestText("  ENC_A: "), TestText(HighLow(p.encA)), TestText("  ENC_B: "), TestText(HighLow(p.encB)),
     TestText("  ENC_C: "), TestText(HighLow(p.encC))]
  }

  function ReadEolSensors(p: Pins): (r: seq<Event>)
    ensures r == [Reading("  EOL_L: ", p.eolL), Reading("  EOL_R: ", p.eolR)]
  {
    [Reading("  EOL_L: ", p.eolL), Reading("  EOL_R: ", p.eolR)]
  }

  function ReadEolSensorsCmd(p: Pins): seq<Event> {
    [TestText("Called readEOLsensors\n")] + ReadEolSensors(p) + [TestText("\n")]
  }

  function ReadEncodersCmd(p: Pins): seq<Event> {
    [TestText("Called readEncoders\n")] + ReadEncoders(p) + [TestText("\n")]
  }

  function AutoReadCmd(s: TestState): (r: (TestState, seq<Event>))
    ensures r.0 == s.(autoReadOn := true) && Enabled(r.0)
  {
    (s.(autoReadOn := true), [TestText("Called autoRead, send stop to quit\n")])
  }

  function AutoTestCmd(s: TestState): (r: (TestState, seq<Event>))
    ensures r.0 == s.(autoTestOn := true) && Enabled(r.0)
  {
    (s.(autoTestOn := true), [TestText("Called autoTest, send stop to quit\n")])
  }

  /** `stopCmd` turns both automatic modes off and nothing else. */
  function StopCmd(s: TestState): (s': TestState)
    ensures !Enabled(s') && s'.lastTime == s.lastTime && s'.timerEventOdd == s.timerEventOdd
  {
    s.(autoReadOn := false, autoTestOn := false)
  }

  function AutoRead(p: Pins): seq<Event> {
    [TestText("\n")] + ReadEolSensors(p) + ReadEncoders(p) + [TestText("\n")]
  }

  /** The even half of the automatic test: both LEDs on, every odd-numbered solenoid bit set. */
  function AutoTestEven(): seq<Event> {
    [TestText("Set even solenoids\n"), Led(LedA, true), Led(LedB, true), SetSolenoids(0xAAAA)]
  }

  function AutoTestOdd(): seq<Event> {
    [TestText("Set odd solenoids\n"), Led(LedA, false), Led(LedB, false), SetSolenoids(0x5555)]
  }

  /**
   `handleTimerEvent`: sensors are read on odd ticks only, the solenoid
   pattern alternates with the tick's parity, and the parity always flips.
   */
  function HandleTimerEvent(s: TestState, p: Pins): (r: (TestState, seq<Event>))
    ensures r.0 == s.(timerEventOdd := !s.timerEventOdd)
    ensures SetSolenoids(0x5555) in r.1 || SetSolenoids(0xAAAA) in r.1 <==> s.autoTestOn
    ensures s.autoTestOn ==> SetSolenoids(if s.timerEventOdd then 0x5555 else 0xAAAA) in r.1
    ensures s.autoReadOn && s.timerEventOdd <==> Reading("  EOL_L: ", p.eolL) in r.1
  {
    var read := if s.autoReadOn && s.timerEventOdd then AutoRead(p) else [];
    var test := if s.autoTestOn then (if s.timerEventOdd then AutoTestOdd() else AutoTestEven()) else [];
    assert read != [] ==> read[1] == Reading("  EOL_L: ", p.eolL);
    (s.(timerEventOdd := !s.timerEventOdd), read + test)
  }

  /** The solenoid words written by a run of `n` timer events with the automatic test on. */
  function Patterns(s: TestState, p: Pins, n: nat): (r: (TestState, seq<bv16>))
    decreases n
  {
    if n == 0 then (s, [])
    else
      var t := HandleTimerEvent(s, p);
      var rest := Patterns(t.0, p, n - 1);
      (rest.0, [if s.timerEventOdd then 0x5555 else 0xAAAA] + rest.1)
  }

  /**
   Over any run of timer events the two patterns alternate, starting from
   the one of the current parity, and after an even number of events the
   parity is back where it started.
   */
  lemma {:induction false} PatternsAlternate(s: TestState, p: Pins, n: nat)
    ensures |Patterns(s, p, n).1| == n
    ensures Patterns(s, p, n).0.timerEventOdd == (s.timerEventOdd != (n % 2 == 1))
    ensures forall i :: 0 <= i < n ==>
      Patterns(s, p, n).1[i] == (if s.timerEventOdd == (i % 2 == 0) then 0x5555 else 0xAAAA)
    decreases n
  {
    if n > 0 {
      var t := HandleTimerEvent(s, p);
      PatternsAlternate(t.0, p, n - 1);
    }
  }

  /** The solenoid words a run of outputs writes, in order. */
  function Words(evs: seq<Event>): (r: seq<bv16>)
    ensures |r| <= |evs|
    decreases |evs|
  {
    if evs == [] then [] else (if evs[0].SetSolenoids? then [evs[0].mask] else []) + Words(evs[1..])
  }

  lemma {:induction false} WordsAppend(a: seq<Event>, b: seq<Event>)
    ensures Words(a + b) == Words(a) + Words(b)
    decreases |a|
  {
    if a != [] {
      var head: seq<bv16> := if a[0].SetSolenoids? then [a[0].mask] else [];
      assert (a + b)[0] == a[0] && (a + b)[1..] == a[1..] + b;
      assert Words(a + b) == head + Words(a[1..] + b);
      WordsAppend(a[1..], b);
      assert Words(a) == head + Words(a[1..]);
    } else {
      assert a + b == b;
    }
  }

  lemma {:induction false} NoWords(evs: seq<Event>)
    requires forall i :: 0 <= i < |evs| ==> !evs[i].SetSolenoids?
    ensures Words(evs) == []
    decreases |evs|
  {
    if evs != [] {
      NoWords(evs[1..]);
    }
  }

  /**
   A timer event writes exactly one solenoid word when the automatic test is
   on, the one of its parity, and none otherwise; the sensor readings it may
   print write nothing.
   */
  lemma TickWords(s: TestState, p: Pins)
    ensures Words(HandleTimerEvent(s, p).1) == (if s.autoTestOn then [if s.timerEventOdd then 0x5555 else 0xAAAA] else [])
  {
    var read := if s.autoReadOn && s.timerEventOdd then AutoRead(p) else [];
    var test := if s.autoTestOn then (if s.timerEventOdd then AutoTestOdd() else AutoTestEven()) else [];
    NoWords(read);
    WordsAppend(read, test);
    if s.autoTestOn {
      var t := test[..3];
      assert test == t + [test[3]];
      NoWords(t);
      WordsAppend(t, [test[3]]);
    }
  }

  /**
   With the automatic test on, two consecutive timer events (whatever the
   sensors read in between) each write one solenoid word, and the two words
   are complements: every solenoid changes at each tick.
   */
  lemma ConsecutiveTicksComplementary(s: TestState, p: Pins, p': Pins)
    requires s.autoTestOn
    ensures var t1 := HandleTimerEvent(s, p);
      var t2 := HandleTimerEvent(t1.0, p');
      && |Words(t1.1)| == 1 && |Words(t2.1)| == 1
      && Words(t1.1)[0] ^ Words(t2.1)[0] == 0xFFFF
  {
    var t1 := HandleTimerEvent(s, p);
    TickWords(s, p);
    TickWords(t1.0, p');
  }

  /** `setAllCmd` can set any 16-bit word: sending its high and low byte sets exactly that word. */
  lemma SetAllRoundTrip(id: bv8, w: bv16)
    ensures SetAllCmd([id, HighByte(w), LowByte(w)]) == [TestText("Called setAll\n"), SetSolenoids(w)]
  {
    WordSplit(w);
  }
}

=== FILE: test_mode.dfy ===
/**
 The hardware-test state of the older enumerated state machine
 (`src/ayab/test.cpp`). It is begun only from the ready state of
 `OpFsm`, and its commands are those of `TestCommands`.
 */
module TestMode {
  import opened Bytes
  import opened AyabTypes
  import opened TestCommands
  import OpFsm
  import OpTest

  /** What `begin` and `end` did: error code, new test state, requested state and outputs. */
  datatype Outcome = Outcome(error: bv8, test: TestState, request: Option<OpFsm.OpState>, events: seq<Event>)

  /**
   `begin`: refused unless the state machine is in ready; otherwise request
   test, greet, swap the encoder interrupt for the beeping `encoderAChange`
   handler (the firmware build) and set up.
   */
  function Begin(state: OpFsm.OpState, s: TestState, now: u32): (o: Outcome)
    ensures o.error == Success <==> state == OpFsm.Ready
    ensures o.error != Success ==> o == Outcome(ErrWrongMachineState, s, None, [])
    ensures o.error == Success ==> o.request == Some(OpFsm.Test) && o.test == SetUp(now) && !Enabled(o.test)
    ensures o.error == Success ==>
      |o.events| >= 3 && o.events[0] == TestText("AYAB Hardware Test, ")
      && o.events[|o.events| - 2..] == [Action(DetachInterrupt), Action(AttachEncoderABeep)]
  {
    if state != OpFsm.Ready then Outcome(ErrWrongMachineState, s, None, [])
    else
      var w := OpTest.Welcome("AYAB Hardware Test, ");
      Outcome(Success, SetUp(now), Some(OpFsm.Test), w + [Action(DetachInterrupt), Action(AttachEncoderABeep)])
  }

  /** `update`: while enabled, track the position and run a timer event every `TEST_LOOP_DELAY`. */
  function Update(s: TestState, now: u32, p: Pins): (r: (TestState, seq<Event>))
    ensures !Enabled(s) ==> r == (s, [])
    ensures Enabled(s) ==> |r.1| >= 1 && r.1[0] == Action(EncodePosition)
    ensures Enabled(s) && Elapsed(now, s.lastTime) >= TestLoopDelay ==> r.0.lastTime == now && r.0.timerEventOdd != s.timerEventOdd
    ensures Enabled(s) && Elapsed(now, s.lastTime) < TestLoopDelay ==> r == (s, [Action(EncodePosition)])
  {
    if !Enabled(s) then (s, [])
    else if Elapsed(now, s.lastTime) >= TestLoopDelay then
      var t := HandleTimerEvent(s.(lastTime := now), p);
      (t.0, [Action(EncodePosition)] + t.1)
    else (s, [Action(EncodePosition)])
  }

  /** `end`: both automatic modes off, request init, re-initialise knitting and re-arm the encoder interrupt. */
  function End(s: TestState): (o: Outcome)
    ensures !Enabled(o.test) && o.request == Some(OpFsm.Init)
    ensures o.events == [Action(KnitInit), Action(SetUpInterrupt)]
  {
    Outcome(Success, StopCmd(s), Some(OpFsm.Init), [Action(KnitInit), Action(SetUpInterrupt)])
  }

  /** The update of this test mode and of the Op-state test mode are the same function of state, clock and pins. */
  lemma SameUpdateAsOpTest(s: TestState, now: u32, p: Pins)
    ensures Update(s, now, p) == OpTest.Update(s, now, p)
  {
  }
}

=== FILE: tester.dfy ===
/**
 The hardware tester of the older `src/ayab` layer (`src/ayab/tester.cpp`).
 It is entered through `startTest` from the state machine of
 `src/ayab/fsm.h`, whose states are `FsmState`; its commands are those of
 `TestCommands`, dispatched by the protocol handler.
 */
module Tester {
  import opened Bytes
  import opened AyabTypes
  import opened TestCommands
  import Com

  /** `OpState` of `src/ayab/fsm.h`. */
  datatype FsmState = SInit | SReady | SKnit | STest | SError

  datatype Tester = Tester(machineType: MachineType, test: TestState)

  /** What a tester call did: its error code, the new tester, a requested state and the knitter's machine type if set. */
  datatype Outcome = Outcome(error: bv8, tester: Tester, request: Option<FsmState>,
                             knitterMachine: Option<MachineType>, events: seq<Event>)

  /**
   `setUp`: greet, detach the encoder interrupt and attach the beeping
   `encoderAChange` handler in its place (the firmware build), both
   automatic modes off, timer started now.
   */
  function SetUpTest(now: u32): (r: (TestState, seq<Event>))
    ensures r.0 == SetUp(now) && !Enabled(r.0) && |r.1| >= 3 && r.1[0] == TestText("AYAB Hardware Test, ")
    ensures r.1[|r.1| - 2..] == [Action(DetachInterrupt), Action(AttachEncoderABeep)]
  {
    (SetUp(now),
     [TestText("AYAB Hardware Test, "), Reading("Firmware v", Com.FwVersionMaj as int), Reading(".", Com.FwVersionMin as int),
      Reading(" API v", Com.ApiVersion as int)] + HelpCmd() + [Action(DetachInterrupt), Action(AttachEncoderABeep)])
  }

  /**
   `startTest`: only from init or ready; it requests the test state, hands
   the machine type to the knitter and sets up. From any other state it
   fails and changes nothing.
   */
  function StartTest(fsm: FsmState, t: Tester, m: MachineType, now: u32): (o: Outcome)
    ensures o.error == Success <==> fsm == SInit || fsm == SReady
    ensures o.error != Success ==> o == Outcome(ErrWrongMachineState, t, None, None, [])
    ensures o.error == Success ==>
      && o.request == Some(STest) && o.knitterMachine == Some(m)
      && o.tester.test == SetUp(now) && o.tester.machineType == t.machineType
  {
    if fsm == SInit || fsm == SReady then
      var su := SetUpTest(now);
      Outcome(Success, t.(test := su.0), Some(STest), Some(m), su.1)
    else Outcome(ErrWrongMachineState, t, None, None, [])
  }

  /** `loop`: a timer event every 500 ms of the 32-bit clock, whether or not an automatic mode is on. */
  function Loop(t: Tester, now: u32, p: Pins): (r: (Tester, seq<Event>))
    ensures Elapsed(now, t.test.lastTime) < TestLoopDelay ==> r == (t, [])
    ensures Elapsed(now, t.test.lastTime) >= TestLoopDelay ==>
      var h := HandleTimerEvent(t.test.(lastTime := now), p);
      r == (t.(test := h.0), h.1)
  {
    if Elapsed(now, t.test.lastTime) >= TestLoopDelay then
      var h := HandleTimerEvent(t.test.(lastTime := now), p);
      (t.(test := h.0), h.1)
    else (t, [])
  }

  /** `quitCmd`: request init and re-arm the knitter's encoder interrupt; the automatic modes stay as they are. */
  function QuitCmd(t: Tester): (o: Outcome)
    ensures o == Outcome(Success, t, Some(SInit), None, [Action(KnitterSetUpInterrupt)])
  {
    Outcome(Success, t, Some(SInit), None, [Action(KnitterSetUpInterrupt)])
  }

  /**
   Unlike the Op-state test mode, the loop keeps ticking with both automatic
   modes off: the parity still flips, but nothing is written or read.
   */
  lemma IdleLoopOnlyFlipsParity(t: Tester, now: u32, p: Pins)
    requires !Enabled(t.test) && Elapsed(now, t.test.lastTime) >= TestLoopDelay
    ensures var r := Loop(t, now, p);
      r.1 == [] && r.0.test.timerEventOdd == !t.test.timerEventOdd && r.0.test.lastTime == now
  {
  }

  /** A refused start leaves no trace, and a test can only be started once per init or ready. */
  lemma StartFromTestRefused(t: Tester, m: MachineType, now: u32)
    ensures StartTest(STest, t, m, now) == Outcome(ErrWrongMachineState, t, None, None, [])
    ensures StartTest(SKnit, t, m, now).error == ErrWrongMachineState
  {
  }
}
